=== FILE: README.md ===
# skillforge core, modelled in Dafny

skillforge is an interactive tutor. It runs a course made of lessons. Each
lesson is a list of exercises. The learner types shell-like commands or
answers. The tutor has three parts:

- A **command simulator** runs each command against a virtual file system
  and a small Python session. The file system holds files, directories and
  a working directory. The Python session remembers imports and variables.
  Commands it does not know can go to a language model.
- An **exercise validator** judges each answer. It tries pattern tiers
  first: an exact match, then a normalised match, then containment. It
  falls back to the language model, and then to a basic verdict. It can
  also produce hints.
- A **session manager** drives the lessons. It records attempts, hints,
  skips and completions in the learner's progress records.

The model is purely functional. Every entity is an immutable datatype and
every operation is a function or a method over values. The parts the
program gets from outside are passed in as parameters:

- The language model is an `Oracle.Client`. `NoClient` means no model is
  configured. `Client(generate)` means a model answers each prompt with
  text, or raises.
- The shell tokenizer (`shlex.split`) is `tokenize`. It returns `None` on
  a syntax error.
- Python's `float()` on a score is `parseScore`.
- The clock is a single `now` value per step.

Modules:

- `Wrappers`: `Option`, `Result` and the first-match search over a list.
- `Strings`: strip, split, join, lower, prefix and substring helpers.
- `Lessons`, `Courses`, `Progress`, `Sessions`: the course and progress
  records.
- `Oracle`: the language-model interface.
- `FileSystem`: the virtual file system.
- `PythonSyntax`: the regular expressions the simulator uses to recognise
  Python, written out.
- `Simulator`: the command simulator.
- `Validator`: the validator.
- `SessionManager`: the exercise loop, the lesson loop and session creation.

Some behaviours of the code are worth stating plainly, since the model
keeps them:

- A partial verdict from the containment tiers carries the exercise's
  first hint (skillforge/core/validator.py:155-174).
- `pip` with an unknown subcommand fails with exit code 1
  (skillforge/core/simulator.py:527-533).
- A path can be a file and a directory at the same time, because writing
  a file does not check the directory set
  (skillforge/core/simulator.py:127-139).
- An attempt stores the normalised answer as the user's answer, not the
  raw line (skillforge/core/session.py:219).

## Model

| member | source | states |
|---|---|---|
| Lessons.NewExercise | skillforge/models/lesson.py:10-29 | a new exercise keeps its id and instruction, has no expected output and no hints |
| Lessons.NewLesson | skillforge/models/lesson.py:32-53 | a new lesson keeps its id, title and objectives, and its exercises in order |
| Lessons.ExerciseById | skillforge/models/lesson.py:55-68 | the result is absent exactly when no exercise has the id; otherwise it is the first exercise of the lesson carrying that id |
| Wrappers.FirstMatch | skillforge/models/lesson.py:65-68 | the linear search finds an element satisfying the test exactly when one exists, and it is the first such element of the list |
| Lessons.ExerciseByIndex | skillforge/models/lesson.py:70-82 | an exercise is returned exactly for indices inside the list, and it is the one at that position |
| Lessons.TotalExercises | skillforge/models/lesson.py:84-91 | the count is the number of indices at which lookup by index succeeds |
| Courses.NewCourse | skillforge/models/course.py:13-34 | a new course keeps its id, topic, description, difficulty and lessons in order |
| Courses.LessonById | skillforge/models/course.py:36-49 | the result is absent exactly when no lesson has the id; otherwise it is the first lesson of the course with that id |
| Courses.LessonByIndex | skillforge/models/course.py:51-63 | a lesson is returned exactly for indices inside the list, and it is the one at that position |
| Courses.TotalLessons | skillforge/models/course.py:65-72 | the count is the number of indices at which lookup by index succeeds |
| Courses.CourseTotalExercises | skillforge/models/course.py:74-81 | the total is zero for a course without lessons and bounds every lesson's exercise count |
| Courses.SumBound | skillforge/models/course.py:74-81 | the sum over lessons bounds each lesson's exercise count |
| Courses.SumAppend | skillforge/models/course.py:74-81 | appending a lesson adds exactly its exercise count to the sum |
| Courses.TotalExercisesAppend | skillforge/models/course.py:74-81 | appending a lesson adds exactly its exercise count to the course total |
| Progress.NewExerciseProgress | skillforge/models/progress.py:16-36 | a fresh exercise record is not started, has zero attempts, no answer and no completion time |
| Progress.NewLessonProgress | skillforge/models/progress.py:39-63 | a fresh lesson record is not started, has no exercise records and no start or completion time |
| Progress.NewCourseProgress | skillforge/models/progress.py:66-96 | a fresh course record is not started, starts at lesson index 0 and has no lesson records or times |
| Sessions.NewLearningSession | skillforge/models/session.py:19-62 | a new session is active, points at no lesson or exercise, is neither paused nor completed, and was created and last active at the given time |
| Oracle.Included | skillforge/core/validator.py:229-236 | optional text is put in a prompt exactly when it is present and non-empty |
| FileSystem.InitialVfs | skillforge/core/simulator.py:43-47 | the file system starts with no files, the directories `/`, `/home`, `/home/user` and `/tmp`, and `/home/user` as the working directory |
| FileSystem.InitialWf | skillforge/core/simulator.py:43-47 | the initial file system is well formed: every stored path is canonical and the root exists |
| FileSystem.RenderCanonical | skillforge/core/simulator.py:49-74 | rendering valid segments gives a canonical path whose segments are exactly those |
| FileSystem.CanonicalRender | skillforge/core/simulator.py:49-74 | every canonical path is the rendering of its own valid segments |
| FileSystem.RenderInjective | skillforge/core/simulator.py:49-74 | distinct segment lists render to distinct paths |
| FileSystem.NormalizePath | skillforge/core/simulator.py:49-74 | every normalised path is canonical: absolute, no empty, `.` or `..` segment, no trailing slash |
| FileSystem.NormalizeCanonical | skillforge/core/simulator.py:49-74 | a path that is already canonical normalises to itself, whatever the working directory |
| FileSystem.NormalizeIdempotent | skillforge/core/simulator.py:49-74 | normalising twice gives the same path as normalising once |
| FileSystem.NormalizeDotDot | skillforge/core/simulator.py:49-74 | `..` resolves to the parent of the working directory, and the root is its own parent |
| FileSystem.NormalizeDot | skillforge/core/simulator.py:49-74 | `.` resolves to the working directory |
| FileSystem.NormalizeChild | skillforge/core/simulator.py:49-74 | a plain name resolves to the working directory with that name appended |
| FileSystem.Parent | skillforge/core/simulator.py:127-139 | the parent of a canonical path is canonical and drops exactly the last segment |
| FileSystem.ReadFile | skillforge/core/simulator.py:110-125 | reading succeeds exactly for files, returns the stored content, and otherwise reports the file as missing, naming the path as the user gave it |
| FileSystem.WriteFile | skillforge/core/simulator.py:127-139 | after a write the file reads back the new content; the parent directory is added and nothing else is; other files and the working directory are unchanged; well-formedness is kept |
| FileSystem.ReadAfterWrite | skillforge/core/simulator.py:110-139 | reading after a write returns the written content at the written path and the old result at every other path |
| FileSystem.Touch | skillforge/core/simulator.py:199-207 | touching leaves an existing file alone and creates a missing one empty |
| FileSystem.TouchIdempotent | skillforge/core/simulator.py:199-207 | touching twice is the same as touching once |
| FileSystem.AddAncestors | skillforge/core/simulator.py:184-197 | the directories added are the missing ancestors of the path below its nearest existing ancestor (the walk stops there, or at the root) |
| FileSystem.CreateDirectory | skillforge/core/simulator.py:184-197 | after creation the path is a directory; existing directories remain; only the path and the missing ancestors below its nearest existing ancestor are added; files and working directory are unchanged |
| FileSystem.CreateDirectoryFacts | skillforge/core/simulator.py:184-197 | creation adds the path itself and each missing ancestor below the nearest existing one, only those, and all of them canonical |
| FileSystem.ChildNamesMembers | skillforge/core/simulator.py:141-182 | a name is a child of a directory exactly when some file or directory lies directly inside it under that name |
| FileSystem.ListDirectory | skillforge/core/simulator.py:141-182 | listing fails for a missing path and for a non-directory, each with its own message; otherwise it returns the direct children's names, sorted, without slashes, each as often as it occurs |
| FileSystem.ListDirectoryContents | skillforge/core/simulator.py:141-182 | a name is in a successful listing exactly when it names a direct child of the directory |
| FileSystem.ListAfterCreate | skillforge/core/simulator.py:141-197 | after creating a plain name in the working directory, listing `.` succeeds and includes that name |
| PythonSyntax.PrintMatch | skillforge/core/simulator.py:452-456 | a line is recognised as a `print` call of a quoted literal exactly when a quote followed by `)` closes it on the same line after at least one character; the literal is the text before the first such close |
| PythonSyntax.ShortestClose | skillforge/core/simulator.py:452-456 | the search finds a closing quote exactly when one exists, and returns the text before the first one |
| PythonSyntax.PrintRoundTrip | skillforge/core/simulator.py:452-456 | `print("g")` yields `g` for any one-line literal without quotes |
| PythonSyntax.Span | skillforge/core/simulator.py:458-463 | the scan stops at the first character failing the test, and every character before it passes |
| PythonSyntax.AssignMatch | skillforge/core/simulator.py:458-463 | a recognised assignment has a non-empty word-character name that starts the line, and a non-empty one-line value |
| PythonSyntax.AssignMatchMeaning | skillforge/core/simulator.py:430-440 | the assignment parser succeeds exactly on the lines the `name = value` pattern of the Python check accepts |
| PythonSyntax.AssignRoundTrip | skillforge/core/simulator.py:458-463 | `name = value` parses back to the same name and value |
| PythonSyntax.AssignMatchExact | skillforge/core/simulator.py:458-463 | the parsed name is the leading word and the parsed value runs from the first non-blank after `=` to the end of the line |
| PythonSyntax.ImportedModule | skillforge/core/simulator.py:477-478 | the module recorded for an `import` line contains no dot; ImportRoundTrip and ImportDotted pin it down |
| PythonSyntax.ImportRoundTrip | skillforge/core/simulator.py:477-478 | `import m` records `m` |
| PythonSyntax.ImportDotted | skillforge/core/simulator.py:477-478 | `import m.sub` records the top-level package `m` |
| PythonSyntax.FromModule | skillforge/core/simulator.py:479-480 | the module recorded for a `from` line contains no dot; FromRoundTrip and FromDotted pin it down |
| PythonSyntax.FromHasTwoWords | skillforge/core/simulator.py:479-480 | a stripped `from` line always has a second word, so reading it cannot fail |
| PythonSyntax.FromRoundTrip | skillforge/core/simulator.py:479-480 | `from m …` records `m` |
| PythonSyntax.FromDotted | skillforge/core/simulator.py:479-480 | `from m.sub …` records the top-level package `m` |
| PythonSyntax.FromWords | skillforge/core/simulator.py:479-480 | the second word of `from m …` is `m` |
| Simulator.KeyNamesDistinct | skillforge/core/simulator.py:18-34 | different kinds of state change are reported under different keys |
| Simulator.InitialSim | skillforge/core/simulator.py:217-231 | a new simulator is well formed, has the initial file system and environment, and no imports or variables |
| Simulator.Reset | skillforge/core/simulator.py:725-734 | reset gives exactly the initial simulator, whatever came before: the initial tree and environment, the home directory as working directory, and no imports or variables |
| Simulator.ResetForgets | skillforge/core/simulator.py:725-734 | after reset, two simulators are identical and equal to a new one, whatever their history |
| Simulator.Echo | skillforge/core/simulator.py:301-304 | echo succeeds and changes nothing; its output is the arguments joined by single spaces, and splitting it on spaces gives back the arguments when none contains a space |
| Simulator.Ls | skillforge/core/simulator.py:306-314 | ls lists the given path, or `.` when none is given; it succeeds exactly when the listing succeeds and then prints the names one per line, or nothing for an empty directory; otherwise it reports the listing's error with exit code 1; it changes nothing |
| Simulator.Cat | skillforge/core/simulator.py:316-328 | cat without an operand fails with exit code 1; otherwise it succeeds exactly when the path is a file and prints its content, or reports the missing file with exit code 1 |
| Simulator.Mkdir | skillforge/core/simulator.py:330-347 | mkdir without an operand fails and changes nothing; otherwise the path becomes a directory and the change is reported under the created-directory key |
| Simulator.TouchCommand | skillforge/core/simulator.py:349-363 | touch without an operand fails and changes nothing; otherwise the path becomes a file and the change is reported under the created-file key |
| Simulator.Cd | skillforge/core/simulator.py:365-389 | cd without an argument goes to `$HOME`, or `/home/user` when unset; with a path it succeeds exactly when the path is a directory, moves there and reports it; otherwise it fails with exit code 1 and stays; nothing but the working directory changes |
| Simulator.Pwd | skillforge/core/simulator.py:391-395 | pwd prints the working directory and changes nothing |
| Simulator.PwdAfterCd | skillforge/core/simulator.py:365-395 | after `cd p` to an existing directory, pwd prints the normalised `p` |
| Simulator.CatAfterTouch | skillforge/core/simulator.py:316-363 | after `touch p`, `cat p` succeeds and prints the old content, or nothing for a new file |
| Simulator.LsAfterMkdir | skillforge/core/simulator.py:306-347 | after `mkdir x` for a plain name, `ls` lists `x` |
| Simulator.Python | skillforge/core/simulator.py:397-428 | with no argument, python prints the banner; `-c` runs the next argument as code; a `.py` argument runs the file or fails when it cannot be read; other arguments go to the language model; only Python state changes |
| Simulator.PythonCode | skillforge/core/simulator.py:442-472 | running code changes at most the imports and variables, and each such change is reported |
| Simulator.CodeIsStatement | skillforge/core/simulator.py:446-450 | stripped code that does not start with `import` or `from` is run as a statement |
| Simulator.PythonStatement | skillforge/core/simulator.py:452-472 | a statement changes at most the variables, and reports what it changes; a recognised `print` outputs its literal and changes nothing; otherwise a recognised assignment binds the parsed name to the parsed value and reports that name; code that is neither is handed to the language model with the namespace unchanged |
| Simulator.PythonImport | skillforge/core/simulator.py:474-492 | an import succeeds exactly for `import` and `from` lines; an `import` line adds and reports the module `ImportedModule` reads, and a `from` line the module `FromModule` reads; anything else fails with the invalid-import message |
| Simulator.RecordImport | skillforge/core/simulator.py:486-492 | recording an import adds the module to the import set and reports it |
| Simulator.ImportRegisters | skillforge/core/simulator.py:442-492 | `import m` adds exactly `m` to the imports |
| Simulator.DottedImportRegisters | skillforge/core/simulator.py:442-492 | `import m.sub` adds exactly the top-level package `m` to the imports |
| Simulator.FromRegisters | skillforge/core/simulator.py:442-492 | `from m …` adds exactly `m` to the imports |
| Simulator.AssignmentBinds | skillforge/core/simulator.py:442-472 | `name = value` binds the name to the value and changes no other variable |
| Simulator.PrintOutputs | skillforge/core/simulator.py:442-456 | `print("g")` succeeds, prints `g` and reports no change |
| Simulator.PrintStatement | skillforge/core/simulator.py:452-456 | a recognised print call outputs its literal and changes nothing |
| Simulator.Pip | skillforge/core/simulator.py:494-533 | pip succeeds exactly with no subcommand, with `list`, or with `install` and a package; install reports the package; `install` without a package and unknown subcommands fail |
| Simulator.CloneDirectoryOfUrl | skillforge/core/simulator.py:566-569 | cloning `…/name.git` announces the directory `name` |
| Simulator.Git | skillforge/core/simulator.py:535-577 | git fails only for `clone` without a repository, with exit code 128; init reports the repository; clone reports the repository it clones; other subcommands succeed and change nothing |
| Simulator.Docker | skillforge/core/simulator.py:579-616 | docker always succeeds; `run` starts the last argument as the image, `image` when there is none, and reports it; `build` reports a built image; other subcommands print a generic confirmation and change nothing |
| Simulator.Kubectl | skillforge/core/simulator.py:618-647 | kubectl always succeeds and changes nothing; `get` prints a sample listing of the named resource, `pods` by default; subcommands other than `get` and `apply` print a generic confirmation |
| Simulator.WithLlm | skillforge/core/simulator.py:649-723 | without a model the command is unknown, with exit code 127; a raised error fails with exit code 1; otherwise the command succeeds exactly when the reply contains the success marker, with exit code 0 on success and 1 otherwise; its output is the stripped field after the first output marker when there is one and the whole reply otherwise, and the model's simulation is reported |
| Simulator.LlmOutput | skillforge/core/simulator.py:704-707 | the output is the stripped text between the first output marker and the next one (or the end of the reply); it is part of the reply and holds no marker |
| Strings.FieldBoundsUnique | skillforge/core/simulator.py:704-707 | the bounds of the field after the first marker are determined by the reply, so the output taken is unique |
| Simulator.Shell | skillforge/core/simulator.py:269-283 | the file commands change only the file system and working directory, report only file-system changes, and keep it well formed |
| Simulator.Tool | skillforge/core/simulator.py:286-293 | pip, git, docker and kubectl never report Python changes |
| Simulator.Dispatch | skillforge/core/simulator.py:266-299 | a dispatched command keeps the environment, reports every Python change, touches the file system only when it is a file command, and keeps the state well formed |
| Simulator.NotShell | skillforge/core/simulator.py:284-299 | a command that is not a file command changes only Python state |
| Simulator.Simulate | skillforge/core/simulator.py:233-299 | a blank command does nothing; a tokenizer error fails with exit code 1 and changes nothing; only a file command can change the file system; the environment is kept; Python changes are reported; well-formedness is kept |
| Simulator.SimulateDispatches | skillforge/core/simulator.py:243-299 | a non-blank command that tokenizes to at least one word is dispatched on its first word |
| Simulator.UnknownWithoutClient | skillforge/core/simulator.py:294-299 | without a model, a command that is neither built in nor Python-like fails with exit code 127 and changes nothing |
| Simulator.DispatchUnknown | skillforge/core/simulator.py:284-299 | without a model, dispatching an unknown non-Python word fails with exit code 127 |
| Simulator.NotShellUnknown | skillforge/core/simulator.py:284-299 | without a model, a word that is not python or a tool fails with exit code 127 when the line is not Python-like |
| Validator.ExerciseHints | skillforge/core/validator.py:323-338 | the hint list is the exercise's hint at the index when there is one, and empty otherwise |
| Validator.Matched | skillforge/core/validator.py:119-140 | a pattern match is correct, with score 1 and no hints |
| Validator.ValidateWithPattern | skillforge/core/validator.py:107-176 | without an expected output no tier decides; a correct verdict has score 1 and no hints; a partial verdict carries the first hint; every score is in [0, 1] |
| Validator.ValidateBasic | skillforge/core/validator.py:178-206 | without an expected output the answer is partial with score 0.5 and no hints; with one, it is incorrect with score 0 and the first hint |
| Validator.Clamp | skillforge/core/validator.py:296-301 | a score is clamped into [0, 1]: kept when inside, 0 when below, 1 when above |
| Validator.ReadLine | skillforge/core/validator.py:284-309 | reading a response line keeps the score in [0, 1] |
| Validator.ReadField | skillforge/core/validator.py:287-309 | reading a recognised field keeps the score in [0, 1] |
| Validator.ReadLines | skillforge/core/validator.py:284-309 | reading all lines keeps the score in [0, 1] |
| Validator.ParseResponse | skillforge/core/validator.py:267-321 | the parsed verdict has a score in [0, 1], marks the model as its source, takes status, score and feedback from the lines read, and a verdict that is not correct ends with the first exercise hint |
| Validator.Conclude | skillforge/core/validator.py:312-321 | the verdict keeps the status, score and feedback read, adds the first exercise hint unless it is correct, and marks the model as source |
| Validator.ParseReport | skillforge/core/validator.py:238-321 | a reply written in the requested four-line format parses back to its status, score, feedback and hint, followed by the first exercise hint unless correct |
| Validator.StatusRoundTrip | skillforge/core/validator.py:287-294 | each status name, lower-cased, reads back as that status |
| Validator.ValidateWithLlm | skillforge/core/validator.py:208-265 | the score is in [0, 1]; a reply is parsed into the verdict; a raised error gives a partial verdict with score 0.5, no hints, the recorded-answer feedback and the error in the details |
| Validator.Validate | skillforge/core/validator.py:68-105 | every verdict has a score in [0, 1], and an incorrect verdict ends with the first exercise hint |
| Validator.Judge | skillforge/core/validator.py:84-105 | the tiered judgement of a stripped answer has a score in [0, 1], and an incorrect verdict ends with the first exercise hint |
| Validator.BlankAnswerRejected | skillforge/core/validator.py:84-92 | a blank answer is incorrect, with score 0, the no-answer feedback and the first hint |
| Validator.CorrectWithoutModel | skillforge/core/validator.py:94-105 | without a model, a correct verdict always has score 1 and no hints |
| Validator.PatternDecides | skillforge/core/validator.py:94-98 | when the expected output is non-empty and a pattern tier decides, its verdict is final |
| Validator.ValidateIgnoresPadding | skillforge/core/validator.py:84 | surrounding whitespace does not change the verdict |
| Validator.ExpectedAnswerAccepted | skillforge/core/validator.py:94-140 | an answer the pattern tiers accept is correct, with score 1 and no hints |
| Validator.AcceptedNotBlank | skillforge/core/validator.py:119-140 | an accepted non-empty answer means the expected output is not empty, so the pattern tiers apply |
| Validator.PatternNeedsNoModel | skillforge/core/validator.py:94-102 | when a pattern tier decides, the language model plays no part in the verdict |
| Validator.PyIndex | skillforge/core/validator.py:356-358 | Python list indexing: a non-negative index counts from the front, a negative one from the back, and out-of-range indices fail |
| Validator.GenerateHint | skillforge/core/validator.py:340-365 | attempt n within the hints gives hint n; past them, without a model, the fallback hint; with a model, the model's stripped reply; no hint only for indices that run off the front |
| Validator.HintsInOrder | skillforge/core/validator.py:340-365 | asking for hints 1, 2, … n hands out the exercise's first n hints in order |
| SessionManager.NormalizeAnswer | skillforge/core/session.py:194-198 | the answer is stripped, and one surrounding pair of backticks is removed and the inside stripped |
| SessionManager.BackticksDropped | skillforge/core/session.py:194-198 | a command typed in backticks is read as the stripped command |
| SessionManager.Tries | skillforge/core/session.py:215-220 | the number of attempts never exceeds the number of lines entered |
| SessionManager.TriesAppend | skillforge/core/session.py:215-220 | one more line adds one attempt exactly when it is an attempt |
| SessionManager.HandleSpecial | skillforge/core/session.py:238-287 | quit and exit pause the session; skip marks the exercise failed; hint raises the hint count and shows one hint; help and status change nothing |
| SessionManager.HintRequestAnswered | skillforge/core/session.py:269-277 | a hint request shows one more hint: the exercise's next one while any remain, otherwise the fallback hint when no model is configured |
| SessionManager.TakeTurn | skillforge/core/session.py:178-236 | one line: it ends the exercise exactly when it is quit, exit or skip or a correct attempt; a stop comes only from quit or exit and a skip only from skip; an attempt counts, stores the normalised answer and runs the simulator on it with the instruction as context; a special command leaves the simulator alone; only a correct answer completes the exercise and only skip fails it; quit pauses; a wrong attempt shows the verdict's first hint if it has one; the hint count rises by one per hint given |
| SessionManager.RunExercise | skillforge/core/session.py:178-236 | the exercise loop stops at the first line that ends the exercise and reads nothing after it; no line before it ends the exercise, and when the input runs out no line did; a quit or exit line stops the run with the session paused, a skip line fails the exercise, and otherwise the last line was an attempt judged correct and its normalised text is the stored answer; the attempts counted are those among the lines read, and the simulator ends as those attempts leave it |
| SessionManager.FirstEndDecides | skillforge/core/session.py:201-231 | for any run of the exercise loop, if line k is the first that ends the exercise, the run used exactly k + 1 lines; quit or exit on that line means the run stopped, skip means it was skipped, and an attempt means it was solved with that line's normalised text as the stored answer |
| SessionManager.LineDecides | skillforge/core/session.py:201-231 | the line that ended a run decides its outcome: quit or exit only stop, skip only skips, an attempt only solves |
| SessionManager.KeysAreCommands | skillforge/core/session.py:29 | quit, exit and skip are special commands, so never attempts, and no line is both quit or exit and skip |
| SessionManager.EndsCases | skillforge/core/session.py:201-231 | a special command ends the exercise exactly when it is quit, exit or skip; an attempt ends it exactly when the verdict is correct |
| SessionManager.NoneEndsStep | skillforge/core/session.py:193-210 | a line that does not end the exercise extends the run of lines that did not |
| SessionManager.NoneEndsAt | skillforge/core/session.py:193-210 | in a run of lines none of which ends the exercise, no single line does |
| SessionManager.CommandTurn | skillforge/core/session.py:201-267 | a special command ends the turn exactly when it is quit, exit or skip; quit and exit stop it with the session paused; skip fails the exercise; the simulator is untouched; hint alone raises the hint count |
| SessionManager.AttemptTurn | skillforge/core/session.py:213-236 | an attempt counts one try, stores the normalised text, updates the activity time and runs the simulator; it ends the turn as solved exactly on a correct verdict, with the completion time set; otherwise the hint count rises by one and the verdict's first hint, if any, is shown |
| SessionManager.ExerciseTurn | skillforge/core/session.py:193-236 | one pass of the exercise loop either keeps the loop's bookkeeping for one more line, that line not ending the exercise, or ends the run on that line with everything the exercise loop promises |
| SessionManager.RunFrom | skillforge/core/session.py:193-236 | the exercise loop, continued from any point its bookkeeping holds, keeps every promise of the whole loop |
| SessionManager.PlayExercise | skillforge/core/session.py:165-171 | playing an exercise resets the simulator first, resolves the exercise unless the learner stops, and points the session at it |
| SessionManager.RunLessonExercises | skillforge/core/session.py:143-176 | the lesson's exercises only advance; the lesson finishes exactly when every exercise is completed or skipped; on a stop every earlier exercise is resolved, the stopped one is not, and every later record is untouched; quit pauses |
| SessionManager.StartLesson | skillforge/core/session.py:115-117 | starting a lesson marks it in progress and sets its start time once |
| SessionManager.AdvanceTransitive | skillforge/core/session.py:100-141 | progress that only advances twice has only advanced overall |
| SessionManager.KeptTransitive | skillforge/core/session.py:100-141 | progress kept consistent with the course over two steps is kept over both |
| SessionManager.LessonWrittenBack | skillforge/core/session.py:124-133 | writing one lesson's progress back keeps the course progress consistent |
| SessionManager.PlayLesson | skillforge/core/session.py:106-134 | playing a lesson changes only its own record, starts it once, and completes it exactly when all its exercises resolve |
| SessionManager.StepLesson | skillforge/core/session.py:106-141 | one step of the lesson loop touches only the current lesson, completes it unless the learner stops, and pauses when they quit or decline to go on; a completed lesson is passed over without reading input or asking; after the last lesson nothing is asked |
| SessionManager.RunLessons | skillforge/core/session.py:100-141 | when the lesson loop finishes, every lesson from the current one on is completed and the session points at the last lesson; the loop only moves forward from the starting lesson and leaves the lessons before it untouched; with no lesson left it changes nothing; declining or quitting pauses; progress stays consistent |
| SessionManager.Run | skillforge/core/session.py:63-98 | a run starts the course progress once and never leaves the session active; it completes exactly when the course is complete and the input did not run out; progress stays aligned with the course |
| SessionManager.NewExerciseRecords | skillforge/core/session.py:329-336 | one fresh record per exercise, in order, with the exercise's id |
| SessionManager.NewLessonRecords | skillforge/core/session.py:327-344 | one fresh record per lesson, in order, with the lesson's id and a fresh record for each of its exercises |
| SessionManager.CreateNewSession | skillforge/core/session.py:307-373 | a new session is active, with fresh progress aligned to the course for the default user; it points at the first lesson and its first exercise when they exist; hints start at zero |

## Left out

- Persistence is not part of this model: saving progress, loading sessions and finding saved sessions read and write files.
- The prompt text sent to the language model, and the client that sends it, are not modelled. A `Prompt` value carries only the fields the prompt embeds. The model's reply is `Text` or `Raised`.
- `shlex.split` is the `tokenize` parameter. Its quoting rules are not modelled; `None` stands for the `ValueError` it raises.
- Python's `float()` on a score is the `parseScore` parameter. NaN and infinities are not modelled, because the score is a Dafny `real`.
- `PythonSyntax.IsWordChar` / `PythonSyntax.AssignMatchMeaning`: `\w` is ASCII letters, digits and underscore. Python's `re` also counts every Unicode letter and digit as a word character, so a line such as `café = 1` is not recognised as an assignment here.
- `str.lower` is modelled as ASCII lower-casing. Python's Unicode case mapping is not modelled.
- Timestamps are one `now` value supplied per step. The session id is supplied by the caller instead of a random uuid.
- The interrupt path in `run` (KeyboardInterrupt) is modelled as the input running out. Both pause the session.
- Display output (headers, panels, feedback and help text) is not modelled. Only the state it reports is.
- `is_completed` is the `isCompleted` parameter, and `mark_lesson_complete` is not part of this model: its definition is not among the modelled files.
- `ProgressStatus` and `SessionState` are not defined in `models/enums.py`. Their values are those the model tests expect.
- `Sessions.Pause`, `Complete`, `Resume` and `UpdateActivity` set only the state and the last-activity time; their definitions are not among the modelled files.
- The state-change keys are an enumeration. `KeyName` gives the key string each stands for.
- `SessionManager.Run`, `RunLessons`, `StepLesson`, `PlayLesson`, `RunLessonExercises` and `VisitExercise` require that the progress has a record for every lesson and exercise. The code assumes this by indexing.
- `Simulator.PythonCode`: its own contract states only which state may change. The behaviour of imports, `print` and assignments is stated by `Simulator.ImportRegisters`, `Simulator.PrintOutputs` and `Simulator.AssignmentBinds`.
- `Simulator.Dispatch` and `Simulator.NotShell`: their contracts state only what may change. The outcome for unknown commands is stated by `Simulator.DispatchUnknown` and `Simulator.UnknownWithoutClient`.
- `Validator.Validate` and `Validator.Judge`: their contracts state only the score range and the hint tail. The individual branches are stated by `BlankAnswerRejected`, `PatternDecides`, `ExpectedAnswerAccepted` and `CorrectWithoutModel`.
- `Validator.ReadLine`, `ReadField` and `ReadLines` state only that the score stays in range. What each field sets is stated by `Validator.ParseReport`.
- `Courses.CourseTotalExercises` states a bound and the empty case. The exact sum is stated by `Courses.TotalExercisesAppend`.
- `SessionManager.RunExercise` bounds the hint count by the lines read, not its exact value. `SessionManager.TakeTurn` states the exact change for each line.
- The CLI, output formatting, course generation and configuration are not part of this model.

=== FILE: courses.dfy ===
/** A complete generated course: an ordered list of lessons. */
module Courses {
  import opened Wrappers
  import opened Lessons

  datatype Difficulty = Beginner | Intermediate | Advanced

  datatype Course = Course(
    id: string,
    topic: string,
    description: string,
    difficulty: Difficulty,
    lessons: seq<Lesson>)

  /** A course built from its required fields, with no lessons by default. */
  function NewCourse(id: string, topic: string, description: string,
                     difficulty: Difficulty, lessons: seq<Lesson> := []): (c: Course)
    ensures c.id == id && c.topic == topic && c.description == description
    ensures c.difficulty == difficulty
    ensures |c.lessons| == |lessons|
    ensures forall i :: 0 <= i < |lessons| ==> c.lessons[i] == lessons[i]
  {
    Course(id, topic, description, difficulty, lessons)
  }

  /** `Course.get_lesson_by_id`: the first lesson carrying the id, and `None`
      exactly when no lesson carries it. */
  function LessonById(course: Course, lessonId: string): (r: Option<Lesson>)
    ensures r.None? <==> forall i :: 0 <= i < |course.lessons| ==> course.lessons[i].id != lessonId
    ensures r.Some? ==> r.value.id == lessonId
    ensures r.Some? ==> exists i :: 0 <= i < |course.lessons| && course.lessons[i] == r.value
                                    && (forall j :: 0 <= j < i ==> course.lessons[j].id != lessonId)
  {
    FirstMatch(course.lessons, (l: Lesson) => l.id == lessonId)
  }

  /** `Course.get_lesson_by_index`: defined exactly on valid indices. */
  function LessonByIndex(course: Course, index: int): (r: Option<Lesson>)
    ensures r.Some? <==> 0 <= index < |course.lessons|
    ensures r.Some? ==> r.value == course.lessons[index]
  {
    if 0 <= index < |course.lessons| then Some(course.lessons[index]) else None
  }

  /** `Course.total_lessons`: the number of indices `get_lesson_by_index`
      answers for. */
  function TotalLessons(course: Course): (n: nat)
    ensures forall i :: LessonByIndex(course, i).Some? <==> 0 <= i < n
  {
    |course.lessons|
  }

  /** The number of exercises in a run of lessons. */
  function SumExercises(ls: seq<Lesson>): nat {
    if |ls| == 0 then 0 else TotalExercises(ls[0]) + SumExercises(ls[1..])
  }

  /** `Course.total_exercises`: the sum of the lessons' exercise counts. */
  function CourseTotalExercises(course: Course): (n: nat)
    ensures course.lessons == [] ==> n == 0
    ensures forall i :: 0 <= i < |course.lessons| ==> |course.lessons[i].exercises| <= n
  {
    SumBound(course.lessons);
    SumExercises(course.lessons)
  }

  lemma {:induction false} SumBound(ls: seq<Lesson>)
    ensures forall i :: 0 <= i < |ls| ==> |ls[i].exercises| <= SumExercises(ls)
  {
    if |ls| > 0 {
      SumBound(ls[1..]);
      assert forall i :: 1 <= i < |ls| ==> ls[i] == ls[1..][i - 1];
    }
  }

  lemma {:induction false} SumAppend(ls: seq<Lesson>, l: Lesson)
    ensures SumExercises(ls + [l]) == SumExercises(ls) + |l.exercises|
  {
    if |ls| == 0 {
      assert ls + [l] == [l];
      assert [l][1..] == [];
    } else {
      assert (ls + [l])[1..] == ls[1..] + [l];
      SumAppend(ls[1..], l);
    }
  }

  /** Appending a lesson to a course adds exactly that lesson's exercises to
      the course total. */
  lemma TotalExercisesAppend(course: Course, l: Lesson)
    ensures CourseTotalExercises(course.(lessons := course.lessons + [l]))
            == CourseTotalExercises(course) + |l.exercises|
  {
    SumAppend(course.lessons, l);
  }
}

=== FILE: filesystem.dfy ===
/** The simulator's in-memory file system: a map from absolute path to file
    content, a set of directory paths and a current directory. Nothing here
    touches a real disk. */
module FileSystem {
  import opened Wrappers
  import opened Strings

  datatype Vfs = Vfs(files: map<string, string>, directories: set<string>, currentDir: string)

  datatype FsError = FileNotFound(message: string) | NotADirectory(message: string)

  const Home: string := "/home/user"

  /** The other directories of the initial tree. */
  const Root: string := "/"
  const HomeParent: string := "/home"
  const Tmp: string := "/tmp"

  /** The tree every simulator starts from: `/`, `/home`, `/home/user` and
      `/tmp`, no files, and `/home/user` as the current directory. */
  function InitialVfs(): (fs: Vfs)
    ensures fs.files == map[]
    ensures fs.directories == {Root, HomeParent, Home, Tmp}
    ensures fs.currentDir == Home
  {
    Vfs(map[], {Root, HomeParent, Home, Tmp}, Home)
  }

  // ---------------------------------------------------------------------
  // Paths

  /** A path component that survives normalisation. */
  predicate ValidSegment(s: string) {
    s != "" && s != "." && s != ".." && '/' !in s
  }

  predicate AllValid(segs: seq<string>) {
    forall i :: 0 <= i < |segs| ==> ValidSegment(segs[i])
  }

  /** An absolute path with no empty, `.` or `..` component: the form
      `normalize_path` produces. */
  predicate IsCanonical(p: string) {
    |p| > 0 && p[0] == '/' && (p == "/" || AllValid(Split(p[1..], '/')))
  }

  /** The components of a canonical path (`[]` for the root). */
  function Segments(p: string): seq<string>
    requires |p| > 0
  {
    if p == "/" then [] else Split(p[1..], '/')
  }

  /** The path whose components are `segs`. */
  function Render(segs: seq<string>): string {
    if |segs| == 0 then "/" else "/" + Join(segs, "/")
  }

  lemma RenderCanonical(segs: seq<string>)
    requires AllValid(segs)
    ensures IsCanonical(Render(segs))
    ensures Segments(Render(segs)) == segs
  {
    if |segs| > 0 {
      SplitJoin(segs, '/');
      var p := Render(segs);
      assert p[1..] == Join(segs, "/");
    }
  }

  lemma CanonicalRender(p: string)
    requires IsCanonical(p)
    ensures AllValid(Segments(p))
    ensures Render(Segments(p)) == p
  {
    if p != "/" {
      JoinSplit(p[1..], '/');
      assert p == "/" + p[1..];
    }
  }

  /** Distinct component lists give distinct paths. */
  lemma RenderInjective(a: seq<string>, b: seq<string>)
    requires AllValid(a) && AllValid(b) && Render(a) == Render(b)
    ensures a == b
  {
    RenderCanonical(a);
    RenderCanonical(b);
  }

  /** The stack walk of `normalize_path`: `..` pops (never above the root),
      empty and `.` components are dropped, everything else is pushed. */
  function Resolve(parts: seq<string>): (r: seq<string>)
    ensures forall i :: 0 <= i < |r| ==> r[i] in parts && r[i] != "" && r[i] != "." && r[i] != ".."
    decreases |parts|
  {
    if |parts| == 0 then []
    else
      var init := parts[..|parts| - 1];
      var acc := Resolve(init);
      var p := parts[|parts| - 1];
      assert forall x :: x in init ==> x in parts;
      if p == ".." then (if |acc| > 0 then acc[..|acc| - 1] else acc)
      else if p != "" && p != "." then acc + [p]
      else acc
  }

  /** A relative path is read against the current directory. */
  function Absolute(cwd: string, path: string): string {
    if StartsWith(path, "/") then path
    else if cwd == "/" then "/" + path
    else cwd + "/" + path
  }

  /** `VirtualFileSystem.normalize_path`: always a canonical absolute path. */
  function NormalizePath(cwd: string, path: string): (r: string)
    ensures IsCanonical(r)
  {
    var parts := Split(Absolute(cwd, path), '/');
    var segs := Resolve(parts);
    RenderCanonical(segs);
    Render(segs)
  }

  lemma {:induction false} ResolveValid(segs: seq<string>)
    requires AllValid(segs)
    ensures Resolve([""] + segs) == segs
    decreases |segs|
  {
    if |segs| > 0 {
      var n := |segs|;
      assert ([""] + segs)[..n] == [""] + segs[..n - 1];
      ResolveValid(segs[..n - 1]);
      assert segs[..n - 1] + [segs[n - 1]] == segs;
    } else {
      assert [""] + segs == [""];
      assert [""][..0] == [];
    }
  }

  /** A canonical path is a fixed point of normalisation, whatever the
      current directory. */
  lemma NormalizeCanonical(cwd: string, p: string)
    requires IsCanonical(p)
    ensures NormalizePath(cwd, p) == p
  {
    assert Absolute(cwd, p) == p;
    assert Split(p, '/') == [""] + Split(p[1..], '/');
    if p == "/" {
      assert Split(p[1..], '/') == [""];
      assert Resolve([""]) == Resolve([""][..0]);
    } else {
      ResolveValid(Segments(p));
      CanonicalRender(p);
    }
  }

  /** Normalising twice is normalising once. */
  lemma NormalizeIdempotent(cwd: string, path: string)
    ensures NormalizePath(cwd, NormalizePath(cwd, path)) == NormalizePath(cwd, path)
  {
    NormalizeCanonical(cwd, NormalizePath(cwd, path));
  }

  function DropLast(segs: seq<string>): seq<string> {
    if |segs| == 0 then [] else segs[..|segs| - 1]
  }

  /** `Path(p).parent` for a canonical path; the root is its own parent. */
  function Parent(p: string): (r: string)
    requires IsCanonical(p)
    ensures IsCanonical(r)
    ensures Segments(r) == DropLast(Segments(p))
  {
    CanonicalRender(p);
    RenderCanonical(DropLast(Segments(p)));
    Render(DropLast(Segments(p)))
  }

  lemma JoinAppend(segs: seq<string>, x: string, sep: string)
    requires |segs| > 0
    ensures Join(segs + [x], sep) == Join(segs, sep) + sep + x
    decreases |segs|
  {
    if |segs| > 1 {
      assert (segs + [x])[1..] == segs[1..] + [x];
      JoinAppend(segs[1..], x, sep);
    } else {
      assert (segs + [x])[1..] == [x];
    }
  }

  /** `..` against a canonical current directory names its parent. */
  lemma NormalizeDotDot(cwd: string)
    requires IsCanonical(cwd)
    ensures NormalizePath(cwd, "..") == Parent(cwd)
  {
    CanonicalRender(cwd);
    var segs := Segments(cwd);
    var parts := Split(Absolute(cwd, ".."), '/');
    if cwd == "/" {
      assert Absolute(cwd, "..") == "/..";
      SplitJoin([".."], '/');
      assert Split("..", '/') == [".."];
      assert parts == ["", ".."];
      assert Resolve(parts) == Resolve(["", ".."][..1]);
      assert Resolve([""]) == Resolve([""][..0]);
    } else {
      assert Absolute(cwd, "..") == "/" + (Join(segs, "/") + "/" + "..");
      JoinAppend(segs, "..", "/");
      SplitJoin(segs + [".."], '/');
      assert parts == [""] + (segs + [".."]);
      assert parts[..|parts| - 1] == [""] + segs;
      ResolveValid(segs);
    }
  }

  /** `.` against a canonical current directory names that directory. */
  lemma NormalizeDot(cwd: string)
    requires IsCanonical(cwd)
    ensures NormalizePath(cwd, ".") == cwd
  {
    CanonicalRender(cwd);
    var segs := Segments(cwd);
    var parts := Split(Absolute(cwd, "."), '/');
    if cwd == "/" {
      assert Absolute(cwd, ".") == "/.";
      SplitJoin(["."], '/');
      assert Split(".", '/') == ["."];
      assert parts == ["", "."];
      assert Resolve(parts) == Resolve(["", "."][..1]);
      assert Resolve([""]) == Resolve([""][..0]);
    } else {
      assert Absolute(cwd, ".") == "/" + (Join(segs, "/") + "/" + ".");
      JoinAppend(segs, ".", "/");
      SplitJoin(segs + ["."], '/');
      assert parts == [""] + (segs + ["."]);
      assert parts[..|parts| - 1] == [""] + segs;
      ResolveValid(segs);
    }
  }

  /** A plain name against a canonical current directory names the child of
      that directory. */
  lemma NormalizeChild(cwd: string, x: string)
    requires IsCanonical(cwd) && ValidSegment(x)
    ensures NormalizePath(cwd, x) == Render(Segments(cwd) + [x])
  {
    CanonicalRender(cwd);
    var segs := Segments(cwd);
    var parts := Split(Absolute(cwd, x), '/');
    assert AllValid(segs + [x]);
    if cwd == "/" {
      assert Absolute(cwd, x) == "/" + Join([x], "/");
    } else {
      assert Absolute(cwd, x) == "/" + (Join(segs, "/") + "/" + x);
      JoinAppend(segs, x, "/");
    }
    assert Absolute(cwd, x) == "/" + Join(segs + [x], "/");
    SplitJoin(segs + [x], '/');
    assert parts == [""] + (segs + [x]);
    ResolveValid(segs + [x]);
  }

  /** Only the root ends in `/`. */
  lemma CanonicalNoTrailingSlash(p: string)
    requires IsCanonical(p) && p != "/"
    ensures !EndsWith(p, "/")
  {
    CanonicalRender(p);
    var segs := Segments(p);
    var last := segs[|segs| - 1];
    assert ValidSegment(last);
    if |segs| == 1 {
      assert p == "/" + last;
    } else {
      assert segs == segs[..|segs| - 1] + [last];
      JoinAppend(segs[..|segs| - 1], last, "/");
      assert p == "/" + Join(segs[..|segs| - 1], "/") + "/" + last;
    }
    assert p[|p| - 1] == last[|last| - 1];
  }

  // ---------------------------------------------------------------------
  // Queries

  /** Every path held is canonical, the root exists, and so does a canonical
      current directory: what all the operations below keep. */
  predicate Wf(fs: Vfs) {
    && "/" in fs.directories
    && IsCanonical(fs.currentDir)
    && (forall d :: d in fs.directories ==> IsCanonical(d))
    && (forall f :: f in fs.files ==> IsCanonical(f))
  }

  lemma InitialWf()
    ensures Wf(InitialVfs())
  {
    InitialCanonical();
    WfFromParts(InitialVfs(), Root, HomeParent, Home, Tmp);
  }

  /** A file-less tree of four canonical directories, one of them the root
      and one the current directory, is well formed. */
  lemma WfFromParts(fs: Vfs, a: string, b: string, c: string, d: string)
    requires fs.files == map[] && fs.directories == {a, b, c, d} && fs.currentDir == c
    requires a == "/"
    requires IsCanonical(a) && IsCanonical(b) && IsCanonical(c) && IsCanonical(d)
    ensures Wf(fs)
  {
  }

  lemma InitialCanonical()
    ensures IsCanonical(Root) && IsCanonical(HomeParent) && IsCanonical(Tmp) && IsCanonical(Home)
  {
    HomeCanonical();
    TmpCanonical();
    HomeUserCanonical();
  }

  lemma HomeCanonical()
    ensures IsCanonical(HomeParent)
  {
    SegmentCanonical("home");
    assert "/" + "home" == "/home";
  }

  lemma TmpCanonical()
    ensures IsCanonical(Tmp)
  {
    SegmentCanonical("tmp");
    assert "/" + "tmp" == "/tmp";
  }

  lemma HomeUserCanonical()
    ensures IsCanonical(Home)
  {
    RenderCanonical(["home", "user"]);
    assert Join(["home", "user"], "/") == "home" + "/" + "user";
    assert Render(["home", "user"]) == "/home/user";
  }

  /** A one-component path. */
  lemma SegmentCanonical(x: string)
    requires ValidSegment(x)
    ensures IsCanonical("/" + x)
  {
    RenderCanonical([x]);
    assert Render([x]) == "/" + x;
  }

  function Exists(fs: Vfs, path: string): bool {
    var n := NormalizePath(fs.currentDir, path);
    n in fs.files || n in fs.directories
  }

  function IsFile(fs: Vfs, path: string): bool {
    NormalizePath(fs.currentDir, path) in fs.files
  }

  function IsDirectory(fs: Vfs, path: string): bool {
    NormalizePath(fs.currentDir, path) in fs.directories
  }

  /** `read_file`: the content stored under the normalised path, or a
      not-found error naming the path as given. */
  function ReadFile(fs: Vfs, path: string): (r: Result<string, FsError>)
    ensures r.Ok? <==> IsFile(fs, path)
    ensures r.Ok? ==> r.value == fs.files[NormalizePath(fs.currentDir, path)]
    ensures r.Err? ==> r.error == FileNotFound("No such file: " + path)
  {
    var n := NormalizePath(fs.currentDir, path);
    if n !in fs.files then Err(FileNotFound("No such file: " + path)) else Ok(fs.files[n])
  }

  // ---------------------------------------------------------------------
  // Updates

  /** `write_file`: stores the content and records the immediate parent as a
      directory (one level only); no other file changes. */
  function WriteFile(fs: Vfs, path: string, content: string): (r: Vfs)
    ensures ReadFile(r, path) == Ok(content)
    ensures Parent(NormalizePath(fs.currentDir, path)) in r.directories
    ensures fs.directories <= r.directories
    ensures r.directories - fs.directories <= {Parent(NormalizePath(fs.currentDir, path))}
    ensures forall q :: q != NormalizePath(fs.currentDir, path) ==>
              (q in r.files <==> q in fs.files) && (q in fs.files ==> r.files[q] == fs.files[q])
    ensures r.currentDir == fs.currentDir
    ensures Wf(fs) ==> Wf(r)
  {
    var n := NormalizePath(fs.currentDir, path);
    var parent := Parent(n);
    var dirs := if parent !in fs.directories then fs.directories + {parent} else fs.directories;
    Vfs(fs.files[n := content], dirs, fs.currentDir)
  }

  /** Reading any path after a write: the written content for the same
      normalised path, what was there before for every other. */
  lemma ReadAfterWrite(fs: Vfs, p: string, q: string, content: string)
    ensures ReadFile(WriteFile(fs, p, content), q)
            == if NormalizePath(fs.currentDir, q) == NormalizePath(fs.currentDir, p)
               then Ok(content) else ReadFile(fs, q)
  {
  }

  /** `touch`: an existing file keeps its content, a missing one is created
      empty. */
  function Touch(fs: Vfs, path: string): (r: Vfs)
    ensures IsFile(fs, path) ==> r == fs
    ensures !IsFile(fs, path) ==> r == WriteFile(fs, path, "")
    ensures ReadFile(r, path) == if IsFile(fs, path) then ReadFile(fs, path) else Ok("")
    ensures Wf(fs) ==> Wf(r)
  {
    var n := NormalizePath(fs.currentDir, path);
    if n !in fs.files then WriteFile(fs, path, "") else fs
  }

  /** Touching twice is touching once. */
  lemma TouchIdempotent(fs: Vfs, path: string)
    ensures Touch(Touch(fs, path), path) == Touch(fs, path)
  {
  }

  /** The `i`-th ancestor of canonical `p`: the path of its first `i` components. */
  function Ancestor(p: string, i: nat): string
    requires |p| > 0 && i <= |Segments(p)|
  {
    Render(Segments(p)[..i])
  }

  /** What walking up from `p` adds to `dirs`: only ancestors of `p` (itself
      included), and exactly those above which, up to `p`, none was present. */
  predicate AddedAbove(dirs: set<string>, p: string, r: set<string>)
    requires IsCanonical(p)
  {
    && dirs <= r
    && (forall d :: d in r && d !in dirs ==>
          exists k :: 1 <= k <= |Segments(p)| && d == Ancestor(p, k))
    && (forall k :: 1 <= k <= |Segments(p)| ==>
          (Ancestor(p, k) in r <==>
           (Ancestor(p, k) in dirs || forall j :: k <= j <= |Segments(p)| ==> Ancestor(p, j) !in dirs)))
  }

  /** The loop of `create_directory`: walk up from `p`, adding each missing
      directory, until reaching one already present or the root. */
  function AddAncestors(dirs: set<string>, p: string): (r: set<string>)
    requires IsCanonical(p)
    ensures AddedAbove(dirs, p, r)
    decreases |Segments(p)|
  {
    if p in dirs || p == "/" then
      AncestorFacts(p);
      dirs
    else
      var q := Parent(p);
      var r := AddAncestors(dirs + {p}, q);
      AddAncestorsStep(dirs, p, r);
      r
  }

  /** `p` is its own last ancestor and none of the others. */
  lemma AncestorFacts(p: string)
    requires IsCanonical(p)
    ensures Ancestor(p, |Segments(p)|) == p
    ensures forall k :: 0 <= k < |Segments(p)| ==> Ancestor(p, k) != p
  {
    var s := Segments(p);
    CanonicalRender(p);
    assert s[..|s|] == s;
    forall k | 0 <= k < |s|
      ensures Ancestor(p, k) != p
    {
      if Ancestor(p, k) == p {
        assert AllValid(s[..k]);
        RenderInjective(s[..k], s);
      }
    }
  }

  lemma AddAncestorsStep(dirs: set<string>, p: string, r: set<string>)
    requires IsCanonical(p) && p !in dirs && p != "/"
    requires AddedAbove(dirs + {p}, Parent(p), r)
    ensures AddedAbove(dirs, p, r)
  {
    StepOnlyAncestors(dirs, p, r);
    StepExactly(dirs, p, r);
  }

  lemma StepOnlyAncestors(dirs: set<string>, p: string, r: set<string>)
    requires IsCanonical(p) && p !in dirs && p != "/"
    requires AddedAbove(dirs + {p}, Parent(p), r)
    ensures forall d :: d in r && d !in dirs ==>
              exists k :: 1 <= k <= |Segments(p)| && d == Ancestor(p, k)
  {
    var q := Parent(p);
    var n := |Segments(p)|;
    ParentAncestors(p);
    AncestorFacts(p);
    forall d | d in r && d !in dirs
      ensures exists k :: 1 <= k <= n && d == Ancestor(p, k)
    {
      if d == p {
        assert d == Ancestor(p, n);
      } else {
        var k :| 1 <= k <= |Segments(q)| && d == Ancestor(q, k);
        assert d == Ancestor(p, k);
      }
    }
  }

  lemma StepExactly(dirs: set<string>, p: string, r: set<string>)
    requires IsCanonical(p) && p !in dirs && p != "/"
    requires AddedAbove(dirs + {p}, Parent(p), r)
    ensures forall k :: 1 <= k <= |Segments(p)| ==>
              (Ancestor(p, k) in r <==>
               (Ancestor(p, k) in dirs || forall j :: k <= j <= |Segments(p)| ==> Ancestor(p, j) !in dirs))
  {
    var q := Parent(p);
    var n := |Segments(p)|;
    ParentAncestors(p);
    AncestorFacts(p);
    forall k | 1 <= k <= n
      ensures Ancestor(p, k) in r <==>
              (Ancestor(p, k) in dirs || forall j :: k <= j <= n ==> Ancestor(p, j) !in dirs)
    {
      if k < n {
        assert Ancestor(q, k) in r <==>
               (Ancestor(q, k) in dirs + {p} || forall j :: k <= j <= n - 1 ==> Ancestor(q, j) !in dirs + {p});
        if forall j :: k <= j <= n - 1 ==> Ancestor(p, j) !in dirs {
          forall j | k <= j <= n
            ensures Ancestor(p, j) !in dirs
          {
          }
        }
      }
    }
  }

  /** `create_directory`: the normalised path becomes a directory, together
      with each missing ancestor up to the first one that already exists;
      directories only grow and files do not change. */
  function CreateDirectory(fs: Vfs, path: string): (r: Vfs)
    ensures IsDirectory(r, path)
    ensures fs.directories <= r.directories
    ensures r.files == fs.files && r.currentDir == fs.currentDir
    ensures var n := NormalizePath(fs.currentDir, path);
      forall d :: d in r.directories && d !in fs.directories ==>
        d == n || exists k :: 1 <= k < |Segments(n)| && d == Ancestor(n, k)
    ensures var n := NormalizePath(fs.currentDir, path);
      forall k :: 1 <= k < |Segments(n)| ==>
        (Ancestor(n, k) in r.directories <==>
         (Ancestor(n, k) in fs.directories
          || forall j :: k <= j < |Segments(n)| ==> Ancestor(n, j) !in fs.directories))
    ensures Wf(fs) ==> Wf(r)
  {
    var n := NormalizePath(fs.currentDir, path);
    var dirs := AddAncestors(fs.directories + {n}, Parent(n));
    CreateDirectoryFacts(fs, n, dirs);
    fs.(directories := dirs)
  }

  lemma CreateDirectoryFacts(fs: Vfs, n: string, dirs: set<string>)
    requires IsCanonical(n) && dirs == AddAncestors(fs.directories + {n}, Parent(n))
    ensures fs.directories + {n} <= dirs
    ensures forall d :: d in dirs && d !in fs.directories ==>
              d == n || exists k :: 1 <= k < |Segments(n)| && d == Ancestor(n, k)
    ensures forall k :: 1 <= k < |Segments(n)| ==>
              (Ancestor(n, k) in dirs <==>
               (Ancestor(n, k) in fs.directories
                || forall j :: k <= j < |Segments(n)| ==> Ancestor(n, j) !in fs.directories))
    ensures Wf(fs) ==> forall d :: d in dirs ==> IsCanonical(d)
  {
    CreatedAreAncestors(fs, n, dirs);
    CreatedAncestorsExactly(fs, n, dirs);
    if Wf(fs) {
      CreatedCanonical(fs, n, dirs);
    }
  }

  /** The ancestors of `n` strictly above it are those of its parent. */
  lemma ParentAncestors(n: string)
    requires IsCanonical(n)
    ensures var s := Segments(n); var m := |Segments(Parent(n))|;
      && (m == |s| - 1 || (s == [] && m == 0))
      && (forall k :: 0 <= k <= m ==> Ancestor(Parent(n), k) == Ancestor(n, k) && AllValid(s[..k]))
  {
    var q := Parent(n);
    var s := Segments(n);
    var m := |Segments(q)|;
    CanonicalRender(n);
    forall k | 0 <= k <= m
      ensures Ancestor(q, k) == Ancestor(n, k)
      ensures AllValid(s[..k])
    {
      assert DropLast(s)[..k] == s[..k];
    }
  }

  lemma CreatedAreAncestors(fs: Vfs, n: string, dirs: set<string>)
    requires IsCanonical(n) && dirs == AddAncestors(fs.directories + {n}, Parent(n))
    ensures forall d :: d in dirs && d !in fs.directories ==>
              d == n || exists k :: 1 <= k < |Segments(n)| && d == Ancestor(n, k)
  {
    var q := Parent(n);
    var s := Segments(n);
    ParentAncestors(n);
    forall d | d in dirs && d !in fs.directories && d != n
      ensures exists k :: 1 <= k < |s| && d == Ancestor(n, k)
    {
      var k :| 1 <= k <= |Segments(q)| && d == Ancestor(q, k);
      assert d == Ancestor(n, k);
    }
  }

  lemma CreatedAncestorsExactly(fs: Vfs, n: string, dirs: set<string>)
    requires IsCanonical(n) && dirs == AddAncestors(fs.directories + {n}, Parent(n))
    ensures forall k :: 1 <= k < |Segments(n)| ==>
              (Ancestor(n, k) in dirs <==>
               (Ancestor(n, k) in fs.directories
                || forall j :: k <= j < |Segments(n)| ==> Ancestor(n, j) !in fs.directories))
  {
    var q := Parent(n);
    var s := Segments(n);
    var m := |Segments(q)|;
    ParentAncestors(n);
    AncestorFacts(n);
    forall k | 1 <= k < |s|
      ensures Ancestor(n, k) in dirs <==>
              (Ancestor(n, k) in fs.directories
               || forall j :: k <= j < |s| ==> Ancestor(n, j) !in fs.directories)
    {
      assert Ancestor(q, k) in dirs <==>
             (Ancestor(q, k) in fs.directories + {n}
              || forall j :: k <= j <= m ==> Ancestor(q, j) !in fs.directories + {n});
    }
  }

  lemma CreatedCanonical(fs: Vfs, n: string, dirs: set<string>)
    requires IsCanonical(n) && dirs == AddAncestors(fs.directories + {n}, Parent(n))
    requires Wf(fs)
    ensures forall d :: d in dirs ==> IsCanonical(d)
  {
    var s := Segments(n);
    CreatedAreAncestors(fs, n, dirs);
    ParentAncestors(n);
    forall d | d in dirs
      ensures IsCanonical(d)
    {
      if d !in fs.directories && d != n {
        var k :| 1 <= k < |s| && d == Ancestor(n, k);
        RenderCanonical(s[..k]);
      }
    }
  }

  // ---------------------------------------------------------------------
  // Listing

  /** The prefix a direct child of `n` starts with. */
  function ChildPrefix(n: string): string {
    var p := if EndsWith(n, "/") then n else n + "/";
    if n == "/" then "/" else p
  }

  /** `name` is the remainder of `path` after the prefix and has no further `/`. */
  predicate ChildName(prefix: string, path: string, name: string) {
    StartsWith(path, prefix) && name == path[|prefix|..] && '/' !in name
  }

  /** The names `list_directory` collects for `n`, before sorting: one per
      file and one per other directory directly under `n`. */
  function ChildNames(fs: Vfs, n: string): multiset<string> {
    var prefix := ChildPrefix(n);
    var fileNames := set f | f in fs.files && StartsWith(f, prefix) && '/' !in f[|prefix|..] :: f[|prefix|..];
    var dirNames := set d | d in fs.directories && d != n && StartsWith(d, prefix) && '/' !in d[|prefix|..] :: d[|prefix|..];
    multiset(fileNames) + multiset(dirNames)
  }

  lemma ChildNamesMembers(fs: Vfs, n: string, x: string)
    ensures x in ChildNames(fs, n) <==>
      ('/' !in x && (ChildPrefix(n) + x in fs.files
                     || (ChildPrefix(n) + x in fs.directories && ChildPrefix(n) + x != n)))
  {
    var prefix := ChildPrefix(n);
    var y := prefix + x;
    assert StartsWith(y, prefix) && y[|prefix|..] == x;
    forall f | StartsWith(f, prefix) && f[|prefix|..] == x
      ensures f == y
    {
      assert f == f[..|prefix|] + f[|prefix|..];
    }
  }

  /** `list_directory`: not found when the path is neither a file nor a
      directory, not a directory when it is only a file; otherwise the sorted
      names of its direct children, none containing `/`. */
  function ListDirectory(fs: Vfs, path: string): (r: Result<seq<string>, FsError>)
    ensures var n := NormalizePath(fs.currentDir, path);
      (r.Err? && r.error.FileNotFound?) <==> (n !in fs.files && n !in fs.directories)
    ensures var n := NormalizePath(fs.currentDir, path);
      (r.Err? && r.error.NotADirectory?) <==> (n in fs.files && n !in fs.directories)
    ensures r.Err? && r.error.FileNotFound? ==> r.error.message == "No such directory: " + path
    ensures r.Err? && r.error.NotADirectory? ==> r.error.message == "Not a directory: " + path
    ensures r.Ok? ==> Sorted(r.value)
    ensures r.Ok? ==> forall i :: 0 <= i < |r.value| ==> '/' !in r.value[i]
    ensures r.Ok? ==> multiset(r.value) == ChildNames(fs, NormalizePath(fs.currentDir, path))
  {
    var n := NormalizePath(fs.currentDir, path);
    NormalizeCanonical(fs.currentDir, n);
    if !Exists(fs, n) then Err(FileNotFound("No such directory: " + path))
    else if !IsDirectory(fs, n) then Err(NotADirectory("Not a directory: " + path))
    else
      var names := SortBag(ChildNames(fs, n));
      forall i | 0 <= i < |names|
        ensures '/' !in names[i]
      {
        assert names[i] in multiset(names);
        ChildNamesMembers(fs, n, names[i]);
      }
      Ok(names)
  }

  /** What a successful listing contains: exactly the names `x` without `/`
      for which `prefix + x` is a file, or a directory other than the one
      listed. */
  lemma ListDirectoryContents(fs: Vfs, path: string, x: string)
    requires ListDirectory(fs, path).Ok?
    ensures var n := NormalizePath(fs.currentDir, path);
      x in ListDirectory(fs, path).value <==>
      ('/' !in x && (ChildPrefix(n) + x in fs.files
                     || (ChildPrefix(n) + x in fs.directories && ChildPrefix(n) + x != n)))
  {
    var n := NormalizePath(fs.currentDir, path);
    var names := ListDirectory(fs, path).value;
    assert x in names <==> x in multiset(names);
    ChildNamesMembers(fs, n, x);
  }

  /** After creating a plain name in a current directory that exists, the
      listing of `.` holds that name. */
  lemma ListAfterCreate(fs: Vfs, x: string)
    requires Wf(fs) && ValidSegment(x) && fs.currentDir in fs.directories
    ensures var r := CreateDirectory(fs, x);
      ListDirectory(r, ".").Ok? && x in ListDirectory(r, ".").value
  {
    var r := CreateDirectory(fs, x);
    var cwd := fs.currentDir;
    NormalizeDot(cwd);
    NormalizeChild(cwd, x);
    ChildPrefixRender(cwd, x);
    ListDirectoryContents(r, ".", x);
  }

  /** The child of a canonical directory is its child prefix followed by
      the name. */
  lemma ChildPrefixRender(cwd: string, x: string)
    requires IsCanonical(cwd) && ValidSegment(x)
    ensures ChildPrefix(cwd) + x == Render(Segments(cwd) + [x])
  {
    CanonicalRender(cwd);
    var segs := Segments(cwd);
    if cwd == "/" {
      assert segs + [x] == [x];
    } else {
      CanonicalNoTrailingSlash(cwd);
      JoinAppend(segs, x, "/");
    }
  }
}

=== FILE: lessons.dfy ===
/** Exercises and lessons: the static content of a course. */
module Lessons {
  import opened Wrappers

  /** One hands-on task. `hints` are handed out strictly in order. */
  datatype Exercise = Exercise(
    id: string,
    instruction: string,
    expectedOutput: Option<string>,
    hints: seq<string>)

  /** A focused unit of a course; the order of `exercises` is the order in
      which they are presented and the order progress records follow. */
  datatype Lesson = Lesson(
    id: string,
    title: string,
    objectives: seq<string>,
    exercises: seq<Exercise>)

  /** An exercise built from its two required fields. */
  function NewExercise(id: string, instruction: string): (e: Exercise)
    ensures e.id == id && e.instruction == instruction
    ensures e.expectedOutput.None? && e.hints == []
  {
    Exercise(id, instruction, None, [])
  }

  /** A lesson built from its required fields, with the given exercises in
      the given order (none by default). */
  function NewLesson(id: string, title: string, objectives: seq<string>,
                     exercises: seq<Exercise> := []): (l: Lesson)
    ensures l.id == id && l.title == title && l.objectives == objectives
    ensures |l.exercises| == |exercises|
    ensures forall i :: 0 <= i < |exercises| ==> l.exercises[i] == exercises[i]
  {
    Lesson(id, title, objectives, exercises)
  }

  /** `Lesson.get_exercise_by_id`: the first exercise carrying the id, and
      `None` exactly when no exercise carries it. */
  function ExerciseById(lesson: Lesson, exerciseId: string): (r: Option<Exercise>)
    ensures r.None? <==> forall i :: 0 <= i < |lesson.exercises| ==> lesson.exercises[i].id != exerciseId
    ensures r.Some? ==> r.value.id == exerciseId
    ensures r.Some? ==> exists i :: 0 <= i < |lesson.exercises| && lesson.exercises[i] == r.value
                                    && (forall j :: 0 <= j < i ==> lesson.exercises[j].id != exerciseId)
  {
    FirstMatch(lesson.exercises, (e: Exercise) => e.id == exerciseId)
  }

  /** `Lesson.get_exercise_by_index`: defined exactly on valid indices. */
  function ExerciseByIndex(lesson: Lesson, index: int): (r: Option<Exercise>)
    ensures r.Some? <==> 0 <= index < |lesson.exercises|
    ensures r.Some? ==> r.value == lesson.exercises[index]
  {
    if 0 <= index < |lesson.exercises| then Some(lesson.exercises[index]) else None
  }

  /** `Lesson.total_exercises`: the number of indices `get_exercise_by_index`
      answers for. */
  function TotalExercises(lesson: Lesson): (n: nat)
    ensures forall i :: ExerciseByIndex(lesson, i).Some? <==> 0 <= i < n
  {
    |lesson.exercises|
  }
}

=== FILE: oracle.dfy ===
/** The language model the core consults, seen only through what it is
    asked and what comes back. A prompt records the pieces of information
    the real prompt text carries; the wording around them is not modelled.
    A reply is either text or the exception the client raised. */
module Oracle {
  import opened Wrappers

  datatype Prompt =
    | SimulationPrompt(command: string, context: Option<string>)
    | ValidationPrompt(instruction: string, expected: Option<string>, answer: string, context: Option<string>)
    | HintPrompt(instruction: string, expected: Option<string>, answer: string, attempt: int)

  datatype Reply = Text(text: string) | Raised(message: string)

  /** `llm_client`: absent, or a function from prompt to reply. */
  datatype Client = NoClient | Client(generate: Prompt -> Reply)

  /** An optional text the prompt includes only when it is present and
      non-empty (Python's `if context:`). */
  function Included(o: Option<string>): (r: Option<string>)
    ensures r.Some? <==> o.Some? && o.value != ""
    ensures r.Some? ==> r == o
  {
    match o
    case Some(t) => if t != "" then o else None
    case None => None
  }
}

=== FILE: progress.dfy ===
/** Progress records for exercises, lessons and whole courses. Timestamps are
    abstract clock readings; only whether one is set carries meaning here. */
module Progress {
  import opened Wrappers

  type Time = nat

  datatype ProgressStatus = NotStarted | InProgress | Completed | Failed

  /** Progress on one exercise. `attempts` is a `nat`: it can never be
      negative, the constraint the record declares. */
  datatype ExerciseProgress = ExerciseProgress(
    exerciseId: string,
    status: ProgressStatus,
    attempts: nat,
    userAnswer: Option<string>,
    completedAt: Option<Time>)

  /** Progress on one lesson, index-aligned with the lesson's exercises. */
  datatype LessonProgress = LessonProgress(
    lessonId: string,
    status: ProgressStatus,
    exerciseProgress: seq<ExerciseProgress>,
    startedAt: Option<Time>,
    completedAt: Option<Time>)

  /** Progress on a course, index-aligned with the course's lessons.
      `currentLessonIndex` is a `nat`, as the record requires. */
  datatype CourseProgress = CourseProgress(
    courseId: string,
    userId: string,
    status: ProgressStatus,
    lessonProgress: seq<LessonProgress>,
    currentLessonIndex: nat,
    startedAt: Option<Time>,
    completedAt: Option<Time>)

  /** A fresh exercise record: not started, no attempts, no answer, not completed. */
  function NewExerciseProgress(exerciseId: string): (p: ExerciseProgress)
    ensures p.exerciseId == exerciseId && p.status == NotStarted
    ensures p.attempts == 0 && p.userAnswer.None? && p.completedAt.None?
  {
    ExerciseProgress(exerciseId, NotStarted, 0, None, None)
  }

  /** A fresh lesson record: not started, no exercise records, no timestamps. */
  function NewLessonProgress(lessonId: string): (p: LessonProgress)
    ensures p.lessonId == lessonId && p.status == NotStarted
    ensures p.exerciseProgress == [] && p.startedAt.None? && p.completedAt.None?
  {
    LessonProgress(lessonId, NotStarted, [], None, None)
  }

  /** A fresh course record: not started, no lesson records, index 0, no timestamps. */
  function NewCourseProgress(courseId: string, userId: string): (p: CourseProgress)
    ensures p.courseId == courseId && p.userId == userId && p.status == NotStarted
    ensures p.lessonProgress == [] && p.currentLessonIndex == 0
    ensures p.startedAt.None? && p.completedAt.None?
  {
    CourseProgress(courseId, userId, NotStarted, [], 0, None, None)
  }

  /** Work that needs no further interaction: finished or skipped. */
  predicate Resolved(p: ExerciseProgress) {
    p.status == Completed || p.status == Failed
  }
}

=== FILE: python_syntax.dfy ===
/** The pattern tests the command simulator applies to Python-looking input.
    Each regular expression is written out here as what it matches: `\w` is
    an ASCII letter, digit or underscore, `\s` a blank (`Strings.IsSpace`),
    `.` any character except a newline, and every match is anchored at the
    start of the input only (Python's `re.match`). */
module PythonSyntax {
  import opened Wrappers
  import opened Strings

  predicate IsWordChar(c: char) {
    ('a' <= c <= 'z') || ('A' <= c <= 'Z') || ('0' <= c <= '9') || c == '_'
  }

  predicate AllWord(t: string) {
    forall i :: 0 <= i < |t| ==> IsWordChar(t[i])
  }

  predicate IsQuote(c: char) {
    c == '"' || c == '\''
  }

  lemma WordNotSpace(c: char)
    ensures IsWordChar(c) ==> !IsSpace(c)
  {
  }

  // ---------------------------------------------------------------------
  // The six patterns of `_is_python_code`, as regular-expression meanings

  /** `^import\s+\w+` */
  predicate MatchesImport(s: string) {
    StartsWith(s, "import") && exists k :: 7 <= k < |s| && AllSpace(s[6..k]) && IsWordChar(s[k])
  }

  /** `^from\s+\w+\s+import` */
  predicate MatchesFrom(s: string) {
    StartsWith(s, "from")
    && exists i, j, k :: 4 < i < j < k <= |s| && AllSpace(s[4..i]) && AllWord(s[i..j])
                         && AllSpace(s[j..k]) && StartsWith(s[k..], "import")
  }

  /** `^\w+\s*=\s*.+`: a name, then `EqualsAt`. */
  predicate MatchesAssign(s: string) {
    exists i :: 0 < i <= |s| && AllWord(s[..i]) && EqualsAt(s, i)
  }

  /** `\s*=\s*.+` at position `i`. */
  predicate EqualsAt(s: string, i: int)
    requires 0 <= i <= |s|
  {
    exists j :: i <= j < |s| && AllSpace(s[i..j]) && s[j] == '=' && ValueAt(s, j + 1)
  }

  /** `\s*.+` at position `a`: blanks, then at least one non-newline. */
  predicate ValueAt(s: string, a: int)
    requires 0 <= a <= |s|
  {
    exists k :: a <= k < |s| && AllSpace(s[a..k]) && s[k] != '\n'
  }

  /** `^print\(` */
  predicate MatchesPrintCall(s: string) {
    StartsWith(s, "print(")
  }

  /** `^def\s+\w+\(` */
  predicate MatchesDef(s: string) {
    StartsWith(s, "def")
    && exists i, j :: 3 < i < j < |s| && AllSpace(s[3..i]) && AllWord(s[i..j]) && s[j] == '('
  }

  /** `^class\s+\w+` */
  predicate MatchesClass(s: string) {
    StartsWith(s, "class") && exists k :: 6 <= k < |s| && AllSpace(s[5..k]) && IsWordChar(s[k])
  }

  /** `_is_python_code`: any of the six patterns matches at the start. */
  predicate IsPythonCode(s: string) {
    MatchesImport(s) || MatchesFrom(s) || MatchesAssign(s)
    || MatchesPrintCall(s) || MatchesDef(s) || MatchesClass(s)
  }

  // ---------------------------------------------------------------------
  // print\(["'](.+?)["']\)

  /** The lazy group ends after `j` characters of `t` (the text after
      `print(` and the opening quote): it is non-empty, has no newline, and
      is followed by a quote and `)`. */
  predicate Closes(t: string, j: int) {
    1 <= j && j + 1 < |t| && '\n' !in t[..j] && IsQuote(t[j]) && t[j + 1] == ')'
  }

  /** The text between `print(` + quote and the first quote-`)` pair that
      follows at least one character; the two quotes need not be the same. */
  function PrintMatch(s: string): (r: Option<string>)
    ensures r.Some? <==> |s| > 6 && StartsWith(s, "print(") && IsQuote(s[6]) && exists j :: Closes(s[7..], j)
    ensures r.Some? ==> exists j :: Closes(s[7..], j) && r.value == s[7..][..j]
                                    && forall k :: 1 <= k < j ==> !Closes(s[7..], k)
  {
    if |s| > 6 && StartsWith(s, "print(") && IsQuote(s[6]) then
      var t := s[7..];
      ShortestClose(t, 1)
    else None
  }

  /** Searches `j, j+1, ...` for the shortest closing position. */
  function ShortestClose(t: string, j: nat): (r: Option<string>)
    requires 1 <= j <= |t| + 1 && '\n' !in t[..j - 1]
    requires forall k :: 1 <= k < j ==> !Closes(t, k)
    ensures r.Some? <==> exists m :: Closes(t, m)
    ensures r.Some? ==> exists m :: Closes(t, m) && r.value == t[..m] && forall k :: 1 <= k < m ==> !Closes(t, k)
    decreases |t| - j
  {
    if j + 1 >= |t| then
      assert forall m :: m >= j ==> !Closes(t, m);
      None
    else if t[j - 1] == '\n' then
      NewlineBlocks(t, j);
      None
    else
      assert t[..j] == t[..j - 1] + [t[j - 1]];
      if IsQuote(t[j]) && t[j + 1] == ')' then
        assert Closes(t, j);
        Some(t[..j])
      else
        ShortestClose(t, j + 1)
  }

  /** A newline ends every candidate group that would contain it. */
  lemma NewlineBlocks(t: string, j: int)
    requires 1 <= j <= |t| && t[j - 1] == '\n'
    ensures forall m :: j <= m ==> !Closes(t, m)
  {
  }

  /** A quote-free one-line message printed with double quotes comes back
      unchanged. */
  lemma PrintRoundTrip(g: string)
    requires |g| > 0 && '\n' !in g
    requires forall i :: 0 <= i < |g| ==> !IsQuote(g[i])
    ensures PrintMatch("print(\"" + g + "\")") == Some(g)
  {
    var s := "print(\"" + g + "\")";
    var t := s[7..];
    assert t == g + "\")";
    assert t[..|g|] == g;
    assert Closes(t, |g|);
    forall k | 1 <= k < |g|
      ensures !Closes(t, k)
    {
      assert t[k] == g[k];
    }
    assert StartsWith(s, "print(");
  }

  // ---------------------------------------------------------------------
  // (\w+)\s*=\s*(.+)

  /** The end of the run of characters satisfying `p` that starts at `i`. */
  function Span(s: string, i: nat, p: char -> bool): (r: nat)
    requires i <= |s|
    ensures i <= r <= |s|
    ensures forall m :: i <= m < r ==> p(s[m])
    ensures r < |s| ==> !p(s[r])
    decreases |s| - i
  {
    if i < |s| && p(s[i]) then Span(s, i + 1, p) else i
  }

  /** A run that ends where `p` first fails is the one `Span` finds. */
  lemma SpanExact(s: string, i: nat, j: nat, p: char -> bool)
    requires i <= j <= |s|
    requires forall m :: i <= m < j ==> p(s[m])
    requires j < |s| ==> !p(s[j])
    ensures Span(s, i, p) == j
  {
  }

  predicate IsNotNewline(c: char) {
    c != '\n'
  }

  /** Where `(.+)` starts: the greedy `\s*` first takes the blanks up to `k`
      and gives them back one by one until a non-newline character follows. */
  function BackOff(s: string, lo: nat, k: nat): (r: Option<nat>)
    requires lo <= k <= |s|
    ensures r.Some? ==> lo <= r.value <= k && r.value < |s| && s[r.value] != '\n'
    ensures r.None? ==> forall m :: lo <= m <= k && m < |s| ==> s[m] == '\n'
    decreases k
  {
    if k < |s| && s[k] != '\n' then Some(k)
    else if k == lo then None
    else BackOff(s, lo, k - 1)
  }

  /** The two groups of an assignment: the leading name, and the rest of the
      line after `=` and the blanks the match skips. */
  function AssignMatch(s: string): (r: Option<(string, string)>)
    ensures r.Some? ==> |r.value.0| > 0 && AllWord(r.value.0) && StartsWith(s, r.value.0)
    ensures r.Some? ==> |r.value.1| > 0 && '\n' !in r.value.1
  {
    var i := Span(s, 0, IsWordChar);
    var j := Span(s, i, IsSpace);
    if i == 0 || j == |s| || s[j] != '=' then None
    else
      match BackOff(s, j + 1, Span(s, j + 1, IsSpace))
      case None => None
      case Some(k) =>
        var e := Span(s, k, IsNotNewline);
        Some((s[..i], s[k..e]))
  }

  /** The computed groups agree with the regular expression: the match
      succeeds exactly when `^\w+\s*=\s*.+` matches. */
  lemma AssignMatchMeaning(s: string)
    ensures AssignMatch(s).Some? <==> MatchesAssign(s)
  {
    if AssignMatch(s).Some? {
      AssignMatchWitness(s);
    }
    if MatchesAssign(s) {
      MatchesAssignSome(s);
    }
  }

  lemma MatchesAssignSome(s: string)
    requires MatchesAssign(s)
    ensures AssignMatch(s).Some?
  {
    var i :| 0 < i <= |s| && AllWord(s[..i]) && EqualsAt(s, i);
    var j :| i <= j < |s| && AllSpace(s[i..j]) && s[j] == '=' && ValueAt(s, j + 1);
    var k :| j + 1 <= k < |s| && AllSpace(s[j + 1..k]) && s[k] != '\n';
    AssignWitness(s, i, j, k);
  }

  lemma AssignMatchWitness(s: string)
    requires AssignMatch(s).Some?
    ensures MatchesAssign(s)
  {
    var i := Span(s, 0, IsWordChar);
    var j := Span(s, i, IsSpace);
    var k0 := Span(s, j + 1, IsSpace);
    var k := BackOff(s, j + 1, k0).value;
    assert AllSpace(s[j + 1..k]);
    assert ValueAt(s, j + 1);
    assert AllSpace(s[i..j]);
    assert EqualsAt(s, i);
    assert AllWord(s[..i]);
  }

  /** Any witness of `^\w+\s*=\s*.+` makes the computed match succeed. */
  lemma AssignWitness(s: string, i: nat, j: nat, k: nat)
    requires 0 < i <= j < k <= |s| && AllWord(s[..i]) && AllSpace(s[i..j]) && s[j] == '='
    requires AllSpace(s[j + 1..k]) && k < |s| && s[k] != '\n'
    ensures AssignMatch(s).Some?
  {
    assert forall m :: 0 <= m < i ==> IsWordChar(s[..i][m]);
    if i < j {
      assert IsSpace(s[i..j][0]);
      WordNotSpace(s[i]);
    }
    SpanExact(s, 0, i, IsWordChar);
    assert forall m :: i <= m < j ==> s[m] == s[i..j][m - i];
    SpanExact(s, i, j, IsSpace);
    assert forall m :: j + 1 <= m < k ==> s[m] == s[j + 1..k][m - j - 1];
    SpanAtLeast(s, j + 1, k, IsSpace);
  }

  /** A run of `p` from `i` to `k` is covered by the span from `i`. */
  lemma {:induction false} SpanAtLeast(s: string, i: nat, k: nat, p: char -> bool)
    requires i <= k <= |s|
    requires forall m :: i <= m < k ==> p(s[m])
    ensures Span(s, i, p) >= k
    decreases k - i
  {
    if i < k {
      SpanAtLeast(s, i + 1, k, p);
    }
  }

  /** An assignment written `name = value`, with a one-line value that
      starts with a non-blank, is read back as that name and value. */
  lemma AssignRoundTrip(name: string, value: string)
    requires |name| > 0 && AllWord(name)
    requires |value| > 0 && '\n' !in value && !IsSpace(value[0])
    ensures AssignMatch(name + " = " + value) == Some((name, value))
  {
    var s := name + " = " + value;
    var n := |name|;
    AssignLayout(name, value);
    NameSpan(s, name);
    SpanExact(s, n, n + 1, IsSpace);
    SpanExact(s, n + 2, n + 3, IsSpace);
    LineSpan(s, n + 3);
    AssignMatchExact(s, n, n + 1, n + 3);
    assert s[n + 3..|s|] == value;
  }

  /** A name followed by a blank is the leading run of word characters. */
  lemma NameSpan(s: string, name: string)
    requires |name| < |s| && s[..|name|] == name && AllWord(name) && s[|name|] == ' '
    ensures Span(s, 0, IsWordChar) == |name|
  {
    assert forall m :: 0 <= m < |name| ==> s[m] == name[m];
    SpanExact(s, 0, |name|, IsWordChar);
  }

  /** A tail without newlines is one line. */
  lemma LineSpan(s: string, i: nat)
    requires i <= |s| && '\n' !in s[i..]
    ensures Span(s, i, IsNotNewline) == |s|
  {
    assert forall m :: i <= m < |s| ==> s[m] == s[i..][m - i];
    SpanExact(s, i, |s|, IsNotNewline);
  }

  lemma AssignLayout(name: string, value: string)
    ensures var s := name + " = " + value; var n := |name|;
      |s| == n + 3 + |value| && s[..n] == name && s[n] == ' ' && s[n + 1] == '='
      && s[n + 2] == ' ' && s[n + 3..] == value
  {
  }

  /** The match once the three runs it scans are known. */
  lemma AssignMatchExact(s: string, i: nat, j: nat, k: nat)
    requires 0 < i <= j < |s| && s[j] == '='
    requires Span(s, 0, IsWordChar) == i && Span(s, i, IsSpace) == j
    requires j + 1 <= k < |s| && Span(s, j + 1, IsSpace) == k && s[k] != '\n'
    ensures AssignMatch(s) == Some((s[..i], s[k..Span(s, k, IsNotNewline)]))
  {
  }

  // ---------------------------------------------------------------------
  // Module names of import statements

  /** `code.replace("import ", "").split()[0].split(".")[0]` */
  function ImportedModule(code: string): (m: string)
    requires StartsWith(code, "import ") && !IsSpace(code[|code| - 1])
    ensures '.' !in m
  {
    var stripped := RemoveAll(code, "import ");
    RemoveAllKeepsLast(code, "import ");
    WordsEmpty(stripped);
    Split(Words(stripped)[0], '.')[0]
  }

  /** `code.split()[1].split(".")[0]` */
  function FromModule(code: string): (m: string)
    requires StartsWith(code, "from ") && !IsSpace(code[|code| - 1])
    ensures '.' !in m
  {
    FromHasTwoWords(code);
    Split(Words(code)[1], '.')[0]
  }

  /** A stripped `from ...` line splits into at least two words. */
  lemma FromHasTwoWords(code: string)
    requires StartsWith(code, "from ") && !IsSpace(code[|code| - 1])
    ensures |Words(code)| >= 2 && Words(code)[0] == "from"
  {
    var t := code[4..];
    assert code == "from" + t;
    TakeWordPrefix("from", t);
    StripLeftNoBlank(code);
    assert !AllSpace(t) by {
      assert t[|t| - 1] == code[|code| - 1];
    }
    WordsEmpty(t);
  }

  lemma StripLeftNoBlank(s: string)
    requires |s| > 0 && !IsSpace(s[0])
    ensures StripLeft(s) == s
  {
  }

  lemma TakeWordPrefix(w: string, t: string)
    requires forall i :: 0 <= i < |w| ==> !IsSpace(w[i])
    requires |t| > 0 && IsSpace(t[0])
    ensures TakeWord(w + t) == w
    decreases |w|
  {
    if |w| > 0 {
      assert (w + t)[1..] == w[1..] + t;
      TakeWordPrefix(w[1..], t);
    } else {
      assert w + t == t;
    }
  }

  /** `import m` for a plain module name registers `m`. */
  lemma ImportRoundTrip(m: string)
    requires |m| > 0 && AllWord(m)
    ensures ImportedModule("import " + m) == m
  {
    var code := "import " + m;
    WordHasNoBlank(m);
    assert StartsWith(code, "import ") && code[7..] == m;
    RemoveAllNoBlank(m, "import ");
    assert RemoveAll(code, "import ") == m;
    WordsCons(m, "");
    assert m + "" == m;
    PlainNameSplit(m);
  }

  /** `from m ...` for a plain module name registers `m`, whatever follows
      the first blank after it. */
  lemma FromRoundTrip(m: string, t: string)
    requires |m| > 0 && AllWord(m)
    requires |t| > 0 ==> IsSpace(t[0])
    requires !IsSpace((m + t)[|m + t| - 1])
    ensures FromModule("from " + m + t) == m
  {
    var code := "from " + m + t;
    assert code[|code| - 1] == (m + t)[|m + t| - 1];
    assert code[..5] == "from ";
    FromWords(m, t);
    PlainNameSplit(m);
  }

  /** A plain name has no dot, so `split(".")[0]` keeps all of it. */
  lemma PlainNameSplit(m: string)
    requires |m| > 0 && AllWord(m)
    ensures Split(m, '.')[0] == m
  {
    SplitJoin([m], '.');
    assert Join([m], ".") == m;
  }

  /** The part before the first dot of `m.rest` is `m`. */
  lemma DottedNameSplit(m: string, rest: string)
    requires '.' !in m
    ensures Split(m + "." + rest, '.')[0] == m
  {
    var t := "." + rest;
    SplitAfterWord(m, t, '.');
    assert m + "." + rest == m + t;
    assert t[0] == '.' && t[1..] == rest;
    assert m + "" == m;
  }

  /** A plain name, a dot and a blank-free tail make one blank-free word. */
  lemma DottedNoBlank(m: string, sub: string)
    requires AllWord(m) && forall i :: 0 <= i < |sub| ==> !IsSpace(sub[i])
    ensures '.' !in m
    ensures var w := m + "." + sub; forall i :: 0 <= i < |w| ==> !IsSpace(w[i])
  {
    WordHasNoBlank(m);
    var w := m + "." + sub;
    forall i | 0 <= i < |w|
      ensures !IsSpace(w[i])
    {
      if i < |m| {
        assert w[i] == m[i];
      } else if i > |m| {
        assert w[i] == sub[i - |m| - 1];
      }
    }
  }

  /** `import m.sub` registers the top-level package `m`. */
  lemma ImportDotted(m: string, sub: string)
    requires |m| > 0 && AllWord(m)
    requires forall i :: 0 <= i < |sub| ==> !IsSpace(sub[i])
    ensures ImportedModule("import " + m + "." + sub) == m
  {
    var w := m + "." + sub;
    var code := "import " + w;
    assert "import " + m + "." + sub == code;
    DottedNoBlank(m, sub);
    assert StartsWith(code, "import ") && code[7..] == w;
    RemoveAllNoBlank(w, "import ");
    assert RemoveAll(code, "import ") == w;
    WordsCons(w, "");
    assert w + "" == w;
    DottedNameSplit(m, sub);
  }

  /** `from m.sub ...` registers the top-level package `m`, whatever
      follows the first blank after the dotted name. */
  lemma FromDotted(m: string, sub: string, t: string)
    requires |m| > 0 && AllWord(m)
    requires forall i :: 0 <= i < |sub| ==> !IsSpace(sub[i])
    requires |t| > 0 ==> IsSpace(t[0])
    requires |t| > 0 ==> !IsSpace(t[|t| - 1])
    ensures FromModule("from " + m + "." + sub + t) == m
  {
    var w := m + "." + sub;
    var code := "from " + w + t;
    assert "from " + m + "." + sub + t == code;
    DottedNoBlank(m, sub);
    assert code[|code| - 1] == (w + t)[|w + t| - 1];
    assert |t| == 0 ==> (w + t)[|w + t| - 1] == w[|w| - 1];
    assert code[..5] == "from ";
    FromHasNoBlank();
    TwoWords("from", w, t);
    FromLine(w, t);
    DottedNameSplit(m, sub);
  }

  lemma FromWords(m: string, t: string)
    requires |m| > 0 && AllWord(m)
    requires |t| > 0 ==> IsSpace(t[0])
    ensures var ws := Words("from " + m + t); |ws| >= 2 && ws[1] == m
  {
    FromHasNoBlank();
    SecondWordOf("from", m, t);
    FromLine(m, t);
  }

  lemma FromLine(m: string, t: string)
    ensures "from " + m + t == "from" + ([' '] + (m + t))
  {
  }

  /** In `w m...` the second word is `m`. */
  lemma SecondWordOf(w: string, m: string, t: string)
    requires |w| > 0 && forall i :: 0 <= i < |w| ==> !IsSpace(w[i])
    requires |m| > 0 && AllWord(m)
    requires |t| > 0 ==> IsSpace(t[0])
    ensures var ws := Words(w + ([' '] + (m + t))); |ws| >= 2 && ws[1] == m
  {
    WordHasNoBlank(m);
    TwoWords(w, m, t);
  }

  lemma WordHasNoBlank(m: string)
    requires AllWord(m)
    ensures forall i :: 0 <= i < |m| ==> !IsSpace(m[i])
  {
    forall i | 0 <= i < |m|
      ensures !IsSpace(m[i])
    {
      WordNotSpace(m[i]);
    }
  }

  lemma FromHasNoBlank()
    ensures forall i :: 0 <= i < |"from"| ==> !IsSpace("from"[i])
  {
    var f := "from";
    assert f[0] == 'f' && f[1] == 'r' && f[2] == 'o' && f[3] == 'm';
  }

  lemma TwoWords(w: string, m: string, t: string)
    requires |w| > 0 && forall i :: 0 <= i < |w| ==> !IsSpace(w[i])
    requires |m| > 0 && forall i :: 0 <= i < |m| ==> !IsSpace(m[i])
    requires |t| > 0 ==> IsSpace(t[0])
    ensures Words(w + ([' '] + (m + t))) == [w] + ([m] + Words(t))
  {
    WordsCons(w, [' '] + (m + t));
    WordsSkipBlank(' ', m + t);
    WordsCons(m, t);
  }
}

=== FILE: session_manager.dfy ===
/** `SessionManager`: the interactive loop that walks a learner through a
    course. Each typed answer is normalised, handled as a special command or
    run through the simulator and judged by the validator; progress records
    are updated as the learner completes, skips or quits exercises.

    The terminal is modelled by two finite scripts: the answers the learner
    types and the replies to "continue to the next lesson?". A script that
    runs out stands for the learner interrupting the session. */
module SessionManager {
  import opened Wrappers
  import opened Strings
  import opened Lessons
  import opened Courses
  import opened Progress
  import opened Sessions
  import opened Oracle
  import Simulator
  import Validator

  /** The words that are commands to the session rather than answers. */
  const SpecialCommands: set<string> := {"hint", "skip", "quit", "exit", "help", "status"}

  /** The collaborators the loop calls: the simulator's `simulate` (state
      in, step out), the validator's `validate` and `generate_hint`, and the
      clock reading used for timestamps. */
  datatype Services = Services(
    simulate: (Simulator.Sim, string, Option<string>) -> Simulator.Step,
    validate: (Exercise, string, Option<string>) -> Validator.ValidationResult,
    generateHint: (Exercise, string, int) -> Option<string>,
    now: Time)

  /** The services of the real simulator and validator, given the shell
      tokenizer and language model of the simulator and the language model
      and number parser of the validator. */
  function Wire(tokenize: string -> Option<seq<string>>, simulatorModel: Client,
                validatorModel: Client, parseScore: string -> Option<real>, now: Time): (svc: Services)
    ensures forall s, c, ctx :: svc.simulate(s, c, ctx) == Simulator.Simulate(s, c, ctx, tokenize, simulatorModel)
    ensures forall ex, a, ctx :: svc.validate(ex, a, ctx) == Validator.Validate(ex, a, ctx, validatorModel, parseScore)
    ensures forall ex, a, n :: svc.generateHint(ex, a, n) == Validator.GenerateHint(ex, a, n, validatorModel)
    ensures svc.now == now
  {
    Services((s, c, ctx) => Simulator.Simulate(s, c, ctx, tokenize, simulatorModel),
             (ex, a, ctx) => Validator.Validate(ex, a, ctx, validatorModel, parseScore),
             (ex, a, n) => Validator.GenerateHint(ex, a, n, validatorModel),
             now)
  }

  /** The manager's own state: the session, the simulator, the number of
      hints given for the current exercise, and every hint shown so far. */
  datatype Manager = Manager(
    session: LearningSession,
    sim: Simulator.Sim,
    hintCount: nat,
    hintsShown: seq<string>)

  // ---------------------------------------------------------------------
  // Reading an answer

  predicate Backticked(a: string) {
    |a| > 1 && a[0] == '`' && a[|a| - 1] == '`'
  }

  /** The typed line, stripped; one pair of surrounding backticks is
      dropped and the inside stripped again. */
  function NormalizeAnswer(raw: string): (a: string)
    ensures |a| > 0 ==> !IsSpace(a[0]) && !IsSpace(a[|a| - 1])
    ensures !Backticked(Strip(raw)) ==> a == Strip(raw)
    ensures Backticked(Strip(raw)) ==> a == Strip(Strip(raw)[1..|Strip(raw)| - 1])
  {
    var s := Strip(raw);
    if Backticked(s) then Strip(s[1..|s| - 1]) else s
  }

  /** A command typed inside backticks is read as the command itself. */
  lemma BackticksDropped(command: string)
    ensures NormalizeAnswer("`" + command + "`") == Strip(command)
  {
    var w := "`" + command + "`";
    assert w[0] == '`' && w[|w| - 1] == '`';
    StripStripped(w);
    assert w[1..|w| - 1] == command;
  }

  /** An answer that counts as an attempt: anything but a special command. */
  predicate IsAttempt(raw: string) {
    Lower(NormalizeAnswer(raw)) !in SpecialCommands
  }

  /** The line is quit or exit, which pause the session and leave the
      exercise. */
  predicate QuitKey(line: string) {
    var key := Lower(NormalizeAnswer(line));
    key == "quit" || key == "exit"
  }

  /** The line is skip, which gives the exercise up. */
  predicate SkipKey(line: string) {
    Lower(NormalizeAnswer(line)) == "skip"
  }

  /** Quit, exit and skip are special commands, and no line is both. */
  lemma KeysAreCommands(line: string)
    ensures QuitKey(line) || SkipKey(line) ==> !IsAttempt(line)
    ensures !(QuitKey(line) && SkipKey(line))
  {
  }

  /** The number of attempts among the typed lines. */
  function Tries(lines: seq<string>): (n: nat)
    ensures n <= |lines|
  {
    if |lines| == 0 then 0
    else (if IsAttempt(lines[0]) then 1 else 0) + Tries(lines[1..])
  }

  lemma {:induction false} TriesAppend(xs: seq<string>, x: string)
    ensures Tries(xs + [x]) == Tries(xs) + (if IsAttempt(x) then 1 else 0)
    decreases |xs|
  {
    if |xs| == 0 {
      assert [x][1..] == [];
    } else {
      assert (xs + [x])[1..] == xs[1..] + [x];
      TriesAppend(xs[1..], x);
    }
  }

  /** Taking one more line counts it when it is an attempt. */
  lemma TriesPrefix(lines: seq<string>, i: nat)
    requires i < |lines|
    ensures Tries(lines[..i + 1]) == Tries(lines[..i]) + (if IsAttempt(lines[i]) then 1 else 0)
  {
    assert lines[..i + 1] == lines[..i] + [lines[i]];
    TriesAppend(lines[..i], lines[i]);
  }

  // ---------------------------------------------------------------------
  // Special commands

  datatype Action = QuitAction | SkipAction | ContinueAction

  datatype Handled = Handled(action: Action, m: Manager, ep: ExerciseProgress)

  /** The hint shown for a request: `generate_hint`'s answer, if any. */
  function Shown(hint: Option<string>): (r: seq<string>)
    ensures hint.Some? ==> r == [hint.value]
    ensures hint.None? ==> r == []
  {
    match hint
    case Some(h) => [h]
    case None => []
  }

  /** `_handle_special_command`: quit and exit pause the session, skip
      marks the exercise failed, hint counts the request and shows the next
      hint, and help and status change nothing. */
  function HandleSpecial(m: Manager, command: string, ex: Exercise, ep: ExerciseProgress,
                         svc: Services): (r: Handled)
    ensures r.action == QuitAction <==> command == "quit" || command == "exit"
    ensures r.action == SkipAction <==> command == "skip"
    ensures r.action == QuitAction ==> r.m.session == Pause(m.session)
    ensures r.action != QuitAction ==> r.m.session == m.session
    ensures r.action == SkipAction ==> r.ep == ep.(status := Failed)
    ensures r.action != SkipAction ==> r.ep == ep
    ensures r.m.sim == m.sim
    ensures command == "hint" ==>
      r.m.hintCount == m.hintCount + 1
      && r.m.hintsShown == m.hintsShown + Shown(svc.generateHint(ex, ep.userAnswer.GetOr(""), m.hintCount + 1))
    ensures command != "hint" ==> r.m.hintCount == m.hintCount && r.m.hintsShown == m.hintsShown
  {
    if command == "quit" || command == "exit" then
      Handled(QuitAction, m.(session := Pause(m.session)), ep)
    else if command == "skip" then
      Handled(SkipAction, m, ep.(status := Failed))
    else if command == "hint" then
      var n := m.hintCount + 1;
      var hint := svc.generateHint(ex, ep.userAnswer.GetOr(""), n);
      Handled(ContinueAction, m.(hintCount := n, hintsShown := m.hintsShown + Shown(hint)), ep)
    else
      Handled(ContinueAction, m, ep)
  }

  // ---------------------------------------------------------------------
  // One exercise

  /** Why a loop stopped early: the learner typed quit or exit, or the
      input ran out. */
  datatype Stop = QuitCommand | InputEnded

  /** `_run_exercise`'s result: `True`, `False` or `None`, or the input ran
      out before any of them. */
  datatype ExerciseOutcome = Solved | Skipped | Stopped(why: Stop)

  /** `used` counts the input lines the exercise consumed. */
  datatype ExerciseRun = ExerciseRun(outcome: ExerciseOutcome, m: Manager, ep: ExerciseProgress, used: nat)

  /** The session is left as it was apart from its state and its last
      activity time. */
  predicate OnlyStateAndActivity(before: LearningSession, after: LearningSession) {
    after == before.(state := after.state, lastActivityAt := after.lastActivityAt)
  }

  /** The verdict on an answer as the exercise loop asks for it: judged
      against the instruction as context. */
  function Verdict(ex: Exercise, answer: string, svc: Services): Validator.ValidationResult {
    svc.validate(ex, answer, Some(ex.instruction))
  }

  /** The typed line ends the exercise: quit, exit or skip, or an attempt
      the validator judges correct. */
  predicate Ends(ex: Exercise, line: string, svc: Services) {
    QuitKey(line) || SkipKey(line)
    || (IsAttempt(line) && Verdict(ex, NormalizeAnswer(line), svc).status == Validator.Correct)
  }

  /** None of the typed lines ends the exercise. */
  predicate NoneEnds(ex: Exercise, lines: seq<string>, svc: Services)
    decreases |lines|
  {
    |lines| == 0 || (NoneEnds(ex, lines[..|lines| - 1], svc) && !Ends(ex, lines[|lines| - 1], svc))
  }

  /** A line that does not end the exercise extends a prefix none of
      whose lines does. */
  lemma NoneEndsStep(ex: Exercise, lines: seq<string>, i: nat, svc: Services)
    requires i < |lines| && NoneEnds(ex, lines[..i], svc) && !Ends(ex, lines[i], svc)
    ensures NoneEnds(ex, lines[..i + 1], svc)
  {
    assert lines[..i + 1][..i] == lines[..i];
  }

  /** No single line of such a sequence ends the exercise. */
  lemma {:induction false} NoneEndsAt(ex: Exercise, lines: seq<string>, k: nat, svc: Services)
    requires NoneEnds(ex, lines, svc) && k < |lines|
    ensures !Ends(ex, lines[k], svc)
    decreases |lines|
  {
    if k < |lines| - 1 {
      var front := lines[..|lines| - 1];
      NoneEndsAt(ex, front, k, svc);
      assert front[k] == lines[k];
    }
  }

  /** A special command ends the exercise exactly when it is quit, exit or
      skip; an attempt ends it exactly when it is judged correct. */
  lemma EndsCases(ex: Exercise, line: string, svc: Services)
    ensures !IsAttempt(line) ==> (Ends(ex, line, svc) <==> QuitKey(line) || SkipKey(line))
    ensures IsAttempt(line) ==>
      (Ends(ex, line, svc) <==> Verdict(ex, NormalizeAnswer(line), svc).status == Validator.Correct)
  {
    KeysAreCommands(line);
  }

  /** The simulator after one typed line: an attempt is run through the
      simulator with the instruction as context; a special command leaves
      it alone. */
  function AttemptSim(sim: Simulator.Sim, ex: Exercise, line: string, svc: Services): Simulator.Sim {
    if IsAttempt(line) then svc.simulate(sim, NormalizeAnswer(line), Some(ex.instruction)).sim else sim
  }

  /** The simulator after the typed lines, taken in order. */
  function SimAfter(sim: Simulator.Sim, ex: Exercise, lines: seq<string>, svc: Services): Simulator.Sim
    decreases |lines|
  {
    if |lines| == 0 then sim
    else AttemptSim(SimAfter(sim, ex, lines[..|lines| - 1], svc), ex, lines[|lines| - 1], svc)
  }

  /** One more line runs one more step. */
  lemma SimAfterStep(sim: Simulator.Sim, ex: Exercise, lines: seq<string>, i: nat, svc: Services)
    requires i < |lines|
    ensures SimAfter(sim, ex, lines[..i + 1], svc) == AttemptSim(SimAfter(sim, ex, lines[..i], svc), ex, lines[i], svc)
  {
    assert lines[..i + 1][..i] == lines[..i];
  }

  /** What one typed line does: it either ends the exercise with an
      outcome or leaves it running. */
  datatype Turn = Continue(m: Manager, ep: ExerciseProgress)
                | Finish(outcome: ExerciseOutcome, m: Manager, ep: ExerciseProgress)

  /** One pass of the `while True` loop of `_run_exercise`. A special
      command is handled; anything else is one attempt: it is simulated,
      recorded as the answer and judged, and a correct verdict completes
      the exercise. */
  method TakeTurn(m: Manager, ex: Exercise, ep: ExerciseProgress, line: string, svc: Services) returns (t: Turn)
    requires ep.status == InProgress
    ensures t.Finish? <==> Ends(ex, line, svc)
    ensures t.Finish? && t.outcome.Stopped? ==> t.outcome.why == QuitCommand && QuitKey(line)
    ensures t.Finish? && t.outcome == Skipped ==> SkipKey(line)
    ensures t.ep.exerciseId == ep.exerciseId
    ensures t.ep.attempts == ep.attempts + (if IsAttempt(line) then 1 else 0)
    ensures IsAttempt(line) ==> t.ep.userAnswer == Some(NormalizeAnswer(line))
    ensures !IsAttempt(line) ==> t.ep.userAnswer == ep.userAnswer
    ensures (t.Finish? && t.outcome == Solved) <==> t.ep.status == ProgressStatus.Completed
    ensures (t.Finish? && t.outcome == Solved) ==>
      IsAttempt(line) && t.ep.completedAt == Some(svc.now) && Verdict(ex, NormalizeAnswer(line), svc).status == Validator.Correct
    ensures !(t.Finish? && t.outcome == Solved) ==> t.ep.completedAt == ep.completedAt
    ensures (t.Finish? && t.outcome == Skipped) <==> t.ep.status == Failed
    ensures (t.Continue? || (t.Finish? && t.outcome.Stopped?)) ==> t.ep.status == InProgress
    ensures (t.Finish? && t.outcome.Stopped?) ==> t.m.session.state == Paused
    ensures OnlyStateAndActivity(m.session, t.m.session)
    ensures t.m.hintCount == m.hintCount +
      (if IsAttempt(line) then (if t.Finish? then 0 else 1)
       else if Lower(NormalizeAnswer(line)) == "hint" then 1 else 0)
    ensures IsAttempt(line) ==> t.m.sim == svc.simulate(m.sim, NormalizeAnswer(line), Some(ex.instruction)).sim
    ensures !IsAttempt(line) ==> t.m.sim == m.sim
    ensures IsAttempt(line) ==> (t.Finish? <==> Verdict(ex, NormalizeAnswer(line), svc).status == Validator.Correct)
    ensures var v := Verdict(ex, NormalizeAnswer(line), svc);
      IsAttempt(line) ==>
        t.m.hintsShown == m.hintsShown + (if t.Finish? || |v.hints| == 0 then [] else [v.hints[0]])
  {
    EndsCases(ex, line, svc);
    if IsAttempt(line) {
      t := AttemptTurn(m, ex, ep, line, svc);
    } else {
      t := CommandTurn(m, ex, ep, line, svc);
    }
  }

  /** A special command typed during the exercise loop. */
  method CommandTurn(m: Manager, ex: Exercise, ep: ExerciseProgress, line: string, svc: Services) returns (t: Turn)
    requires !IsAttempt(line)
    ensures t.Finish? <==> QuitKey(line) || SkipKey(line)
    ensures t.Finish? ==> (t.outcome == Stopped(QuitCommand) && QuitKey(line)) || (t.outcome == Skipped && SkipKey(line))
    ensures t.ep == (if SkipKey(line) then ep.(status := Failed) else ep)
    ensures t.m.session == (if QuitKey(line) then Pause(m.session) else m.session)
    ensures t.m.sim == m.sim
    ensures t.m.hintCount == m.hintCount + (if Lower(NormalizeAnswer(line)) == "hint" then 1 else 0)
  {
    KeysAreCommands(line);
    var h := HandleSpecial(m, Lower(NormalizeAnswer(line)), ex, ep, svc);
    match h.action
    case QuitAction => t := Finish(Stopped(QuitCommand), h.m, h.ep);
    case SkipAction => t := Finish(Skipped, h.m, h.ep);
    case ContinueAction => t := Continue(h.m, h.ep);
  }

  /** An attempt typed during the exercise loop: simulated, recorded as
      the answer and judged; a correct verdict completes the exercise and
      any other shows the verdict's first hint. */
  method AttemptTurn(m: Manager, ex: Exercise, ep: ExerciseProgress, line: string, svc: Services) returns (t: Turn)
    ensures var v := Verdict(ex, NormalizeAnswer(line), svc);
      && (t.Finish? <==> v.status == Validator.Correct)
      && (t.Finish? ==> t.outcome == Solved)
      && t.ep == (if t.Finish? then ep.(status := ProgressStatus.Completed, completedAt := Some(svc.now)) else ep)
                   .(attempts := ep.attempts + 1, userAnswer := Some(NormalizeAnswer(line)))
      && t.m.session == UpdateActivity(m.session, svc.now)
      && t.m.sim == svc.simulate(m.sim, NormalizeAnswer(line), Some(ex.instruction)).sim
      && t.m.hintCount == m.hintCount + (if t.Finish? then 0 else 1)
      && t.m.hintsShown == m.hintsShown + (if t.Finish? || |v.hints| == 0 then [] else [v.hints[0]])
  {
    var answer := NormalizeAnswer(line);
    var step := svc.simulate(m.sim, answer, Some(ex.instruction));
    var tried := ep.(attempts := ep.attempts + 1, userAnswer := Some(answer));
    var m1 := m.(sim := step.sim, session := UpdateActivity(m.session, svc.now));
    var v := Verdict(ex, answer, svc);
    if v.status == Validator.Correct {
      t := Finish(Solved, m1, tried.(status := ProgressStatus.Completed, completedAt := Some(svc.now)));
    } else {
      var shown := if |v.hints| > 0 then [v.hints[0]] else [];
      t := Continue(m1.(hintCount := m.hintCount + 1, hintsShown := m.hintsShown + shown), tried);
    }
  }


  /** The exercise loop's bookkeeping once `lines` have been typed and
      none of them ended the exercise. */
  predicate Played(m: Manager, ex: Exercise, ep: ExerciseProgress, lines: seq<string>, svc: Services,
                   cur: Manager, e: ExerciseProgress)
  {
    && e.status == InProgress && e.completedAt == ep.completedAt
    && e == ep.(status := e.status, attempts := e.attempts, userAnswer := e.userAnswer)
    && e.attempts == ep.attempts + Tries(lines)
    && (e.attempts == ep.attempts ==> e.userAnswer == ep.userAnswer)
    && (e.attempts > ep.attempts ==> e.userAnswer.Some?)
    && OnlyStateAndActivity(m.session, cur.session)
    && cur.hintCount <= |lines|
    && cur.sim == SimAfter(m.sim, ex, lines, svc)
    && NoneEnds(ex, lines, svc)
  }

  /** What `_run_exercise` promises of a run that has taken the first
      `r.used` typed lines. */
  predicate Ran(m: Manager, ex: Exercise, ep: ExerciseProgress, answers: seq<string>, svc: Services,
                r: ExerciseRun)
  {
    && r.used <= |answers|
    && (r.outcome == Stopped(InputEnded) ==> r.used == |answers|)
    && (r.outcome != Stopped(InputEnded) ==> r.used > 0)
    && (r.used > 0 ==> NoneEnds(ex, answers[..r.used - 1], svc))
    && (r.outcome == Stopped(InputEnded) ==> NoneEnds(ex, answers, svc))
    && (r.outcome != Stopped(InputEnded) ==> Ends(ex, answers[r.used - 1], svc))
    && (r.outcome == Stopped(QuitCommand) ==> QuitKey(answers[r.used - 1]))
    && (r.outcome == Skipped ==> SkipKey(answers[r.used - 1]))
    && (r.outcome == Solved ==>
          IsAttempt(answers[r.used - 1]) && r.ep.userAnswer == Some(NormalizeAnswer(answers[r.used - 1])))
    && r.ep.attempts == ep.attempts + Tries(answers[..r.used])
    && r.ep == ep.(status := r.ep.status, attempts := r.ep.attempts, userAnswer := r.ep.userAnswer,
                   completedAt := r.ep.completedAt)
    && (r.ep.attempts == ep.attempts ==> r.ep.userAnswer == ep.userAnswer)
    && (r.ep.attempts > ep.attempts ==> r.ep.userAnswer.Some?)
    && (r.outcome == Solved <==> r.ep.status == ProgressStatus.Completed)
    && (r.outcome == Solved ==>
          r.ep.completedAt == Some(svc.now) && r.ep.userAnswer.Some?
          && Verdict(ex, r.ep.userAnswer.value, svc).status == Validator.Correct)
    && (r.outcome != Solved ==> r.ep.completedAt == ep.completedAt)
    && (r.outcome == Skipped <==> r.ep.status == Failed)
    && (r.outcome.Stopped? ==> r.ep.status == InProgress)
    && (r.outcome == Stopped(QuitCommand) ==> r.m.session.state == Paused)
    && OnlyStateAndActivity(m.session, r.m.session)
    && r.m.hintCount <= r.used
    && r.m.sim == SimAfter(m.sim, ex, answers[..r.used], svc)
  }

  /** The turn on the `i`-th typed line either keeps the loop's
      bookkeeping for one more line or ends the run. */
  method ExerciseTurn(m: Manager, ex: Exercise, ep: ExerciseProgress, answers: seq<string>, svc: Services,
                      i: nat, cur: Manager, e: ExerciseProgress) returns (t: Turn)
    requires i < |answers| && Played(m, ex, ep, answers[..i], svc, cur, e)
    ensures t.Continue? ==> Played(m, ex, ep, answers[..i + 1], svc, t.m, t.ep)
    ensures t.Finish? ==> Ran(m, ex, ep, answers, svc, ExerciseRun(t.outcome, t.m, t.ep, i + 1))
  {
    TriesPrefix(answers, i);
    SimAfterStep(m.sim, ex, answers, i, svc);
    t := TakeTurn(cur, ex, e, answers[i], svc);
    if t.Continue? {
      NoneEndsStep(ex, answers, i, svc);
    }
  }

  /** `_run_exercise`: the hint count starts again from zero, the exercise
      is marked in progress, and typed lines are taken one at a time until
      one ends the exercise or the input runs out. Every line that is not a
      special command counts as exactly one attempt; the exercise is
      completed only with an answer the validator judges correct, which is
      then the recorded answer. */
  method RunExercise(m: Manager, ex: Exercise, ep: ExerciseProgress, answers: seq<string>,
                     svc: Services) returns (r: ExerciseRun)
    ensures Ran(m, ex, ep, answers, svc, r)
  {
    r := RunFrom(m, ex, ep, answers, svc, 0, m.(hintCount := 0), ep.(status := InProgress));
  }

  /** The rest of `_run_exercise` once the first `i` typed lines have been
      taken without ending the exercise. */
  method RunFrom(m: Manager, ex: Exercise, ep: ExerciseProgress, answers: seq<string>, svc: Services,
                 i: nat, cur: Manager, e: ExerciseProgress) returns (r: ExerciseRun)
    requires i <= |answers| && Played(m, ex, ep, answers[..i], svc, cur, e)
    ensures Ran(m, ex, ep, answers, svc, r)
    decreases |answers| - i
  {
    if i == |answers| {
      assert answers[..i] == answers;
      return ExerciseRun(Stopped(InputEnded), cur, e, i);
    }
    var t := ExerciseTurn(m, ex, ep, answers, svc, i, cur, e);
    if t.Finish? {
      return ExerciseRun(t.outcome, t.m, t.ep, i + 1);
    }
    r := RunFrom(m, ex, ep, answers, svc, i + 1, t.m, t.ep);
  }

  /** The run stops at the first line that ends the exercise, and that
      line decides the outcome: quit or exit stop it, skip gives it up,
      and otherwise it was a correct attempt. */
  lemma FirstEndDecides(m: Manager, ex: Exercise, ep: ExerciseProgress, answers: seq<string>, svc: Services,
                        r: ExerciseRun, k: nat)
    requires Ran(m, ex, ep, answers, svc, r)
    requires k < |answers| && Ends(ex, answers[k], svc)
    requires forall j :: 0 <= j < k ==> !Ends(ex, answers[j], svc)
    ensures r.used == k + 1
    ensures QuitKey(answers[k]) ==> r.outcome == Stopped(QuitCommand)
    ensures SkipKey(answers[k]) ==> r.outcome == Skipped
    ensures IsAttempt(answers[k]) ==> r.outcome == Solved && r.ep.userAnswer == Some(NormalizeAnswer(answers[k]))
  {
    if r.used > k + 1 {
      NoneEndsAt(ex, answers[..r.used - 1], k, svc);
      assert false;
    }
    if r.outcome == Stopped(InputEnded) {
      NoneEndsAt(ex, answers, k, svc);
      assert false;
    }
    if r.used < k + 1 {
      assert false;
    }
    LineDecides(answers[k], r.outcome);
  }

  /** An outcome that only the right kind of line can bring about is
      determined by that line. */
  lemma LineDecides(line: string, outcome: ExerciseOutcome)
    requires outcome != Stopped(InputEnded)
    requires outcome == Stopped(QuitCommand) ==> QuitKey(line)
    requires outcome == Skipped ==> SkipKey(line)
    requires outcome == Solved ==> IsAttempt(line)
    ensures QuitKey(line) ==> outcome == Stopped(QuitCommand)
    ensures SkipKey(line) ==> outcome == Skipped
    ensures IsAttempt(line) ==> outcome == Solved
  {
    KeysAreCommands(line);
    match outcome
    case Solved =>
      assert !QuitKey(line) && !SkipKey(line);
    case Skipped =>
      assert !QuitKey(line) && !IsAttempt(line);
    case Stopped(why) =>
      assert why == QuitCommand;
      assert !SkipKey(line) && !IsAttempt(line);
  }

  /** With the real validator every hint request shows a hint, since
      requests are numbered from 1: the k-th request within an exercise
      shows the exercise's k-th hint while there is one, and the fixed
      fallback hint after that when there is no language model. */
  lemma HintRequestAnswered(m: Manager, ex: Exercise, ep: ExerciseProgress,
                            tokenize: string -> Option<seq<string>>, simulatorModel: Client,
                            validatorModel: Client, parseScore: string -> Option<real>, now: Time)
    ensures var r := HandleSpecial(m, "hint", ex, ep, Wire(tokenize, simulatorModel, validatorModel, parseScore, now));
      && r.action == ContinueAction
      && |r.m.hintsShown| == |m.hintsShown| + 1
      && (m.hintCount < |ex.hints| ==> r.m.hintsShown[|m.hintsShown|] == ex.hints[m.hintCount])
      && (m.hintCount >= |ex.hints| && validatorModel.NoClient? ==>
            r.m.hintsShown[|m.hintsShown|] == Validator.FallbackHint)
  {
    var svc := Wire(tokenize, simulatorModel, validatorModel, parseScore, now);
    var hint := svc.generateHint(ex, ep.userAnswer.GetOr(""), m.hintCount + 1);
    assert hint == Validator.GenerateHint(ex, ep.userAnswer.GetOr(""), m.hintCount + 1, validatorModel);
    assert hint.Some?;
  }

  // ---------------------------------------------------------------------
  // One lesson

  /** The progress record has a record for each of the lesson's exercises
      (more is tolerated, as indexing by position allows). */
  predicate LessonFits(l: Lesson, lp: LessonProgress) {
    |l.exercises| <= |lp.exerciseProgress|
  }

  datatype LessonRun = LessonRun(stopped: Option<Stop>, m: Manager, lp: LessonProgress, used: nat)

  /** Only the exercise records change, each keeping its exercise id, and
      an exercise that was finished or skipped is left alone. */
  predicate ExercisesOnlyAdvance(before: LessonProgress, after: LessonProgress) {
    && after == before.(exerciseProgress := after.exerciseProgress)
    && |after.exerciseProgress| == |before.exerciseProgress|
    && (forall k :: 0 <= k < |before.exerciseProgress| ==>
          after.exerciseProgress[k].exerciseId == before.exerciseProgress[k].exerciseId)
    && (forall k :: 0 <= k < |before.exerciseProgress| && Resolved(before.exerciseProgress[k]) ==>
          after.exerciseProgress[k] == before.exerciseProgress[k])
  }

  /** The session differs at most in its state, its last activity time and
      its current exercise. */
  predicate SameSessionBut(before: LearningSession, after: LearningSession) {
    after == before.(state := after.state, lastActivityAt := after.lastActivityAt,
                     currentExerciseId := after.currentExerciseId)
  }

  /** One pass of the `_run_lesson_exercises` loop over an exercise not yet
      finished or skipped: it becomes the current exercise, the simulator
      starts afresh, and the exercise is run. It ends finished or skipped
      exactly when the run was not stopped. */
  method PlayExercise(m: Manager, ex: Exercise, ep: ExerciseProgress, answers: seq<string>,
                      svc: Services) returns (r: ExerciseRun)
    ensures r.used <= |answers|
    ensures r.outcome == Stopped(InputEnded) ==> r.used == |answers|
    ensures r.ep.exerciseId == ep.exerciseId
    ensures Resolved(r.ep) <==> !r.outcome.Stopped?
    ensures r.outcome == Stopped(QuitCommand) ==> r.m.session.state == Paused
    ensures SameSessionBut(m.session, r.m.session) && r.m.session.currentExerciseId == Some(ex.id)
    ensures r.m.sim == SimAfter(Simulator.Reset(m.sim), ex, answers[..r.used], svc)
  {
    var restarted := m.(session := m.session.(currentExerciseId := Some(ex.id)), sim := Simulator.Reset(m.sim));
    r := RunExercise(restarted, ex, ep, answers, svc);
  }

  /** One pass of the `_run_lesson_exercises` loop at exercise `j`, from
      input line `used` on: a finished or skipped exercise is passed over,
      any other is played and its record written back. */
  method VisitExercise(m: Manager, lesson: Lesson, lp: LessonProgress, j: nat, answers: seq<string>,
                       used: nat, svc: Services)
    returns (stop: Option<Stop>, m': Manager, lp': LessonProgress, used': nat)
    requires j < |lesson.exercises| <= |lp.exerciseProgress| && used <= |answers|
    ensures used <= used' <= |answers|
    ensures stop == Some(InputEnded) ==> used' == |answers|
    ensures |lp'.exerciseProgress| == |lp.exerciseProgress|
    ensures lp' == lp.(exerciseProgress := lp.exerciseProgress[j := lp'.exerciseProgress[j]])
    ensures lp'.exerciseProgress[j].exerciseId == lp.exerciseProgress[j].exerciseId
    ensures Resolved(lp.exerciseProgress[j]) ==> stop.None? && lp' == lp && m' == m && used' == used
    ensures stop.None? <==> Resolved(lp'.exerciseProgress[j])
    ensures stop == Some(QuitCommand) ==> m'.session.state == Paused
    ensures SameSessionBut(m.session, m'.session)
  {
    var ep := lp.exerciseProgress[j];
    if Resolved(ep) {
      return None, m, lp, used;
    }
    var e := PlayExercise(m, lesson.exercises[j], ep, answers[used..], svc);
    lp' := lp.(exerciseProgress := lp.exerciseProgress[j := e.ep]);
    stop := if e.outcome.Stopped? then Some(e.outcome.why) else None;
    m', used' := e.m, used + e.used;
  }

  /** `_run_lesson_exercises`: finished or skipped exercises are passed
      over; each other one becomes the current exercise, gets a fresh
      simulator and is run. The result is `True` (here: not stopped)
      exactly when every exercise of the lesson ends up finished or
      skipped; after a stop no later exercise is run. */
  method RunLessonExercises(m: Manager, lesson: Lesson, lp: LessonProgress, answers: seq<string>,
                            svc: Services) returns (r: LessonRun)
    requires LessonFits(lesson, lp)
    ensures r.used <= |answers|
    ensures r.stopped == Some(InputEnded) ==> r.used == |answers|
    ensures ExercisesOnlyAdvance(lp, r.lp)
    ensures r.stopped.None? <==> forall k :: 0 <= k < |lesson.exercises| ==> Resolved(r.lp.exerciseProgress[k])
    ensures r.stopped == Some(QuitCommand) ==> r.m.session.state == Paused
    ensures SameSessionBut(m.session, r.m.session)
    ensures r.stopped.None? ==>
      forall k :: |lesson.exercises| <= k < |lp.exerciseProgress| ==> r.lp.exerciseProgress[k] == lp.exerciseProgress[k]
    ensures r.stopped.Some? ==>
      exists j :: 0 <= j < |lesson.exercises| && !Resolved(r.lp.exerciseProgress[j])
                  && (forall k :: 0 <= k < j ==> Resolved(r.lp.exerciseProgress[k]))
                  && (forall k :: j < k < |lp.exerciseProgress| ==> r.lp.exerciseProgress[k] == lp.exerciseProgress[k])
  {
    var cur := m;
    var p := lp;
    var used: nat := 0;
    var j := 0;
    while j < |lesson.exercises|
      invariant 0 <= j <= |lesson.exercises|
      invariant used <= |answers|
      invariant ExercisesOnlyAdvance(lp, p)
      invariant forall k :: 0 <= k < j ==> Resolved(p.exerciseProgress[k])
      invariant forall k :: j <= k < |lp.exerciseProgress| ==> p.exerciseProgress[k] == lp.exerciseProgress[k]
      invariant SameSessionBut(m.session, cur.session)
    {
      var stop, cur', p', used' := VisitExercise(cur, lesson, p, j, answers, used, svc);
      assert forall k :: 0 <= k < |p.exerciseProgress| && k != j ==> p'.exerciseProgress[k] == p.exerciseProgress[k];
      cur, p, used := cur', p', used';
      if stop.Some? {
        assert !Resolved(p.exerciseProgress[j]) && forall k :: 0 <= k < j ==> Resolved(p.exerciseProgress[k]);
        return LessonRun(stop, cur, p, used);
      }
      j := j + 1;
    }
    return LessonRun(None, cur, p, used);
  }

  // ---------------------------------------------------------------------
  // The course

  /** There is a progress record for each lesson, with one for each of its
      exercises: what `_run_lessons` indexes. */
  predicate Fits(c: Course, p: CourseProgress) {
    && |c.lessons| <= |p.lessonProgress|
    && forall i :: 0 <= i < |c.lessons| ==> LessonFits(c.lessons[i], p.lessonProgress[i])
  }

  /** A lesson marked completed has all its exercises finished or skipped. */
  predicate CompletedLessonsResolved(c: Course, p: CourseProgress)
    requires Fits(c, p)
  {
    forall i, k :: 0 <= i < |c.lessons| && p.lessonProgress[i].status == ProgressStatus.Completed
                   && 0 <= k < |c.lessons[i].exercises|
                   ==> Resolved(p.lessonProgress[i].exerciseProgress[k])
  }

  /** How `_run_lessons` ended: it ran out of lessons, the learner declined
      to go on, or a lesson stopped early. */
  datatype CourseOutcome = Finished | Declined | Halted(why: Stop)

  /** `used` and `asked` count the typed lines and the yes/no replies consumed. */
  datatype CourseRun = CourseRun(outcome: CourseOutcome, m: Manager, used: nat, asked: nat)

  /** The lesson marked in progress, its start time kept when already set. */
  function StartLesson(lp: LessonProgress, now: Time): (r: LessonProgress)
    ensures r == lp.(status := InProgress, startedAt := r.startedAt)
    ensures r.startedAt.Some? && (lp.startedAt.Some? ==> r.startedAt == lp.startedAt)
    ensures lp.startedAt.None? ==> r.startedAt == Some(now)
  {
    lp.(status := InProgress, startedAt := if lp.startedAt.None? then Some(now) else lp.startedAt)
  }

  function WithLesson(s: LearningSession, i: nat, lp: LessonProgress): LearningSession
    requires i < |s.progress.lessonProgress|
  {
    s.(progress := s.progress.(lessonProgress := s.progress.lessonProgress[i := lp]))
  }

  /** A lesson record after a run: the same lesson, with the same exercise
      records in the same order, and those already finished or skipped as
      they were. */
  predicate SameLessonShape(before: LessonProgress, after: LessonProgress) {
    && after.lessonId == before.lessonId
    && |after.exerciseProgress| == |before.exerciseProgress|
    && (forall k :: 0 <= k < |before.exerciseProgress| ==>
          after.exerciseProgress[k].exerciseId == before.exerciseProgress[k].exerciseId)
    && (forall k :: 0 <= k < |before.exerciseProgress| && Resolved(before.exerciseProgress[k]) ==>
          after.exerciseProgress[k] == before.exerciseProgress[k])
  }

  /** Only the lesson records and the current lesson index change, each
      lesson record keeping its shape. */
  predicate LessonsOnlyAdvance(before: CourseProgress, after: CourseProgress) {
    && after == before.(lessonProgress := after.lessonProgress, currentLessonIndex := after.currentLessonIndex)
    && |after.lessonProgress| == |before.lessonProgress|
    && forall k :: 0 <= k < |before.lessonProgress| ==> SameLessonShape(before.lessonProgress[k], after.lessonProgress[k])
  }

  lemma AdvanceTransitive(a: CourseProgress, b: CourseProgress, d: CourseProgress)
    requires LessonsOnlyAdvance(a, b) && LessonsOnlyAdvance(b, d)
    ensures LessonsOnlyAdvance(a, d)
  {
    forall k | 0 <= k < |a.lessonProgress|
      ensures SameLessonShape(a.lessonProgress[k], d.lessonProgress[k])
    {
      var x, y, z := a.lessonProgress[k], b.lessonProgress[k], d.lessonProgress[k];
      assert SameLessonShape(x, y) && SameLessonShape(y, z);
    }
  }

  /** Writing back one lesson record of the same shape, marked completed
      only with all its exercises finished or skipped, keeps the progress
      fitting the course, aligned if it was, and its completed lessons
      resolved if they were. */
  lemma LessonWrittenBack(c: Course, p: CourseProgress, i: nat, lp: LessonProgress)
    requires Fits(c, p) && i < |c.lessons|
    requires SameLessonShape(p.lessonProgress[i], lp)
    requires lp.status == ProgressStatus.Completed ==>
      forall k :: 0 <= k < |c.lessons[i].exercises| ==> Resolved(lp.exerciseProgress[k])
    ensures var q := p.(lessonProgress := p.lessonProgress[i := lp]);
      && Fits(c, q) && LessonsOnlyAdvance(p, q)
      && (Aligned(c, p) ==> Aligned(c, q))
      && (CompletedLessonsResolved(c, p) ==> CompletedLessonsResolved(c, q))
  {
    var q := p.(lessonProgress := p.lessonProgress[i := lp]);
    assert LessonFits(c.lessons[i], lp);
    if Aligned(c, p) {
      assert LessonAligned(c.lessons[i], p.lessonProgress[i]);
      assert LessonAligned(c.lessons[i], lp);
    }
  }


  /** One pass of the `_run_lessons` loop over a lesson not yet completed:
      it is marked in progress and becomes the current lesson, its
      exercises are run, and it is marked completed exactly when they all
      end finished or skipped. Only that lesson's record changes; the
      returned `lp` is its new value. */
  method PlayLesson(m: Manager, i: nat, answers: seq<string>, svc: Services) returns (r: LessonRun)
    requires Fits(m.session.course, m.session.progress) && i < |m.session.course.lessons|
    requires m.session.progress.lessonProgress[i].status != ProgressStatus.Completed
    ensures r.used <= |answers|
    ensures r.stopped == Some(InputEnded) ==> r.used == |answers|
    ensures r.m.session == m.session.(progress := r.m.session.progress, state := r.m.session.state,
                                      lastActivityAt := r.m.session.lastActivityAt,
                                      currentLessonId := Some(m.session.course.lessons[i].id),
                                      currentExerciseId := r.m.session.currentExerciseId)
    ensures r.m.session.progress == m.session.progress.(lessonProgress := m.session.progress.lessonProgress[i := r.lp])
    ensures SameLessonShape(m.session.progress.lessonProgress[i], r.lp)
    ensures r.lp.startedAt.Some?
    ensures m.session.progress.lessonProgress[i].startedAt.Some? ==>
      r.lp.startedAt == m.session.progress.lessonProgress[i].startedAt
    ensures r.stopped.None? <==> r.lp.status == ProgressStatus.Completed
    ensures r.stopped.Some? ==> r.lp.status == InProgress
    ensures r.stopped.None? ==>
      forall k :: 0 <= k < |m.session.course.lessons[i].exercises| ==> Resolved(r.lp.exerciseProgress[k])
    ensures r.stopped == Some(QuitCommand) ==> r.m.session.state == Paused
  {
    var lesson := m.session.course.lessons[i];
    var started := StartLesson(m.session.progress.lessonProgress[i], svc.now);
    var cur := m.(session := WithLesson(m.session, i, started).(currentLessonId := Some(lesson.id)));
    var e := RunLessonExercises(cur, lesson, started, answers, svc);
    var lp := e.lp;
    if e.stopped.None? {
      lp := lp.(status := ProgressStatus.Completed, completedAt := Some(svc.now));
    }
    return LessonRun(e.stopped, e.m.(session := WithLesson(e.m.session, i, lp)), lp, e.used);
  }

  /** What a run of lessons keeps, from progress `p0` to progress `p`: the
      records fit the course and keep their shape, stay aligned with the
      course if they were, and lessons marked completed have all their
      exercises finished or skipped if that held before. */
  predicate Kept(c: Course, p0: CourseProgress, p: CourseProgress) {
    && Fits(c, p0) && Fits(c, p)
    && LessonsOnlyAdvance(p0, p)
    && (Aligned(c, p0) ==> Aligned(c, p))
    && (CompletedLessonsResolved(c, p0) ==> CompletedLessonsResolved(c, p))
  }

  lemma KeptTransitive(c: Course, a: CourseProgress, b: CourseProgress, d: CourseProgress)
    requires Kept(c, a, b) && Kept(c, b, d)
    ensures Kept(c, a, d)
  {
    AdvanceTransitive(a, b, d);
  }

  /** How one pass of the `_run_lessons` loop ended: on to the next lesson,
      or out of the loop with the given outcome. */
  datatype LessonStep = LessonStep(end: Option<CourseOutcome>, m: Manager, used: nat, asked: nat)

  /** One pass of the `_run_lessons` loop at index `i`: the index becomes
      the current lesson index; a completed lesson is passed over; any
      other is played, and when it ends completed and is not the last
      lesson the learner is asked whether to go on. Only lesson `i`'s
      record changes, and the loop moves on only with it completed. */
  method StepLesson(m: Manager, i: nat, answers: seq<string>, replies: seq<bool>, svc: Services)
    returns (r: LessonStep)
    requires Fits(m.session.course, m.session.progress) && i < |m.session.course.lessons|
    ensures r.used <= |answers| && r.asked <= |replies|
    ensures r.end == Some(Halted(InputEnded)) ==> r.used == |answers| || r.asked == |replies|
    ensures r.end != Some(Finished)
    ensures r.m.session.course == m.session.course
    ensures Kept(m.session.course, m.session.progress, r.m.session.progress)
    ensures r.m.session.progress.currentLessonIndex == i
    ensures forall k :: 0 <= k < |m.session.progress.lessonProgress| && k != i ==>
      r.m.session.progress.lessonProgress[k] == m.session.progress.lessonProgress[k]
    ensures r.end.None? ==> r.m.session.progress.lessonProgress[i].status == ProgressStatus.Completed
    ensures (r.end == Some(Declined) || r.end == Some(Halted(QuitCommand))) ==> r.m.session.state == Paused
    ensures m.session.progress.lessonProgress[i].status == ProgressStatus.Completed ==>
      r.end.None? && r.used == 0 && r.asked == 0
      && r.m.session.progress.lessonProgress == m.session.progress.lessonProgress
    ensures i + 1 == |m.session.course.lessons| ==> r.asked == 0 && r.end != Some(Declined)
  {
    var c := m.session.course;
    var cur := m.(session := m.session.(progress := m.session.progress.(currentLessonIndex := i)));
    var p := cur.session.progress;
    assert Kept(c, m.session.progress, p);
    if p.lessonProgress[i].status == ProgressStatus.Completed {
      return LessonStep(None, cur, 0, 0);
    }
    var e := PlayLesson(cur, i, answers, svc);
    LessonWrittenBack(c, p, i, e.lp);
    KeptTransitive(c, m.session.progress, p, e.m.session.progress);
    if e.stopped.Some? {
      return LessonStep(Some(Halted(e.stopped.value)), e.m, e.used, 0);
    }
    if i < |c.lessons| - 1 {
      if |replies| == 0 {
        return LessonStep(Some(Halted(InputEnded)), e.m, e.used, 0);
      }
      if !replies[0] {
        return LessonStep(Some(Declined), e.m.(session := Pause(e.m.session)), e.used, 1);
      }
      return LessonStep(None, e.m, e.used, 1);
    }
    return LessonStep(None, e.m, e.used, 0);
  }

  /** `_run_lessons`: from the current lesson index on, every lesson is
      taken in turn as above. The records keep fitting the course; and when
      the loop runs to its end, every lesson from the starting index on is
      completed. */
  method RunLessons(m: Manager, answers: seq<string>, replies: seq<bool>, svc: Services)
    returns (r: CourseRun)
    requires Fits(m.session.course, m.session.progress)
    ensures r.used <= |answers| && r.asked <= |replies|
    ensures r.outcome == Halted(InputEnded) ==> r.used == |answers| || r.asked == |replies|
    ensures r.m.session.course == m.session.course
    ensures Kept(m.session.course, m.session.progress, r.m.session.progress)
    ensures r.outcome == Finished ==>
      forall k :: m.session.progress.currentLessonIndex <= k < |m.session.course.lessons|
                  ==> r.m.session.progress.lessonProgress[k].status == ProgressStatus.Completed
    ensures (r.outcome == Declined || r.outcome == Halted(QuitCommand)) ==> r.m.session.state == Paused
    ensures var start := m.session.progress.currentLessonIndex;
      start >= |m.session.course.lessons| ==> r.outcome == Finished && r.m == m
    ensures var start := m.session.progress.currentLessonIndex;
      start < |m.session.course.lessons| ==>
        start <= r.m.session.progress.currentLessonIndex < |m.session.course.lessons|
        && (r.outcome == Finished ==> r.m.session.progress.currentLessonIndex == |m.session.course.lessons| - 1)
    ensures var start := m.session.progress.currentLessonIndex;
      forall k :: 0 <= k < |m.session.progress.lessonProgress|
                  && !(start <= k <= r.m.session.progress.currentLessonIndex) ==>
        r.m.session.progress.lessonProgress[k] == m.session.progress.lessonProgress[k]
  {
    var c := m.session.course;
    var p0 := m.session.progress;
    var cur := m;
    var used: nat, asked: nat := 0, 0;
    var i := p0.currentLessonIndex;
    assert Kept(c, p0, p0);
    while i < |c.lessons|
      invariant cur.session.course == c
      invariant Kept(c, p0, cur.session.progress)
      invariant forall k :: p0.currentLessonIndex <= k < i && k < |c.lessons|
                  ==> cur.session.progress.lessonProgress[k].status == ProgressStatus.Completed
      invariant used <= |answers| && asked <= |replies|
      invariant p0.currentLessonIndex <= i
      invariant i == p0.currentLessonIndex ==> cur == m
      invariant i > p0.currentLessonIndex ==> cur.session.progress.currentLessonIndex == i - 1 && i <= |c.lessons|
      invariant forall k :: 0 <= k < |p0.lessonProgress| && !(p0.currentLessonIndex <= k < i) ==>
                  cur.session.progress.lessonProgress[k] == p0.lessonProgress[k]
      decreases |c.lessons| - i
    {
      var st := StepLesson(cur, i, answers[used..], replies[asked..], svc);
      KeptTransitive(c, p0, cur.session.progress, st.m.session.progress);
      cur, used, asked := st.m, used + st.used, asked + st.asked;
      if st.end.Some? {
        return CourseRun(st.end.value, cur, used, asked);
      }
      i := i + 1;
    }
    return CourseRun(Finished, cur, used, asked);
  }

  /** `run`: the session becomes active and the course in progress (with
      its start time set when missing); the lessons are run; then the
      session is completed if the course is, and paused otherwise. An
      interruption pauses it without that check. `isCompleted` stands for
      the course progress's completion test. */
  method Run(m: Manager, answers: seq<string>, replies: seq<bool>, svc: Services,
             isCompleted: CourseProgress -> bool) returns (r: CourseRun)
    requires Fits(m.session.course, m.session.progress)
    ensures r.m.session.state != Active
    ensures r.m.session.state == SessionState.Completed ==>
      isCompleted(r.m.session.progress) && r.outcome != Halted(InputEnded)
    ensures r.outcome != Halted(InputEnded) && isCompleted(r.m.session.progress) ==>
      r.m.session.state == SessionState.Completed
    ensures r.m.session.progress.status == InProgress
    ensures r.m.session.progress.startedAt.Some?
    ensures m.session.progress.startedAt.Some? ==> r.m.session.progress.startedAt == m.session.progress.startedAt
    ensures r.m.session.course == m.session.course && Fits(r.m.session.course, r.m.session.progress)
    ensures Aligned(m.session.course, m.session.progress) ==> Aligned(r.m.session.course, r.m.session.progress)
    ensures CompletedLessonsResolved(m.session.course, m.session.progress)
            ==> CompletedLessonsResolved(r.m.session.course, r.m.session.progress)
  {
    var p := m.session.progress;
    var started := if p.startedAt.None? then Some(svc.now) else p.startedAt;
    var s := m.session.(state := Active, progress := p.(status := InProgress, startedAt := started));
    var run := RunLessons(m.(session := s), answers, replies, svc);
    var last := run.m.session;
    if run.outcome == Halted(InputEnded) {
      last := Pause(last);
    } else if isCompleted(last.progress) {
      last := Complete(last);
    } else {
      last := Pause(last);
    }
    return run.(m := run.m.(session := last));
  }

  // ---------------------------------------------------------------------
  // A new session

  /** The fresh record for each of a lesson's exercises. */
  function NewExerciseRecords(exs: seq<Exercise>): (r: seq<ExerciseProgress>)
    ensures |r| == |exs|
    ensures forall j :: 0 <= j < |exs| ==> r[j] == NewExerciseProgress(exs[j].id)
  {
    seq(|exs|, j requires 0 <= j < |exs| => NewExerciseProgress(exs[j].id))
  }

  function NewLessonRecords(ls: seq<Lesson>): (r: seq<LessonProgress>)
    ensures |r| == |ls|
    ensures forall i :: 0 <= i < |ls| ==>
      r[i] == NewLessonProgress(ls[i].id).(exerciseProgress := NewExerciseRecords(ls[i].exercises))
  {
    seq(|ls|, i requires 0 <= i < |ls| =>
      NewLessonProgress(ls[i].id).(exerciseProgress := NewExerciseRecords(ls[i].exercises)))
  }

  /** `create_new_session`: a record for every lesson and exercise of the
      course, all not started, for the user "default"; the current lesson
      and exercise are the course's first, when there are any. The session
      identifier and the clock reading are supplied by the caller. */
  function CreateNewSession(course: Course, sessionId: string, sim: Simulator.Sim, now: Time): (m: Manager)
    ensures Aligned(course, m.session.progress) && Fits(course, m.session.progress)
    ensures CompletedLessonsResolved(course, m.session.progress)
    ensures m.session.course == course && m.session.sessionId == sessionId && m.session.state == Active
    ensures m.session.progress.userId == "default" && m.session.progress.status == NotStarted
    ensures m.session.progress.currentLessonIndex == 0
    ensures forall i, j :: 0 <= i < |course.lessons| && 0 <= j < |course.lessons[i].exercises| ==>
      m.session.progress.lessonProgress[i].exerciseProgress[j] == NewExerciseProgress(course.lessons[i].exercises[j].id)
    ensures forall i :: 0 <= i < |course.lessons| ==> m.session.progress.lessonProgress[i].status == NotStarted
    ensures m.session.currentLessonId == if |course.lessons| > 0 then Some(course.lessons[0].id) else None
    ensures m.session.currentExerciseId ==
      if |course.lessons| > 0 && |course.lessons[0].exercises| > 0 then Some(course.lessons[0].exercises[0].id)
      else None
    ensures m.sim == sim && m.hintCount == 0 && m.hintsShown == []
  {
    var progress := NewCourseProgress(course.id, "default").(lessonProgress := NewLessonRecords(course.lessons));
    var lessonId := if |course.lessons| > 0 then Some(course.lessons[0].id) else None;
    var exerciseId :=
      if |course.lessons| > 0 && |course.lessons[0].exercises| > 0 then Some(course.lessons[0].exercises[0].id)
      else None;
    var session := NewLearningSession(sessionId, course, progress, now)
      .(currentLessonId := lessonId, currentExerciseId := exerciseId);
    Manager(session, sim, 0, [])
  }
}

=== FILE: sessions.dfy ===
/** The learning session record: one learner's progress through one course. */
module Sessions {
  import opened Wrappers
  import opened Lessons
  import opened Courses
  import opened Progress

  datatype SessionState = Active | Paused | Completed

  datatype LearningSession = LearningSession(
    sessionId: string,
    course: Course,
    progress: CourseProgress,
    state: SessionState,
    currentLessonId: Option<string>,
    currentExerciseId: Option<string>,
    createdAt: Time,
    lastActivityAt: Time,
    pausedAt: Option<Time>,
    completedAt: Option<Time>)

  /** A session built from its required parts. The identifier is a fresh
      value the caller supplies; both clock fields read `now`. */
  function NewLearningSession(sessionId: string, course: Course, progress: CourseProgress,
                              now: Time): (s: LearningSession)
    ensures s.sessionId == sessionId && s.course == course && s.progress == progress
    ensures s.state == Active
    ensures s.currentLessonId.None? && s.currentExerciseId.None?
    ensures s.pausedAt.None? && s.completedAt.None?
    ensures s.createdAt == now && s.lastActivityAt == now
  {
    LearningSession(sessionId, course, progress, Active, None, None, now, now, None, None)
  }

  function Pause(s: LearningSession): LearningSession {
    s.(state := Paused)
  }

  function Complete(s: LearningSession): LearningSession {
    s.(state := SessionState.Completed)
  }

  function Resume(s: LearningSession): LearningSession {
    s.(state := Active)
  }

  function UpdateActivity(s: LearningSession, now: Time): LearningSession {
    s.(lastActivityAt := now)
  }

  /** The progress records line up one-to-one with the course content: same
      number of lessons and exercises, same ids, position by position. */
  predicate LessonAligned(l: Lesson, lp: LessonProgress) {
    && lp.lessonId == l.id
    && |lp.exerciseProgress| == |l.exercises|
    && forall j :: 0 <= j < |l.exercises| ==> lp.exerciseProgress[j].exerciseId == l.exercises[j].id
  }

  predicate Aligned(c: Course, p: CourseProgress) {
    && p.courseId == c.id
    && |p.lessonProgress| == |c.lessons|
    && forall i :: 0 <= i < |c.lessons| ==> LessonAligned(c.lessons[i], p.lessonProgress[i])
  }
}

=== FILE: simulator.dfy ===
/** `CommandSimulator`: answers a typed command from a small table of
    built-in shell, Python, pip, git, docker and kubectl behaviours over the
    virtual file system, and hands anything else to the language model. */
module Simulator {
  import opened Wrappers
  import opened Strings
  import opened FileSystem
  import opened PythonSyntax
  import opened Oracle

  /** A key of `state_changes`. The simulator only ever uses these eleven;
      `KeyName` gives each one's spelling. */
  datatype ChangeKey =
    | DirectoryCreated | FileCreated | DirectoryChanged
    | ModuleImported | VariableBound | LlmSimulated
    | PackageInstalled | RepositoryInitialized | RepositoryCloned
    | ContainerStarted | ImageBuilt

  function KeyName(k: ChangeKey): string {
    match k
    case DirectoryCreated => "created_directory"
    case FileCreated => "created_file"
    case DirectoryChanged => "current_directory"
    case ModuleImported => "python_import"
    case VariableBound => "python_variable"
    case LlmSimulated => "llm_simulated"
    case PackageInstalled => "installed_package"
    case RepositoryInitialized => "git_initialized"
    case RepositoryCloned => "git_cloned"
    case ContainerStarted => "docker_container_started"
    case ImageBuilt => "docker_image_built"
  }

  /** Distinct keys are spelled differently, so a map over `ChangeKey`
      stands for the same dictionary as one over their spellings. */
  lemma KeyNamesDistinct(a: ChangeKey, b: ChangeKey)
    requires a != b
    ensures KeyName(a) != KeyName(b)
  {
  }

  /** A value in `state_changes`: a string, or the flag `True`. */
  datatype Change = TextChange(text: string) | FlagChange(flag: bool)

  datatype SimulationResult = SimulationResult(
    success: bool,
    output: string,
    error: Option<string>,
    exitCode: int,
    stateChanges: map<ChangeKey, Change>)

  /** Everything a simulator carries between commands. */
  datatype Sim = Sim(
    fs: Vfs,
    environment: map<string, string>,
    pythonImports: set<string>,
    pythonVariables: map<string, string>)

  /** A result together with the simulator state after the command. */
  datatype Step = Step(result: SimulationResult, sim: Sim)

  const InitialEnvironment: map<string, string> :=
    map["HOME" := "/home/user", "USER" := "user", "PATH" := "/usr/local/bin:/usr/bin:/bin"]

  /** A successful result: exit code 0 and no error. */
  function Done(output: string, changes: map<ChangeKey, Change>): SimulationResult {
    SimulationResult(true, output, None, 0, changes)
  }

  /** A failed result: no output, the error message and a non-zero code. */
  function Fail(error: string, code: int): SimulationResult
    requires code != 0
  {
    SimulationResult(false, "", Some(error), code, map[])
  }

  /** Every result the simulator produces: success exactly when the exit
      code is 0, and an error message only on failure. */
  predicate Consistent(r: SimulationResult) {
    (r.success <==> r.exitCode == 0) && (r.error.Some? ==> !r.success)
  }

  /** The state every command keeps: a well-formed file system and a
      canonical home directory for `cd` with no argument. */
  predicate SimWf(s: Sim) {
    Wf(s.fs) && ("HOME" in s.environment ==> IsCanonical(s.environment["HOME"]))
  }

  function InitialSim(): (s: Sim)
    ensures SimWf(s)
    ensures s.fs == InitialVfs() && s.environment == InitialEnvironment
    ensures s.pythonImports == {} && s.pythonVariables == map[]
  {
    InitialWf();
    Sim(InitialVfs(), InitialEnvironment, {}, map[])
  }

  /** `reset`: back to the initial tree, environment and an empty Python
      namespace, whatever happened before. */
  function Reset(s: Sim): (r: Sim)
    ensures r == InitialSim()
    ensures SimWf(r)
    ensures r.fs.files == map[] && r.fs.currentDir == Home
    ensures r.pythonImports == {} && r.pythonVariables == map[]
  {
    InitialSim()
  }

  /** Two simulators are indistinguishable after a reset. */
  lemma ResetForgets(a: Sim, b: Sim)
    ensures Reset(a) == Reset(b) == InitialSim()
  {
  }

  // ---------------------------------------------------------------------
  // Command words

  const EchoCmd: string := "echo"
  const LsCmd: string := "ls"
  const CatCmd: string := "cat"
  const MkdirCmd: string := "mkdir"
  const TouchCmd: string := "touch"
  const CdCmd: string := "cd"
  const PwdCmd: string := "pwd"
  const PythonCmd: string := "python"
  const Python3Cmd: string := "python3"
  const PipCmd: string := "pip"
  const Pip3Cmd: string := "pip3"
  const GitCmd: string := "git"
  const DockerCmd: string := "docker"
  const KubectlCmd: string := "kubectl"

  /** Subcommands the tools answer specially. */
  const InstallSub: string := "install"
  const ListSub: string := "list"
  const InitSub: string := "init"
  const StatusSub: string := "status"
  const CloneSub: string := "clone"
  const RunSub: string := "run"
  const PsSub: string := "ps"
  const BuildSub: string := "build"
  const GetSub: string := "get"
  const ApplySub: string := "apply"

  /** `python -c <code>` runs the code; `python <file>.py` runs the file. */
  const CodeOption: string := "-c"
  const ScriptSuffix: string := ".py"

  /** The openings of a Python import line. */
  const ImportPrefix: string := "import "
  const FromPrefix: string := "from "

  // ---------------------------------------------------------------------
  // Shell built-ins

  /** `echo`: the arguments joined by single spaces, which split back into
      the arguments when none of them holds a space. */
  function Echo(args: seq<string>): (r: SimulationResult)
    ensures Consistent(r) && r.success && r.stateChanges == map[]
    ensures r.output == Join(args, " ")
    ensures |args| > 0 && (forall i :: 0 <= i < |args| ==> ' ' !in args[i]) ==> Split(r.output, ' ') == args
  {
    if |args| > 0 && forall i :: 0 <= i < |args| ==> ' ' !in args[i] then
      SplitJoin(args, ' ');
      Done(Join(args, " "), map[])
    else Done(Join(args, " "), map[])
  }

  /** `ls`: the sorted names under the directory (default `.`), one per
      line, or the listing error with exit code 1. */
  function Ls(s: Sim, args: seq<string>): (r: SimulationResult)
    ensures Consistent(r) && r.stateChanges == map[]
    ensures var path := if |args| > 0 then args[0] else ".";
      r.success <==> ListDirectory(s.fs, path).Ok?
    ensures var path := if |args| > 0 then args[0] else ".";
      var names := ListDirectory(s.fs, path);
      r.success && |names.value| > 0 && (forall i :: 0 <= i < |names.value| ==> '\n' !in names.value[i])
      ==> Split(r.output, '\n') == names.value
    ensures var path := if |args| > 0 then args[0] else ".";
      r.success && |ListDirectory(s.fs, path).value| == 0 ==> r.output == ""
    ensures var path := if |args| > 0 then args[0] else ".";
      !r.success ==> r.exitCode == 1 && r.error == Some(ListDirectory(s.fs, path).error.message)
  {
    var path := if |args| > 0 then args[0] else ".";
    match ListDirectory(s.fs, path)
    case Ok(names) =>
      if |names| > 0 && forall i :: 0 <= i < |names| ==> '\n' !in names[i] then
        SplitJoin(names, '\n');
        Done(Join(names, "\n"), map[])
      else Done(Join(names, "\n"), map[])
    case Err(e) => Fail(e.message, 1)
  }

  /** `cat`: the file's content, or the read error with exit code 1. */
  function Cat(s: Sim, args: seq<string>): (r: SimulationResult)
    ensures Consistent(r) && r.stateChanges == map[]
    ensures |args| == 0 ==> r == Fail(CatMissingOperand, 1)
    ensures |args| > 0 ==> (r.success <==> IsFile(s.fs, args[0]))
    ensures |args| > 0 && r.success ==> r.output == ReadFile(s.fs, args[0]).value
    ensures |args| > 0 && !r.success ==> r.error == Some("No such file: " + args[0]) && r.exitCode == 1
  {
    if |args| == 0 then Fail(CatMissingOperand, 1)
    else
      match ReadFile(s.fs, args[0])
      case Ok(content) => Done(content, map[])
      case Err(e) => Fail(e.message, 1)
  }

  /** `mkdir`: creates the directory and its missing ancestors. */
  function Mkdir(s: Sim, args: seq<string>): (st: Step)
    ensures Consistent(st.result)
    ensures |args| == 0 ==> st == Step(Fail(MkdirMissingOperand, 1), s)
    ensures |args| > 0 ==> st.result.success && IsDirectory(st.sim.fs, args[0])
    ensures |args| > 0 ==> st.sim == s.(fs := CreateDirectory(s.fs, args[0]))
    ensures |args| > 0 ==> st.result.stateChanges == map[DirectoryCreated := TextChange(args[0])]
    ensures SimWf(s) ==> SimWf(st.sim)
  {
    if |args| == 0 then Step(Fail(MkdirMissingOperand, 1), s)
    else
      Step(Done("", map[DirectoryCreated := TextChange(args[0])]),
           s.(fs := CreateDirectory(s.fs, args[0])))
  }

  /** `touch`: creates an empty file unless one exists. */
  function TouchCommand(s: Sim, args: seq<string>): (st: Step)
    ensures Consistent(st.result)
    ensures |args| == 0 ==> st == Step(Fail(TouchMissingOperand, 1), s)
    ensures |args| > 0 ==> st.result.success && IsFile(st.sim.fs, args[0])
    ensures |args| > 0 ==> st.sim == s.(fs := Touch(s.fs, args[0]))
    ensures |args| > 0 ==> st.result.stateChanges == map[FileCreated := TextChange(args[0])]
    ensures SimWf(s) ==> SimWf(st.sim)
  {
    if |args| == 0 then Step(Fail(TouchMissingOperand, 1), s)
    else
      Step(Done("", map[FileCreated := TextChange(args[0])]), s.(fs := Touch(s.fs, args[0])))
  }

  /** `cd`: with no argument, to `$HOME` (default `/home/user`) without
      reporting a change; otherwise into the normalised path when it is a
      directory, failing with exit code 1 when it is not. */
  function Cd(s: Sim, args: seq<string>): (st: Step)
    ensures Consistent(st.result)
    ensures st.sim.environment == s.environment && st.sim.pythonImports == s.pythonImports
    ensures st.sim.pythonVariables == s.pythonVariables
    ensures st.sim.fs.files == s.fs.files && st.sim.fs.directories == s.fs.directories
    ensures |args| == 0 ==> st.result.success && st.result.stateChanges == map[]
    ensures |args| == 0 ==> st.sim.fs.currentDir == if "HOME" in s.environment then s.environment["HOME"] else Home
    ensures |args| > 0 ==> (st.result.success <==> IsDirectory(s.fs, args[0]))
    ensures |args| > 0 && st.result.success ==>
      st.sim.fs.currentDir == NormalizePath(s.fs.currentDir, args[0])
      && st.result.stateChanges == map[DirectoryChanged := TextChange(st.sim.fs.currentDir)]
    ensures |args| > 0 && !st.result.success ==>
      st.sim == s && st.result.error == Some("cd: " + args[0] + CdNoSuchDirectory)
    ensures SimWf(s) ==> SimWf(st.sim)
  {
    if |args| == 0 then
      var home := if "HOME" in s.environment then s.environment["HOME"] else Home;
      assert SimWf(s) ==> IsCanonical(home) by {
        if SimWf(s) && "HOME" !in s.environment { HomeUserCanonical(); }
      }
      Step(Done("", map[]), s.(fs := s.fs.(currentDir := home)))
    else
      var n := NormalizePath(s.fs.currentDir, args[0]);
      NormalizeCanonical(s.fs.currentDir, n);
      if !IsDirectory(s.fs, n) then
        Step(Fail("cd: " + args[0] + CdNoSuchDirectory, 1), s)
      else
        Step(Done("", map[DirectoryChanged := TextChange(n)]), s.(fs := s.fs.(currentDir := n)))
  }

  /** `pwd`: the current directory. */
  function Pwd(s: Sim): (r: SimulationResult)
    ensures Consistent(r) && r.success && r.output == s.fs.currentDir && r.stateChanges == map[]
  {
    Done(s.fs.currentDir, map[])
  }

  // ---------------------------------------------------------------------
  // Canned output

  /** The fixed texts the simulated tools print. */
  const PythonBanner: string := "Python 3.9.0\nType 'help' for more information."
  const PipUsage: string := "Usage: pip <command> [options]\n\nCommands:\n  install   Install packages\n  list      List installed packages"
  const PipListing: string := "Package    Version\n---------- -------\npip        24.0"
  const PipMissingRequirement: string := "ERROR: You must give at least one requirement to install"
  const GitUsage: string := "usage: git [--version] [--help] <command> [<args>]"
  const GitInitMessage: string := "Initialized empty Git repository in .git/"
  const GitClean: string := "On branch main\nnothing to commit, working tree clean"
  const GitCloneMissing: string := "fatal: You must specify a repository to clone."
  const DockerUsage: string := "Usage: docker [OPTIONS] COMMAND\n\nA self-sufficient runtime for containers"
  const DockerPs: string := "CONTAINER ID   IMAGE     COMMAND   CREATED   STATUS   PORTS"
  const DockerBuilt: string := "Successfully built docker image"
  const KubectlUsage: string := "kubectl controls the Kubernetes cluster manager."
  const KubectlHeader: string := "NAME                READY   STATUS    RESTARTS   AGE\n"
  const KubectlSampleRow: string := "-sample   1/1     Running   0          10s"
  const KubectlApplied: string := "resource created/updated successfully"
  const NoSuchFile: string := "': [Errno 2] No such file or directory"
  const CompletedSuffix: string := " completed successfully"
  const PythonPrefix: string := "python "
  const PythonCannotOpen: string := "python: can't open file '"
  const PipUnknownCommand: string := "ERROR: unknown command '"
  const PipInstalled: string := "Successfully installed "
  const GitCloning: string := "Cloning into '"
  const GitPrefix: string := "git "
  const DockerRunning: string := "Running container from "
  const DockerPrefix: string := "docker "
  const KubectlPrefix: string := "kubectl "
  const CatMissingOperand: string := "cat: missing file operand"
  const MkdirMissingOperand: string := "mkdir: missing operand"
  const TouchMissingOperand: string := "touch: missing file operand"
  const CdNoSuchDirectory: string := ": No such file or directory"
  const InvalidImport: string := "Invalid import syntax"
  const InvalidSyntax: string := "Invalid command syntax: "
  const UnknownCommand: string := "Unknown command: "
  const SimulationError: string := "Simulation error: "

  /** The markers the language model's reply is read by. */
  const SuccessMarker: string := "Success: yes"
  const OutputMarker: string := "Output:"

  // ---------------------------------------------------------------------
  // Language model fallback

  /** `_simulate_with_llm`: without a client the command is unknown (exit
      127); an exception becomes a simulation error (exit 1); otherwise the
      reply decides success by the marker `Success: yes`, and its output is
      the text after the first `Output:` marker (up to any second one),
      stripped, or the whole reply when there is no marker. */
  function WithLlm(command: string, context: Option<string>, client: Client): (r: SimulationResult)
    ensures Consistent(r)
    ensures client.NoClient? ==> r == Fail(UnknownCommand + command, 127)
    ensures client.Client? ==> match client.generate(SimulationPrompt(command, Included(context)))
      case Raised(m) => r == Fail(SimulationError + m, 1)
      case Text(t) =>
        && (r.success <==> IsSubstring(SuccessMarker, t))
        && r.exitCode == (if r.success then 0 else 1)
        && r.error.None?
        && r.stateChanges == map[LlmSimulated := FlagChange(true)]
        && (IsSubstring(OutputMarker, t) ==> r.output == LlmOutput(t))
        && (!IsSubstring(OutputMarker, t) ==> r.output == t)
  {
    match client
    case NoClient => Fail(UnknownCommand + command, 127)
    case Client(generate) =>
      match generate(SimulationPrompt(command, Included(context)))
      case Raised(m) => Fail(SimulationError + m, 1)
      case Text(t) =>
        var success := IsSubstring(SuccessMarker, t);
        var output := if IsSubstring(OutputMarker, t) then LlmOutput(t) else t;
        SimulationResult(success, output, None, if success then 0 else 1,
                         map[LlmSimulated := FlagChange(true)])
  }

  /** The reply text after the first output marker, up to any second
      one, stripped. */
  function LlmOutput(t: string): (o: string)
    requires IsSubstring(OutputMarker, t)
    ensures IsSubstring(o, t) && !IsSubstring(OutputMarker, o)
    ensures exists i: nat, j: nat :: FieldBounds(t, OutputMarker, i, j) && o == Strip(t[i + |OutputMarker|..j])
  {
    var field := SecondField(t, OutputMarker);
    StripIsSubstring(field);
    SubstringTransitive(Strip(field), field, t);
    assert !IsSubstring(OutputMarker, Strip(field)) by {
      if IsSubstring(OutputMarker, Strip(field)) {
        SubstringTransitive(OutputMarker, Strip(field), field);
      }
    }
    Strip(field)
  }

  // ---------------------------------------------------------------------
  // Python

  /** What a command did to the Python namespace is exactly what it
      reported: an import adds the reported module, an assignment rebinds
      the reported name, and nothing else changes. */
  predicate PythonChangesReported(before: Sim, st: Step) {
    var ch := st.result.stateChanges;
    && (if ModuleImported in ch && ch[ModuleImported].TextChange?
        then st.sim.pythonImports == before.pythonImports + {ch[ModuleImported].text}
        else st.sim.pythonImports == before.pythonImports)
    && (if VariableBound in ch && ch[VariableBound].TextChange?
        then var n := ch[VariableBound].text;
             n in st.sim.pythonVariables && st.sim.pythonVariables - {n} == before.pythonVariables - {n}
        else st.sim.pythonVariables == before.pythonVariables)
  }

  /** Nothing but the Python namespace changes. */
  predicate OnlyPython(before: Sim, st: Step) {
    st.sim.fs == before.fs && st.sim.environment == before.environment && PythonChangesReported(before, st)
  }

  /** `_simulate_python_import` on stripped code: records the module named
      after `import ` (first word, part before any dot) or the second word
      of a `from` line; anything else is invalid import syntax. */
  function PythonImport(s: Sim, code: string): (st: Step)
    requires |code| > 0 ==> !IsSpace(code[|code| - 1])
    ensures Consistent(st.result) && OnlyPython(s, st)
    ensures (StartsWith(code, ImportPrefix) || StartsWith(code, FromPrefix)) <==> st.result.success
    ensures st.result.success ==> ModuleImported in st.result.stateChanges
    ensures StartsWith(code, ImportPrefix) ==>
      && st.result.stateChanges == map[ModuleImported := TextChange(ImportedModule(code))]
      && st.sim.pythonImports == s.pythonImports + {ImportedModule(code)}
    ensures !StartsWith(code, ImportPrefix) && StartsWith(code, FromPrefix) ==>
      && st.result.stateChanges == map[ModuleImported := TextChange(FromModule(code))]
      && st.sim.pythonImports == s.pythonImports + {FromModule(code)}
    ensures !st.result.success ==> st.result == Fail(InvalidImport, 1)
  {
    if StartsWith(code, ImportPrefix) then RecordImport(s, ImportedModule(code))
    else if StartsWith(code, FromPrefix) then RecordImport(s, FromModule(code))
    else Step(Fail(InvalidImport, 1), s)
  }

  function RecordImport(s: Sim, m: string): (st: Step)
    ensures st.result.success && Consistent(st.result) && OnlyPython(s, st)
    ensures st.result.stateChanges == map[ModuleImported := TextChange(m)]
  {
    Step(Done("", map[ModuleImported := TextChange(m)]), s.(pythonImports := s.pythonImports + {m}))
  }

  /** `_simulate_python_code`: on the stripped code, an import line is
      recorded; otherwise a `print` of a quoted literal outputs the literal;
      otherwise an assignment binds the name to the text of its value;
      anything else goes to the language model. */
  function PythonCode(s: Sim, code: string, context: Option<string>, client: Client): (st: Step)
    ensures Consistent(st.result) && OnlyPython(s, st)
  {
    var c := Strip(code);
    if StartsWith(c, ImportPrefix) || StartsWith(c, FromPrefix) then PythonImport(s, c)
    else PythonStatement(s, c, context, client)
  }

  /** Stripped code that is not an import line: a `print` call, an
      assignment, or else a question for the language model. */
  function PythonStatement(s: Sim, c: string, context: Option<string>, client: Client): (st: Step)
    ensures Consistent(st.result) && OnlyPython(s, st)
    ensures PrintMatch(c).Some? ==> st == Step(Done(PrintMatch(c).value, map[]), s)
    ensures PrintMatch(c).None? && AssignMatch(c).Some? ==>
      var (n, v) := AssignMatch(c).value;
      && st.result == Done("", map[VariableBound := TextChange(n)])
      && st.sim.pythonVariables == s.pythonVariables[n := v]
    ensures PrintMatch(c).None? && AssignMatch(c).None? ==> st == Step(WithLlm(c, context, client), s)
  {
    match PrintMatch(c)
    case Some(g) => Step(Done(g, map[]), s)
    case None =>
      match AssignMatch(c)
      case Some((n, v)) =>
        Step(Done("", map[VariableBound := TextChange(n)]), s.(pythonVariables := s.pythonVariables[n := v]))
      case None => Step(WithLlm(c, context, client), s)
  }

  /** `python`/`python3`: with no argument the interpreter banner; `-c` runs
      the next argument; a `.py` argument runs the file's content, failing
      with exit code 2 when it cannot be read; any other option goes to the
      language model as `python <args>`. */
  function Python(s: Sim, args: seq<string>, context: Option<string>, client: Client): (st: Step)
    ensures Consistent(st.result) && OnlyPython(s, st)
    ensures |args| == 0 ==> st == Step(Done(PythonBanner, map[]), s)
    ensures |args| > 1 && args[0] == CodeOption ==> st == PythonCode(s, args[1], context, client)
    ensures |args| > 0 && !(|args| > 1 && args[0] == CodeOption) && EndsWith(args[0], ScriptSuffix) ==>
      if IsFile(s.fs, args[0]) then st == PythonCode(s, ReadFile(s.fs, args[0]).value, context, client)
      else st == Step(Fail(PythonCannotOpen + args[0] + NoSuchFile, 2), s)
    ensures |args| > 0 && !(|args| > 1 && args[0] == CodeOption) && !EndsWith(args[0], ScriptSuffix) ==>
      st == Step(WithLlm(PythonPrefix + Join(args, " "), context, client), s)
  {
    if |args| == 0 then Step(Done(PythonBanner, map[]), s)
    else if args[0] == CodeOption && |args| > 1 then PythonCode(s, args[1], context, client)
    else if EndsWith(args[0], ScriptSuffix) then
      match ReadFile(s.fs, args[0])
      case Ok(code) => PythonCode(s, code, context, client)
      case Err(_) =>
        Step(Fail(PythonCannotOpen + args[0] + NoSuchFile, 2), s)
    else Step(WithLlm(PythonPrefix + Join(args, " "), context, client), s)
  }

  // ---------------------------------------------------------------------
  // pip, git, docker, kubectl

  /** `pip`/`pip3`: usage text, `install <package>`, `list`; any other
      subcommand fails with exit code 1. */
  function Pip(args: seq<string>): (r: SimulationResult)
    ensures Consistent(r)
    ensures r.success <==> |args| == 0 || args[0] == ListSub || (args[0] == InstallSub && |args| >= 2)
    ensures !(|args| >= 2 && args[0] == InstallSub) ==> r.stateChanges == map[]
    ensures |args| >= 2 && args[0] == InstallSub ==>
      r.output == PipInstalled + args[1]
      && r.stateChanges == map[PackageInstalled := TextChange(args[1])]
    ensures |args| == 1 && args[0] == InstallSub ==>
      r == Fail(PipMissingRequirement, 1)
    ensures |args| > 0 && args[0] != InstallSub && args[0] != ListSub ==>
      r == Fail(PipUnknownCommand + args[0] + "'", 1)
  {
    if |args| == 0 then
      Done(PipUsage, map[])
    else if args[0] == InstallSub then
      if |args| < 2 then Fail(PipMissingRequirement, 1)
      else Done(PipInstalled + args[1], map[PackageInstalled := TextChange(args[1])])
    else if args[0] == ListSub then
      Done(PipListing, map[])
    else Fail(PipUnknownCommand + args[0] + "'", 1)
  }

  /** The suffix `git clone` drops from a repository's last component. */
  const GitSuffix: string := ".git"

  /** The directory `git clone` announces: the last `/` component of the
      repository with every `.git` removed. */
  function CloneDirectory(repo: string): string {
    var fields := Split(repo, '/');
    RemoveAll(fields[|fields| - 1], GitSuffix)
  }

  /** A repository URL ending in `/<name>.git`, for a name without dots or
      slashes, is cloned into `<name>`. */
  lemma CloneDirectoryOfUrl(base: string, name: string)
    requires '/' !in name && '.' !in name
    ensures CloneDirectory(base + "/" + name + GitSuffix) == name
  {
    var b := name + GitSuffix;
    assert '/' !in GitSuffix;
    assert '/' !in b by {
      assert forall c :: c in b ==> c in name || c in GitSuffix;
    }
    assert base + "/" + name + GitSuffix == base + ['/'] + b;
    SplitLastField(base, b, '/');
    assert GitSuffix[0] == '.';
    RemoveAllAbsent(name, GitSuffix, GitSuffix);
    RemoveAllWhole(GitSuffix);
  }

  /** `git`: usage text, `init`, `status`, `clone <repo>` (exit code 128
      without a repository); any other subcommand is reported as completed. */
  function Git(args: seq<string>): (r: SimulationResult)
    ensures Consistent(r)
    ensures !r.success <==> |args| == 1 && args[0] == CloneSub
    ensures !r.success ==> r == Fail(GitCloneMissing, 128)
    ensures |args| > 0 && args[0] == InitSub ==> r.stateChanges == map[RepositoryInitialized := FlagChange(true)]
    ensures |args| >= 2 && args[0] == CloneSub ==>
      r.output == GitCloning + CloneDirectory(args[1]) + "'..."
      && r.stateChanges == map[RepositoryCloned := TextChange(args[1])]
    ensures |args| > 0 && args[0] !in {InitSub, StatusSub, CloneSub} ==>
      r == Done(GitPrefix + args[0] + CompletedSuffix, map[])
  {
    if |args| == 0 then Done(GitUsage, map[])
    else if args[0] == InitSub then
      Done(GitInitMessage, map[RepositoryInitialized := FlagChange(true)])
    else if args[0] == StatusSub then
      Done(GitClean, map[])
    else if args[0] == CloneSub then
      if |args| < 2 then Fail(GitCloneMissing, 128)
      else Done(GitCloning + CloneDirectory(args[1]) + "'...", map[RepositoryCloned := TextChange(args[1])])
    else Done(GitPrefix + args[0] + CompletedSuffix, map[])
  }

  /** `docker`: always succeeds; `run` names the last argument as the image
      (`image` when there is none), `build` records a built image. */
  function Docker(args: seq<string>): (r: SimulationResult)
    ensures Consistent(r) && r.success
    ensures |args| > 0 && args[0] == RunSub ==>
      var image := if |args| > 1 then args[|args| - 1] else "image";
      r.output == DockerRunning + image + "..."
      && r.stateChanges == map[ContainerStarted := TextChange(image)]
    ensures |args| > 0 && args[0] == BuildSub ==> r.stateChanges == map[ImageBuilt := FlagChange(true)]
    ensures |args| > 0 && args[0] !in {RunSub, PsSub, BuildSub} ==>
      r == Done(DockerPrefix + args[0] + CompletedSuffix, map[])
  {
    if |args| == 0 then Done(DockerUsage, map[])
    else if args[0] == RunSub then
      var image := if |args| > 1 then args[|args| - 1] else "image";
      Done(DockerRunning + image + "...", map[ContainerStarted := TextChange(image)])
    else if args[0] == PsSub then
      Done(DockerPs, map[])
    else if args[0] == BuildSub then
      Done(DockerBuilt, map[ImageBuilt := FlagChange(true)])
    else Done(DockerPrefix + args[0] + CompletedSuffix, map[])
  }

  /** `kubectl`: always succeeds and never records a change; `get` lists a
      sample of the named resource (`pods` by default). */
  function Kubectl(args: seq<string>): (r: SimulationResult)
    ensures Consistent(r) && r.success && r.stateChanges == map[]
    ensures |args| > 0 && args[0] == GetSub ==>
      var resource := if |args| > 1 then args[1] else "pods";
      r.output == KubectlHeader + resource
                  + KubectlSampleRow
    ensures |args| > 0 && args[0] !in {GetSub, ApplySub} ==>
      r == Done(KubectlPrefix + args[0] + CompletedSuffix, map[])
  {
    if |args| == 0 then Done(KubectlUsage, map[])
    else if args[0] == GetSub then
      var resource := if |args| > 1 then args[1] else "pods";
      Done(KubectlHeader + resource
           + KubectlSampleRow, map[])
    else if args[0] == ApplySub then Done(KubectlApplied, map[])
    else Done(KubectlPrefix + args[0] + CompletedSuffix, map[])
  }

  // ---------------------------------------------------------------------
  // simulate

  /** The file and shell built-ins. */
  const ShellCommands: set<string> := {EchoCmd, LsCmd, CatCmd, MkdirCmd, TouchCmd, CdCmd, PwdCmd}

  /** The commands that may change the file system. */
  const FileCommands: set<string> := {MkdirCmd, TouchCmd, CdCmd}

  /** The tool front-ends with canned answers. */
  const ToolCommands: set<string> := {PipCmd, Pip3Cmd, GitCmd, DockerCmd, KubectlCmd}

  const Builtins: set<string> := ShellCommands + {PythonCmd, Python3Cmd} + ToolCommands

  /** The file and shell built-ins: they leave the environment and the
      Python namespace alone, and only `mkdir`, `touch` and `cd` change the
      file system. */
  function Shell(s: Sim, cmd: string, args: seq<string>): (st: Step)
    requires cmd in ShellCommands
    ensures Consistent(st.result)
    ensures st.sim.environment == s.environment && st.sim.pythonImports == s.pythonImports
    ensures st.sim.pythonVariables == s.pythonVariables
    ensures st.result.stateChanges.Keys <= {DirectoryCreated, FileCreated, DirectoryChanged}
    ensures st.sim.fs != s.fs ==> cmd in FileCommands
    ensures SimWf(s) ==> SimWf(st.sim)
  {
    if cmd == EchoCmd then Step(Echo(args), s)
    else if cmd == LsCmd then Step(Ls(s, args), s)
    else if cmd == CatCmd then Step(Cat(s, args), s)
    else if cmd == MkdirCmd then Mkdir(s, args)
    else if cmd == TouchCmd then TouchCommand(s, args)
    else if cmd == CdCmd then Cd(s, args)
    else Step(Pwd(s), s)
  }

  /** pip, git, docker and kubectl. */
  function Tool(cmd: string, args: seq<string>): (r: SimulationResult)
    requires cmd in ToolCommands
    ensures Consistent(r)
    ensures ModuleImported !in r.stateChanges && VariableBound !in r.stateChanges
  {
    if cmd == PipCmd || cmd == Pip3Cmd then Pip(args)
    else if cmd == GitCmd then Git(args)
    else if cmd == DockerCmd then Docker(args)
    else Kubectl(args)
  }

  /** The dispatch on the first word of a command that has one. */
  function Dispatch(s: Sim, command: string, cmd: string, args: seq<string>,
                    context: Option<string>, client: Client): (st: Step)
    ensures Consistent(st.result)
    ensures st.sim.environment == s.environment && PythonChangesReported(s, st)
    ensures st.sim.fs != s.fs ==> cmd in FileCommands
    ensures SimWf(s) ==> SimWf(st.sim)
  {
    if cmd in ShellCommands then Shell(s, cmd, args)
    else NotShell(s, command, cmd, args, context, client)
  }

  /** The rest of the dispatch: the interpreter, the tools, Python code
      typed directly, and the language model. None of them touches the file
      system or the environment. */
  function NotShell(s: Sim, command: string, cmd: string, args: seq<string>,
                    context: Option<string>, client: Client): (st: Step)
    ensures Consistent(st.result) && OnlyPython(s, st)
  {
    if cmd == PythonCmd || cmd == Python3Cmd then Python(s, args, context, client)
    else if cmd in ToolCommands then Step(Tool(cmd, args), s)
    else if IsPythonCode(command) then PythonCode(s, command, context, client)
    else Step(WithLlm(command, context, client), s)
  }

  /** `simulate`: a blank command succeeds silently; a command the shell
      tokenizer rejects fails with exit code 1; an empty token list succeeds
      silently; otherwise the first token picks the behaviour. Every result
      is consistent, the environment never changes, the Python namespace
      changes exactly as reported, only `mkdir`, `touch` and `cd` touch the
      file system, and a well-formed state stays well formed. */
  function Simulate(s: Sim, command: string, context: Option<string>,
                    tokenize: string -> Option<seq<string>>, client: Client): (st: Step)
    ensures Consistent(st.result)
    ensures st.sim.environment == s.environment && PythonChangesReported(s, st)
    ensures SimWf(s) ==> SimWf(st.sim)
    ensures AllSpace(command) ==> st == Step(Done("", map[]), s)
    ensures var c := Strip(command);
      !AllSpace(command) && tokenize(c).None? ==> st == Step(Fail(InvalidSyntax + c, 1), s)
    ensures var c := Strip(command);
      st.sim.fs != s.fs ==> !AllSpace(command) && tokenize(c).Some? && |tokenize(c).value| > 0
                            && tokenize(c).value[0] in FileCommands
  {
    var c := Strip(command);
    if c == "" then Step(Done("", map[]), s)
    else match tokenize(c)
      case None => Step(Fail(InvalidSyntax + c, 1), s)
      case Some(parts) =>
        if |parts| == 0 then Step(Done("", map[]), s)
        else Dispatch(s, c, parts[0], parts[1..], context, client)
  }

  // ---------------------------------------------------------------------
  // Properties across commands

  /** Without a language model, a command that is neither built in nor
      Python-looking is unknown: exit code 127 and nothing changes. */
  lemma UnknownWithoutClient(s: Sim, command: string, context: Option<string>,
                             tokenize: string -> Option<seq<string>>)
    requires var c := Strip(command);
      c != "" && tokenize(c).Some? && |tokenize(c).value| > 0
      && tokenize(c).value[0] !in Builtins && !IsPythonCode(c)
    ensures Simulate(s, command, context, tokenize, NoClient)
            == Step(Fail(UnknownCommand + Strip(command), 127), s)
  {
    var c := Strip(command);
    var parts := tokenize(c).value;
    SimulateDispatches(s, command, context, tokenize, NoClient);
    DispatchUnknown(s, c, parts[0], parts[1..], context);
  }

  /** A command that tokenizes into at least one word goes to `Dispatch`. */
  lemma SimulateDispatches(s: Sim, command: string, context: Option<string>,
                           tokenize: string -> Option<seq<string>>, client: Client)
    requires var c := Strip(command);
      c != "" && tokenize(c).Some? && |tokenize(c).value| > 0
    ensures var c := Strip(command); var parts := tokenize(c).value;
      Simulate(s, command, context, tokenize, client) == Dispatch(s, c, parts[0], parts[1..], context, client)
  {
  }

  lemma DispatchUnknown(s: Sim, c: string, cmd: string, args: seq<string>, context: Option<string>)
    requires cmd !in Builtins && !IsPythonCode(c)
    ensures Dispatch(s, c, cmd, args, context, NoClient) == Step(Fail(UnknownCommand + c, 127), s)
  {
    assert cmd !in ShellCommands;
    NotShellUnknown(s, c, cmd, args, context);
  }

  lemma NotShellUnknown(s: Sim, c: string, cmd: string, args: seq<string>, context: Option<string>)
    requires cmd != PythonCmd && cmd != Python3Cmd && cmd !in ToolCommands && !IsPythonCode(c)
    ensures NotShell(s, c, cmd, args, context, NoClient) == Step(Fail(UnknownCommand + c, 127), s)
  {
  }

  /** After a successful `cd`, `pwd` prints the normalised target. */
  lemma PwdAfterCd(s: Sim, p: string)
    requires IsDirectory(s.fs, p)
    ensures Pwd(Cd(s, [p]).sim).output == NormalizePath(s.fs.currentDir, p)
  {
  }

  /** After `touch p`, `cat p` prints what `p` held, or nothing when it
      was new. */
  lemma CatAfterTouch(s: Sim, p: string)
    ensures var r := Cat(TouchCommand(s, [p]).sim, [p]);
      r.success && r.output == if IsFile(s.fs, p) then ReadFile(s.fs, p).value else ""
  {
  }

  /** After `mkdir x` for a plain name, `ls` of the current directory
      lists `x`. */
  lemma LsAfterMkdir(s: Sim, x: string)
    requires SimWf(s) && ValidSegment(x) && s.fs.currentDir in s.fs.directories
    ensures var fs := Mkdir(s, [x]).sim.fs;
      ListDirectory(fs, ".").Ok? && x in ListDirectory(fs, ".").value
  {
    ListAfterCreate(s.fs, x);
  }

  /** `import m` for a plain module name makes `m` an import. */
  lemma ImportRegisters(s: Sim, m: string, context: Option<string>, client: Client)
    requires |m| > 0 && AllWord(m)
    ensures PythonCode(s, "import " + m, context, client).sim.pythonImports == s.pythonImports + {m}
  {
    var c := "import " + m;
    WordNotSpace(m[|m| - 1]);
    assert c[|c| - 1] == m[|m| - 1];
    StripStripped(c);
    assert StartsWith(c, "import ");
    ImportRoundTrip(m);
  }

  /** `name = value` binds the name to the value's text. */
  lemma AssignmentBinds(s: Sim, name: string, value: string, context: Option<string>, client: Client)
    requires |name| > 0 && AllWord(name) && name != "import" && name != "from"
    requires |value| > 0 && '\n' !in value && !IsSpace(value[0]) && !IsSpace(value[|value| - 1])
    ensures PythonCode(s, name + " = " + value, context, client).sim.pythonVariables
            == s.pythonVariables[name := value]
  {
    var c := name + " = " + value;
    AssignLayout(name, value);
    WordNotSpace(name[0]);
    assert c[0] == name[0] && c[|c| - 1] == value[|value| - 1];
    StripStripped(c);
    NotImportLine(name, value);
    NotPrintCall(name, value);
    AssignRoundTrip(name, value);
  }

  lemma NotImportLine(name: string, value: string)
    requires |name| > 0 && AllWord(name) && name != "import" && name != "from"
    ensures var c := name + " = " + value; !StartsWith(c, "import ") && !StartsWith(c, "from ")
  {
    var imp := "import ";
    assert AllWord(imp[..|imp| - 1]) by {
      assert imp[..6] == "import";
      assert imp[0] == 'i' && imp[1] == 'm' && imp[2] == 'p' && imp[3] == 'o' && imp[4] == 'r' && imp[5] == 't';
    }
    NameEndsAtBlank(name, value, imp);
    var from := "from ";
    assert AllWord(from[..|from| - 1]) by {
      assert from[0] == 'f' && from[1] == 'r' && from[2] == 'o' && from[3] == 'm';
    }
    NameEndsAtBlank(name, value, from);
  }

  lemma NotPrintCall(name: string, value: string)
    requires |name| > 0 && AllWord(name)
    ensures PrintMatch(name + " = " + value).None?
  {
    var pr := "print(";
    assert AllWord(pr[..|pr| - 1]) by {
      assert pr[0] == 'p' && pr[1] == 'r' && pr[2] == 'i' && pr[3] == 'n' && pr[4] == 't';
    }
    NameEndsAtBlank(name, value, pr);
  }

  /** In `name = ...` the name is the whole leading run of word characters,
      so a prefix that is a word followed by a non-word character is the
      name followed by its blank. */
  lemma NameEndsAtBlank(name: string, value: string, p: string)
    requires |name| > 0 && AllWord(name) && |p| > 0
    requires AllWord(p[..|p| - 1]) && !IsWordChar(p[|p| - 1])
    ensures StartsWith(name + " = " + value, p) ==> p == name + " "
  {
    var c := name + " = " + value;
    if StartsWith(c, p) {
      var k := |p| - 1;
      AssignLayout(name, value);
      assert forall i :: 0 <= i < k ==> c[i] == p[..k][i];
      assert forall i :: 0 <= i < |name| ==> c[i] == name[i];
      assert c[k] == p[k];
      assert k == |name|;
      assert p == c[..k + 1];
    }
  }

  /** `import m.sub` makes the top-level package `m` an import. */
  lemma DottedImportRegisters(s: Sim, m: string, sub: string, context: Option<string>, client: Client)
    requires |m| > 0 && AllWord(m) && |sub| > 0 && AllWord(sub)
    ensures PythonCode(s, "import " + m + "." + sub, context, client).sim.pythonImports == s.pythonImports + {m}
  {
    var c := "import " + m + "." + sub;
    WordNotSpace(sub[|sub| - 1]);
    WordHasNoBlank(sub);
    assert c[|c| - 1] == sub[|sub| - 1];
    StripStripped(c);
    assert c == "import " + (m + "." + sub);
    assert StartsWith(c, "import ");
    ImportDotted(m, sub);
  }

  /** `from m ...` for a plain module name makes `m` an import, whatever
      follows the first blank after it. */
  lemma FromRegisters(s: Sim, m: string, t: string, context: Option<string>, client: Client)
    requires |m| > 0 && AllWord(m)
    requires |t| > 0 ==> IsSpace(t[0]) && !IsSpace(t[|t| - 1])
    ensures PythonCode(s, "from " + m + t, context, client).sim.pythonImports == s.pythonImports + {m}
  {
    var c := "from " + m + t;
    WordNotSpace(m[|m| - 1]);
    assert c[|c| - 1] == (m + t)[|m + t| - 1];
    assert |t| == 0 ==> (m + t)[|m + t| - 1] == m[|m| - 1];
    StripStripped(c);
    assert c[..5] == "from ";
    PrefixInitials();
    StartsDifferently(c, ImportPrefix);
    FromLineRecorded(s, c, context, client);
    FromRoundTrip(m, t);
  }

  /** A stripped `from` line records its module. */
  lemma FromLineRecorded(s: Sim, c: string, context: Option<string>, client: Client)
    requires Strip(c) == c && |c| > 0 && !IsSpace(c[|c| - 1])
    requires StartsWith(c, FromPrefix) && !StartsWith(c, ImportPrefix)
    ensures PythonCode(s, c, context, client).sim.pythonImports == s.pythonImports + {FromModule(c)}
  {
  }

  /** A one-line message without quotes printed with double quotes is the
      output. */
  lemma PrintOutputs(s: Sim, g: string, context: Option<string>, client: Client)
    requires |g| > 0 && '\n' !in g && forall i :: 0 <= i < |g| ==> !IsQuote(g[i])
    ensures PythonCode(s, "print(\"" + g + "\")", context, client).result == Done(g, map[])
  {
    var c := "print(\"" + g + "\")";
    assert c[0] == 'p' && c[|c| - 1] == ')';
    StripStripped(c);
    PrefixInitials();
    StartsDifferently(c, ImportPrefix);
    StartsDifferently(c, FromPrefix);
    CodeIsStatement(s, c, context, client);
    PrintRoundTrip(g);
    PrintStatement(s, c, g, context, client);
  }

  /** Stripped code that is not an import line is a statement. */
  lemma CodeIsStatement(s: Sim, c: string, context: Option<string>, client: Client)
    requires Strip(c) == c && !StartsWith(c, ImportPrefix) && !StartsWith(c, FromPrefix)
    ensures PythonCode(s, c, context, client) == PythonStatement(s, c, context, client)
  {
  }

  lemma PrintStatement(s: Sim, c: string, g: string, context: Option<string>, client: Client)
    requires PrintMatch(c) == Some(g)
    ensures PythonStatement(s, c, context, client).result == Done(g, map[])
  {
  }

  lemma PrefixInitials()
    ensures ImportPrefix[0] == 'i' && FromPrefix[0] == 'f'
  {
  }

  lemma StartsDifferently(c: string, p: string)
    requires |c| > 0 && |p| > 0 && c[0] != p[0]
    ensures !StartsWith(c, p)
  {
    if |p| <= |c| {
      assert c[..|p|][0] == c[0];
    }
  }
}

=== FILE: strings.dfy ===
/** The fragment of Python's `str` API the core relies on: `strip`, `lower`,
    `startswith`/`endswith`, `in`, `split`, `join`, `replace` and the
    code-point ordering `sorted` uses. Strings are sequences of characters. */
module Strings {
  import opened Wrappers

  /** Python's `str.isspace` for one character (the characters `strip()`,
      `split()` and the regular-expression class `\s` treat as blank). */
  predicate IsSpace(c: char) {
    var n := c as int;
    (9 <= n <= 13) || (28 <= n <= 32) || n == 0x85 || n == 0xA0 || n == 0x1680
    || (0x2000 <= n <= 0x200A) || n == 0x2028 || n == 0x2029 || n == 0x202F
    || n == 0x205F || n == 0x3000
  }

  predicate AllSpace(s: string) {
    forall i :: 0 <= i < |s| ==> IsSpace(s[i])
  }

  /** `s.lstrip()` */
  function StripLeft(s: string): (r: string)
    ensures |r| <= |s| && r == s[|s| - |r|..]
    ensures AllSpace(s[..|s| - |r|])
    ensures |r| > 0 ==> !IsSpace(r[0])
  {
    if |s| > 0 && IsSpace(s[0]) then StripLeft(s[1..]) else s
  }

  /** `s.rstrip()` */
  function StripRight(s: string): (r: string)
    ensures |r| <= |s| && r == s[..|r|]
    ensures AllSpace(s[|r|..])
    ensures |r| > 0 ==> !IsSpace(r[|r| - 1])
  {
    if |s| > 0 && IsSpace(s[|s| - 1]) then StripRight(s[..|s| - 1]) else s
  }

  /** `s.strip()`: blanks removed at both ends; the result is empty exactly
      when `s` is all blanks, and otherwise starts and ends with a non-blank. */
  function Strip(s: string): (r: string)
    ensures |r| <= |s|
    ensures |r| == 0 <==> AllSpace(s)
    ensures |r| > 0 ==> !IsSpace(r[0]) && !IsSpace(r[|r| - 1])
  {
    var l := StripLeft(s);
    var r := StripRight(l);
    StripEmpty(s, l, r);
    r
  }

  lemma StripEmpty(s: string, l: string, r: string)
    requires l == StripLeft(s) && r == StripRight(l)
    ensures |r| == 0 <==> AllSpace(s)
  {
    var i := |s| - |l|;
    if |r| == 0 {
      assert l[|r|..] == l;
      assert |l| == 0;
      assert s[..i] == s;
    } else {
      assert r[0] == l[0] == s[i];
    }
  }

  /** A string that is already stripped is left alone. */
  lemma StripStripped(s: string)
    requires |s| > 0 ==> !IsSpace(s[0]) && !IsSpace(s[|s| - 1])
    ensures Strip(s) == s
  {
  }

  function LowerChar(c: char): char {
    if 'A' <= c <= 'Z' then (c as int + 32) as char else c
  }

  /** `s.lower()` on ASCII letters; every other character is kept. */
  function Lower(s: string): (r: string)
    ensures |r| == |s|
    ensures forall i :: 0 <= i < |s| ==> r[i] == LowerChar(s[i])
  {
    seq(|s|, i requires 0 <= i < |s| => LowerChar(s[i]))
  }

  predicate StartsWith(s: string, prefix: string) {
    |prefix| <= |s| && s[..|prefix|] == prefix
  }

  predicate EndsWith(s: string, suffix: string) {
    |suffix| <= |s| && s[|s| - |suffix|..] == suffix
  }

  /** Python's `sub in s`. */
  predicate IsSubstring(sub: string, s: string)
    decreases |s|
  {
    StartsWith(s, sub) || (|s| > 0 && IsSubstring(sub, s[1..]))
  }

  /** `s.find(pat)`, with `None` for -1: the first position of `pat` in `s`. */
  function Find(s: string, pat: string): (r: Option<nat>)
    ensures r.Some? ==> r.value + |pat| <= |s| && s[r.value..r.value + |pat|] == pat
    ensures r.Some? ==> forall k :: 0 <= k < r.value ==> !StartsWith(s[k..], pat)
    ensures r.None? <==> !IsSubstring(pat, s)
    decreases |s|
  {
    if StartsWith(s, pat) then Some(0)
    else if |s| == 0 then None
    else
      match Find(s[1..], pat)
      case Some(i) =>
        NotEarlier(s, pat, i);
        assert s[1..][i..i + |pat|] == s[i + 1..i + 1 + |pat|];
        Some(i + 1)
      case None => None
  }

  /** No occurrence before `i` in `s[1..]`, none at 0: none before `i + 1` in `s`. */
  lemma NotEarlier(s: string, pat: string, i: nat)
    requires i < |s| && !StartsWith(s, pat)
    requires forall k :: 0 <= k < i ==> !StartsWith(s[1..][k..], pat)
    ensures forall k :: 0 <= k < i + 1 ==> !StartsWith(s[k..], pat)
  {
    forall k | 0 <= k < i + 1
      ensures !StartsWith(s[k..], pat)
    {
      if k > 0 {
        assert s[1..][k - 1..] == s[k..];
      } else {
        assert s[0..] == s;
      }
    }
  }

  /** `s.split(pat)[1]`: the text between the first and the second
      occurrence of `pat`, or to the end when there is no second one. */
  function SecondField(s: string, pat: string): (r: string)
    requires |pat| > 0 && IsSubstring(pat, s)
    ensures IsSubstring(r, s)
    ensures !IsSubstring(pat, r)
    ensures exists i: nat, j: nat :: FieldBounds(s, pat, i, j) && r == s[i + |pat|..j]
  {
    var i := Find(s, pat).value;
    var rest := s[i + |pat|..];
    var r := UpToNext(rest, pat);
    PrefixOfSuffix(s, rest, r);
    FieldAfter(s, pat, i);
    r
  }

  /** Where `s.split(pat)[1]` lies in `s`: the first occurrence of `pat` is
      at `i`, and the field runs from just after it to `j`, the next
      occurrence from there on, or the end of `s` when there is none. */
  predicate FieldBounds(s: string, pat: string, i: nat, j: nat) {
    && i + |pat| <= j <= |s|
    && StartsWith(s[i..], pat)
    && (forall k :: 0 <= k < i ==> !StartsWith(s[k..], pat))
    && (forall k :: i + |pat| <= k < j ==> !StartsWith(s[k..], pat))
    && (j < |s| ==> StartsWith(s[j..], pat))
  }

  /** The bounds are determined by `s` and `pat`, so the field is too. */
  lemma FieldBoundsUnique(s: string, pat: string, i: nat, j: nat, i': nat, j': nat)
    requires |pat| > 0 && FieldBounds(s, pat, i, j) && FieldBounds(s, pat, i', j')
    ensures i == i' && j == j'
  {
  }

  /** The field after the first occurrence at `i` lies within the bounds. */
  lemma FieldAfter(s: string, pat: string, i: nat)
    requires |pat| > 0 && i + |pat| <= |s| && s[i..i + |pat|] == pat
    requires forall k :: 0 <= k < i ==> !StartsWith(s[k..], pat)
    ensures var r := UpToNext(s[i + |pat|..], pat);
      FieldBounds(s, pat, i, i + |pat| + |r|) && r == s[i + |pat|..i + |pat| + |r|]
  {
    var rest := s[i + |pat|..];
    var r := UpToNext(rest, pat);
    assert s[i..][..|pat|] == s[i..i + |pat|];
    forall k | 0 <= k <= |rest|
      ensures rest[k..] == s[i + |pat| + k..]
    {
    }
    var off := i + |pat|;
    match Find(rest, pat)
    case Some(n) =>
      assert rest[n..][..|pat|] == rest[n..n + |pat|];
      assert |r| == n;
      forall k | off <= k < off + n
        ensures !StartsWith(s[k..], pat)
      {
        assert rest[k - off..] == s[k..];
      }
      assert rest[n..] == s[off + n..];
    case None =>
      NowhereIn(rest, pat);
      assert r == rest;
      forall k | off <= k < |s|
        ensures !StartsWith(s[k..], pat)
      {
        assert rest[k - off..] == s[k..];
      }
  }

  /** A pattern that is not a substring occurs at no position. */
  lemma {:induction false} NowhereIn(s: string, pat: string)
    requires !IsSubstring(pat, s)
    ensures forall k :: 0 <= k <= |s| ==> !StartsWith(s[k..], pat)
    decreases |s|
  {
    assert s[0..] == s;
    if |s| > 0 {
      NowhereIn(s[1..], pat);
      forall k | 1 <= k <= |s|
        ensures !StartsWith(s[k..], pat)
      {
        assert s[1..][k - 1..] == s[k..];
      }
    }
  }

  /** `rest` up to the first occurrence of `pat`, or all of it. */
  function UpToNext(rest: string, pat: string): (r: string)
    requires |pat| > 0
    ensures |r| <= |rest| && r == rest[..|r|]
    ensures !IsSubstring(pat, r)
  {
    match Find(rest, pat)
    case Some(j) =>
      NotInPrefix(rest, pat, j);
      rest[..j]
    case None =>
      assert rest[..|rest|] == rest;
      rest
  }

  lemma SliceIsSubstring(s: string, i: nat, j: nat)
    requires i <= j <= |s|
    ensures IsSubstring(s[i..j], s)
    decreases i
  {
    if i > 0 {
      SliceIsSubstring(s[1..], i - 1, j - 1);
      assert s[1..][i - 1..j - 1] == s[i..j];
    }
  }

  /** Where an occurrence sits: `sub in s` names a slice of `s`. */
  lemma {:induction false} SubstringSlice(sub: string, s: string) returns (i: nat)
    requires IsSubstring(sub, s)
    ensures i + |sub| <= |s| && s[i..i + |sub|] == sub
    decreases |s|
  {
    if StartsWith(s, sub) {
      i := 0;
    } else {
      var k := SubstringSlice(sub, s[1..]);
      assert s[1..][k..k + |sub|] == s[k + 1..k + 1 + |sub|];
      i := k + 1;
    }
  }

  /** `in` is transitive. */
  lemma SubstringTransitive(a: string, b: string, c: string)
    requires IsSubstring(a, b) && IsSubstring(b, c)
    ensures IsSubstring(a, c)
  {
    var i := SubstringSlice(a, b);
    var j := SubstringSlice(b, c);
    SliceOfSlice(c, j, j + |b|, i, i + |a|);
    SliceIsSubstring(c, j + i, j + i + |a|);
  }

  lemma SliceOfSlice(s: string, lo: nat, hi: nat, i: nat, k: nat)
    requires lo <= hi <= |s| && i <= k <= hi - lo
    ensures s[lo..hi][i..k] == s[lo + i..lo + k]
  {
    forall n | 0 <= n < k - i
      ensures s[lo..hi][i..k][n] == s[lo + i..lo + k][n]
    {
      assert s[lo..hi][i..k][n] == s[lo..hi][i + n] == s[lo + i + n];
    }
  }

  /** Stripping keeps a slice of the original. */
  lemma StripIsSubstring(s: string)
    ensures IsSubstring(Strip(s), s)
  {
    var l := StripLeft(s);
    PrefixOfSuffix(s, l, StripRight(l));
  }

  /** A prefix of a suffix of `s` occurs in `s`. */
  lemma PrefixOfSuffix(s: string, l: string, r: string)
    requires |l| <= |s| && l == s[|s| - |l|..]
    requires |r| <= |l| && r == l[..|r|]
    ensures IsSubstring(r, s)
  {
    var k := |s| - |l|;
    forall i | 0 <= i < |r|
      ensures r[i] == s[k + i]
    {
      assert r[i] == l[i];
    }
    assert r == s[k..k + |r|];
    SliceIsSubstring(s, k, k + |r|);
  }

  /** A pattern whose first occurrence in `s` is at `j` does not occur in `s[..j]`. */
  lemma NotInPrefix(s: string, pat: string, j: nat)
    requires j <= |s|
    requires forall k :: 0 <= k < j ==> !StartsWith(s[k..], pat)
    requires |pat| > 0
    ensures !IsSubstring(pat, s[..j])
    decreases j
  {
    if j > 0 {
      assert !StartsWith(s[0..], pat);
      assert s[0..] == s;
      assert forall k :: 0 <= k < j - 1 ==> s[1..][k..] == s[k + 1..];
      NotInPrefix(s[1..], pat, j - 1);
      assert s[..j][1..] == s[1..][..j - 1];
    }
  }

  /** `s.split(sep)` for a one-character separator: always at least one
      field, no field contains the separator. */
  function Split(s: string, sep: char): (r: seq<string>)
    ensures |r| >= 1
    ensures forall i :: 0 <= i < |r| ==> sep !in r[i]
    decreases |s|
  {
    if |s| == 0 then [""]
    else if s[0] == sep then [""] + Split(s[1..], sep)
    else
      var rest := Split(s[1..], sep);
      [[s[0]] + rest[0]] + rest[1..]
  }

  /** `sep.join(parts)` */
  function Join(parts: seq<string>, sep: string): string {
    if |parts| == 0 then ""
    else if |parts| == 1 then parts[0]
    else parts[0] + sep + Join(parts[1..], sep)
  }

  /** Splitting a string that starts with a separator-free word `w`. */
  lemma {:induction false} SplitAfterWord(w: string, t: string, sep: char)
    requires sep !in w
    ensures Split(w + t, sep) == [w + Split(t, sep)[0]] + Split(t, sep)[1..]
    decreases |w|
  {
    if |w| > 0 {
      assert (w + t)[1..] == w[1..] + t;
      SplitAfterWord(w[1..], t, sep);
      assert [w[0]] + (w[1..] + Split(t, sep)[0]) == w + Split(t, sep)[0];
    } else {
      assert w + t == t;
      assert w + Split(t, sep)[0] == Split(t, sep)[0];
      assert Split(t, sep) == [Split(t, sep)[0]] + Split(t, sep)[1..];
    }
  }

  /** Joining separator-free fields and splitting again gives the fields back. */
  lemma {:induction false} SplitJoin(parts: seq<string>, sep: char)
    requires |parts| >= 1
    requires forall i :: 0 <= i < |parts| ==> sep !in parts[i]
    ensures Split(Join(parts, [sep]), sep) == parts
    decreases |parts|
  {
    if |parts| == 1 {
      SplitAfterWord(parts[0], "", sep);
      assert Split("", sep) == [""];
      assert parts[0] + "" == parts[0];
      assert Join(parts, [sep]) == parts[0];
      assert parts == [parts[0]];
    } else {
      var tail := Join(parts[1..], [sep]);
      SplitJoin(parts[1..], sep);
      assert parts[0] + [sep] + tail == parts[0] + ([sep] + tail);
      SplitAfterWord(parts[0], [sep] + tail, sep);
      assert ([sep] + tail)[1..] == tail;
      assert Split([sep] + tail, sep) == [""] + parts[1..];
      assert parts[0] + "" == parts[0];
    }
  }

  /** A join starts with its first part's first character. */
  lemma JoinFirst(parts: seq<string>, sep: string)
    requires |parts| >= 1 && |parts[0]| > 0
    ensures var j := Join(parts, sep); |j| > 0 && j[0] == parts[0][0]
  {
  }

  /** A join ends with its last part's last character. */
  lemma {:induction false} JoinLast(parts: seq<string>, sep: string)
    requires |parts| >= 1 && |parts[|parts| - 1]| > 0
    ensures var j := Join(parts, sep); |j| > 0 && j[|j| - 1] == parts[|parts| - 1][|parts[|parts| - 1]| - 1]
    decreases |parts|
  {
    if |parts| > 1 {
      JoinLast(parts[1..], sep);
    }
  }

  /** Separator-free lines, joined, with nothing to strip at either end,
      are split back into the same lines. */
  lemma SplitStripJoin(lines: seq<string>, sep: char)
    requires |lines| >= 1 && |lines[0]| > 0 && |lines[|lines| - 1]| > 0
    requires !IsSpace(lines[0][0]) && !IsSpace(lines[|lines| - 1][|lines[|lines| - 1]| - 1])
    requires forall i :: 0 <= i < |lines| ==> sep !in lines[i]
    ensures Split(Strip(Join(lines, [sep])), sep) == lines
  {
    JoinFirst(lines, [sep]);
    JoinLast(lines, [sep]);
    StripStripped(Join(lines, [sep]));
    SplitJoin(lines, sep);
  }

  /** Splitting and joining with the same separator gives the string back. */
  lemma {:induction false} JoinSplit(s: string, sep: char)
    ensures Join(Split(s, sep), [sep]) == s
    decreases |s|
  {
    if |s| > 0 {
      JoinSplit(s[1..], sep);
      var rest := Split(s[1..], sep);
      if s[0] == sep {
        assert Split(s, sep) == [""] + rest;
        assert s == [sep] + s[1..];
      } else {
        assert s == [s[0]] + s[1..];
        if |rest| == 1 {
        } else {
          assert ([[s[0]] + rest[0]] + rest[1..])[1..] == rest[1..];
        }
      }
    }
  }

  /** The last field after a separator is the text following it. */
  lemma {:induction false} SplitLastField(s: string, b: string, sep: char)
    requires sep !in b
    ensures var r := Split(s + [sep] + b, sep); |r| >= 2 && r[|r| - 1] == b
    decreases |s|
  {
    var r := Split(s + [sep] + b, sep);
    SplitJoin([b], sep);
    assert Join([b], [sep]) == b;
    if |s| == 0 {
      assert s + [sep] + b == [sep] + b;
      assert ([sep] + b)[1..] == b;
    } else {
      assert (s + [sep] + b)[1..] == s[1..] + [sep] + b;
      SplitLastField(s[1..], b, sep);
    }
  }

  /** The leading run of non-blank characters of `t`. */
  function TakeWord(t: string): (w: string)
    ensures |w| <= |t| && w == t[..|w|]
    ensures forall i :: 0 <= i < |w| ==> !IsSpace(w[i])
    ensures |w| < |t| ==> IsSpace(t[|w|])
  {
    if |t| == 0 || IsSpace(t[0]) then "" else [t[0]] + TakeWord(t[1..])
  }

  /** `s.split()` with no argument: the maximal runs of non-blank characters. */
  function Words(s: string): (ws: seq<string>)
    ensures forall w :: w in ws ==> |w| > 0 && !HasSpace(w)
    decreases |s|
  {
    var t := StripLeft(s);
    if |t| == 0 then []
    else
      var w := TakeWord(t);
      FirstWord(t);
      [w] + Words(t[|w|..])
  }

  lemma FirstWord(t: string)
    requires |t| > 0 && !IsSpace(t[0])
    ensures |TakeWord(t)| > 0 && !HasSpace(TakeWord(t))
  {
    var w := TakeWord(t);
    assert w[0] == t[0];
  }

  predicate HasSpace(w: string) {
    exists k :: 0 <= k < |w| && IsSpace(w[k])
  }

  /** `s.split()` is empty exactly when `s` is all blanks. */
  lemma WordsEmpty(s: string)
    ensures |Words(s)| == 0 <==> AllSpace(s)
  {
    var t := StripLeft(s);
    var i := |s| - |t|;
    assert s == s[..i] + t;
    if |t| > 0 {
      assert t[0] == s[i];
    } else {
      assert s == s[..i];
    }
  }

  /** `lstrip` is the only split into a blank prefix and a rest that does
      not start with a blank. */
  lemma {:induction false} StripLeftUnique(s: string, r: string)
    requires |r| <= |s| && r == s[|s| - |r|..] && AllSpace(s[..|s| - |r|])
    requires |r| > 0 ==> !IsSpace(r[0])
    ensures StripLeft(s) == r
    decreases |s|
  {
    var k := |s| - |r|;
    if k > 0 {
      var blanks := s[..k];
      assert IsSpace(blanks[0]) && blanks[0] == s[0];
      var t := s[1..];
      assert t[..k - 1] == blanks[1..];
      AllSpaceTail(blanks);
      assert t[k - 1..] == r;
      StripLeftUnique(t, r);
    } else {
      assert s == r;
    }
  }

  lemma AllSpaceTail(p: string)
    requires |p| > 0 && AllSpace(p)
    ensures AllSpace(p[1..])
  {
    assert forall i :: 0 <= i < |p| - 1 ==> p[1..][i] == p[i + 1];
  }

  /** A leading blank does not change the words. */
  lemma WordsSkipBlank(b: char, t: string)
    requires IsSpace(b)
    ensures Words([b] + t) == Words(t)
  {
    var s := [b] + t;
    assert s[0] == b && s[1..] == t;
    assert StripLeft(s) == StripLeft(t);
  }

  /** A word followed by nothing or by a blank is the first word. */
  lemma WordsCons(w: string, t: string)
    requires |w| > 0 && forall i :: 0 <= i < |w| ==> !IsSpace(w[i])
    requires |t| > 0 ==> IsSpace(t[0])
    ensures Words(w + t) == [w] + Words(t)
  {
    var s := w + t;
    assert s[..0] == [];
    StripLeftUnique(s, s);
    assert forall i :: 0 <= i < |w| ==> s[i] == w[i];
    if |t| > 0 {
      assert s[|w|] == t[0];
    }
    assert TakeWord(s) == w;
    assert s[|w|..] == t;
  }

  /** `" ".join(s.split())`: every run of blanks becomes one space, and
      leading and trailing blanks disappear. */
  function CollapseSpaces(s: string): string {
    Join(Words(s), " ")
  }

  /** `s.replace(pat, "")`: occurrences are removed left to right. */
  function RemoveAll(s: string, pat: string): (r: string)
    requires |pat| > 0
    ensures |r| <= |s|
    decreases |s|
  {
    if |s| == 0 then ""
    else if StartsWith(s, pat) then RemoveAll(s[|pat|..], pat)
    else [s[0]] + RemoveAll(s[1..], pat)
  }

  /** Removing a pattern that ends in a blank keeps the last character of a
      string that does not end in a blank. */
  lemma {:induction false} RemoveAllKeepsLast(s: string, pat: string)
    requires |pat| > 0 && IsSpace(pat[|pat| - 1])
    requires |s| > 0 && !IsSpace(s[|s| - 1])
    ensures |RemoveAll(s, pat)| > 0
    ensures RemoveAll(s, pat)[|RemoveAll(s, pat)| - 1] == s[|s| - 1]
    decreases |s|
  {
    if StartsWith(s, pat) {
      RemoveAllKeepsLast(s[|pat|..], pat);
    } else if |s| > 1 {
      RemoveAllKeepsLast(s[1..], pat);
    }
  }

  /** Removing a pattern that ends in a blank leaves a blank-free string as
      it is. */
  lemma {:induction false} RemoveAllNoBlank(s: string, pat: string)
    requires |pat| > 0 && IsSpace(pat[|pat| - 1])
    requires forall i :: 0 <= i < |s| ==> !IsSpace(s[i])
    ensures RemoveAll(s, pat) == s
    decreases |s|
  {
    if |s| > 0 {
      assert !StartsWith(s, pat) by {
        if |pat| <= |s| {
          assert s[..|pat|][|pat| - 1] == s[|pat| - 1];
        }
      }
      RemoveAllNoBlank(s[1..], pat);
      assert s == [s[0]] + s[1..];
    }
  }

  /** Removing a pattern that starts with a character `s` lacks keeps `s`
      in front of whatever is removed from the rest. */
  lemma {:induction false} RemoveAllAbsent(s: string, tail: string, pat: string)
    requires |pat| > 0 && pat[0] !in s
    ensures RemoveAll(s + tail, pat) == s + RemoveAll(tail, pat)
    decreases |s|
  {
    if |s| > 0 {
      var t := s + tail;
      assert t[0] == s[0] && s[0] in s;
      assert !StartsWith(t, pat) by {
        if |pat| <= |t| {
          assert t[..|pat|][0] == t[0];
        }
      }
      assert t[1..] == s[1..] + tail;
      assert forall c :: c in s[1..] ==> c in s;
      RemoveAllAbsent(s[1..], tail, pat);
      assert s == [s[0]] + s[1..];
    } else {
      assert s + tail == tail;
    }
  }

  lemma RemoveAllWhole(pat: string)
    requires |pat| > 0
    ensures RemoveAll(pat, pat) == ""
  {
    assert StartsWith(pat, pat) && pat[|pat|..] == "";
  }

  /** Python's `<=` on strings: lexicographic on code points. */
  predicate LessEq(a: string, b: string)
    decreases |a|
  {
    |a| == 0 || (|b| > 0 && (a[0] < b[0] || (a[0] == b[0] && LessEq(a[1..], b[1..]))))
  }

  lemma {:induction false} LessEqReflexive(a: string)
    ensures LessEq(a, a)
    decreases |a|
  {
    if |a| > 0 {
      LessEqReflexive(a[1..]);
    }
  }

  lemma {:induction false} LessEqTotal(a: string, b: string)
    ensures LessEq(a, b) || LessEq(b, a)
    decreases |a|
  {
    if |a| > 0 && |b| > 0 && a[0] == b[0] {
      LessEqTotal(a[1..], b[1..]);
    }
  }

  lemma {:induction false} LessEqAntisymmetric(a: string, b: string)
    requires LessEq(a, b) && LessEq(b, a)
    ensures a == b
    decreases |a|
  {
    if |a| > 0 {
      LessEqAntisymmetric(a[1..], b[1..]);
      assert a == [a[0]] + a[1..] && b == [b[0]] + b[1..];
    }
  }

  lemma {:induction false} LessEqTransitive(a: string, b: string, c: string)
    requires LessEq(a, b) && LessEq(b, c)
    ensures LessEq(a, c)
    decreases |a|
  {
    if |a| > 0 && a[0] == b[0] && b[0] == c[0] {
      LessEqTransitive(a[1..], b[1..], c[1..]);
    }
  }

  predicate Sorted(s: seq<string>) {
    forall i, j :: 0 <= i < j < |s| ==> LessEq(s[i], s[j])
  }

  predicate IsLeast(m: string, b: multiset<string>) {
    m in b && forall y :: y in b ==> LessEq(m, y)
  }

  /** Every non-empty bag of strings has a least element. */
  lemma {:induction false} LeastExists(b: multiset<string>)
    requires |b| > 0
    ensures exists m :: IsLeast(m, b)
    decreases |b|
  {
    var x :| x in b;
    var rest := b - multiset{x};
    assert b == rest + multiset{x};
    if |rest| == 0 {
      assert b == multiset{x};
      LessEqReflexive(x);
      assert IsLeast(x, b);
    } else {
      LeastExists(rest);
      var m :| IsLeast(m, rest);
      LeastInsert(x, m, rest);
    }
  }

  /** Adding `x` to a bag whose least element is `m` leaves `x` or `m` least. */
  lemma LeastInsert(x: string, m: string, rest: multiset<string>)
    requires IsLeast(m, rest)
    ensures IsLeast(x, rest + multiset{x}) || IsLeast(m, rest + multiset{x})
  {
    var b := rest + multiset{x};
    LessEqTotal(x, m);
    LessEqReflexive(x);
    if LessEq(x, m) {
      forall y | y in b
        ensures LessEq(x, y)
      {
        if y != x {
          LessEqTransitive(x, m, y);
        }
      }
      assert IsLeast(x, b);
    } else {
      assert IsLeast(m, b);
    }
  }

  lemma LeastUnique(b: multiset<string>)
    ensures forall m, m' :: IsLeast(m, b) && IsLeast(m', b) ==> m == m'
  {
    forall m, m' | IsLeast(m, b) && IsLeast(m', b)
      ensures m == m'
    {
      LessEqAntisymmetric(m, m');
    }
  }

  /** `sorted(...)` applied to a bag of names: the sorted arrangement of
      exactly those names, duplicates kept. */
  function SortBag(b: multiset<string>): (r: seq<string>)
    ensures multiset(r) == b
    ensures Sorted(r)
    decreases |b|
  {
    if |b| == 0 then []
    else
      var m := Least(b);
      var rest := SortBag(b - multiset{m});
      PrependLeast(m, b, rest);
      [m] + rest
  }

  /** The least element of a non-empty bag. */
  function Least(b: multiset<string>): (m: string)
    requires |b| > 0
    ensures IsLeast(m, b)
  {
    LeastExists(b);
    LeastUnique(b);
    var m :| IsLeast(m, b);
    m
  }

  lemma PrependLeast(m: string, b: multiset<string>, rest: seq<string>)
    requires IsLeast(m, b)
    requires multiset(rest) == b - multiset{m} && Sorted(rest)
    ensures multiset([m] + rest) == b && Sorted([m] + rest)
  {
    var r := [m] + rest;
    forall i, j | 0 <= i < j < |r|
      ensures LessEq(r[i], r[j])
    {
      assert r[j] == rest[j - 1];
      if i == 0 {
        assert rest[j - 1] in multiset(rest);
      } else {
        assert r[i] == rest[i - 1];
      }
    }
    assert multiset(r) == multiset{m} + multiset(rest);
  }

  /** `s.split(c, 1)[1]`: what follows the first `c`. */
  function AfterFirst(s: string, c: char): (r: string)
    requires c in s
    ensures |r| < |s| && r == s[|s| - |r|..]
    ensures s[|s| - |r| - 1] == c && c !in s[..|s| - |r| - 1]
  {
    if s[0] == c then s[1..]
    else
      var r := AfterFirst(s[1..], c);
      assert s[..|s| - |r| - 1] == [s[0]] + s[1..][..|s| - 1 - |r| - 1];
      r
  }

  /** Whatever precedes the first `c` is cut off with it. */
  lemma {:induction false} AfterFirstAt(p: string, c: char, t: string)
    requires c !in p
    ensures c in p + [c] + t
    ensures AfterFirst(p + [c] + t, c) == t
  {
    var s := p + [c] + t;
    assert s[|p|] == c;
    if |p| > 0 {
      assert p[0] in p;
      assert s[1..] == p[1..] + [c] + t;
      AfterFirstAt(p[1..], c, t);
    } else {
      assert s[1..] == t;
    }
  }

  /** Stripping is idempotent. */
  lemma StripIdempotent(s: string)
    ensures Strip(Strip(s)) == Strip(s)
  {
    StripStripped(Strip(s));
  }

  /** One leading blank in front of a stripped text is stripped off. */
  lemma StripPadded(v: string)
    requires |v| > 0 ==> !IsSpace(v[0]) && !IsSpace(v[|v| - 1])
    ensures Strip(" " + v) == v
  {
    var s := " " + v;
    assert s[..|s| - |v|] == " ";
    assert s[|s| - |v|..] == v;
    StripLeftUnique(s, v);
    StripStripped(v);
    StripLeftUnique(v, v);
  }

  /** In `key: v`, with no colon in `key`, what follows the first colon is
      `v` once stripped, for a stripped `v`. */
  lemma FieldAfterColon(key: string, v: string)
    requires ':' !in key
    requires |v| > 0 ==> !IsSpace(v[0]) && !IsSpace(v[|v| - 1])
    ensures ':' in key + ": " + v && Strip(AfterFirst(key + ": " + v, ':')) == v
  {
    var t := " " + v;
    var line := key + ": " + v;
    assert line == key + [':'] + t by {
      assert ": " == [':'] + " ";
    }
    AfterFirstAt(key, ':', t);
    StripPadded(v);
  }
}

=== FILE: validator.dfy ===
/** Grading an answer to an exercise. An answer is first compared with the
    exercise's expected output in five tiers (exact, case-insensitive,
    whitespace-normalised, containing, contained); an answer no tier
    decides goes to the language model when there is one, and otherwise
    gets a basic verdict. The model's reply is read line by line for a
    status, a score, feedback and a hint. */
module Validator {
  import opened Wrappers
  import opened Strings
  import opened Lessons
  import opened Oracle

  datatype ValidationStatus = Correct | Incorrect | Partial

  /** A verdict. `score` is a real number; the verdicts built here keep it
      within [0, 1]. `details` maps a label to its text. */
  datatype ValidationResult = ValidationResult(
    status: ValidationStatus,
    score: real,
    feedback: string,
    hints: seq<string>,
    details: map<string, string>)
  {
    predicate IsCorrect() { status == Correct }
    predicate IsPartial() { status == Partial }
  }

  const CorrectFeedback := "Correct! Well done."
  const NoAnswerFeedback := "No answer provided. Please try again."
  const ContainsFeedback := "Your answer contains the expected output, but includes extra content. Try to be more precise."
  const SubsetFeedback := "You're on the right track, but your answer is incomplete."
  const UnvalidatedFeedback := "Answer received. Unable to fully validate without expected output defined."
  const NoMatchFeedback := "That's not quite right. Review the exercise instructions and try again."
  const EvaluatedFeedback := "Answer evaluated."
  const FallbackHint := "Review the exercise instructions carefully and try again."

  predicate ScoreInRange(r: ValidationResult) {
    0.0 <= r.score <= 1.0
  }

  /** The hint list `hs` ends with `tail`. */
  predicate HintsEndWith(hs: seq<string>, tail: seq<string>) {
    |tail| <= |hs| && hs[|hs| - |tail|..] == tail
  }

  /** `_get_exercise_hints`: the one hint at `index`, or none when the
      exercise has no hint there. */
  function ExerciseHints(ex: Exercise, index: nat): (r: seq<string>)
    ensures |r| <= 1
    ensures |r| == 1 <==> index < |ex.hints|
    ensures |r| == 1 ==> r[0] == ex.hints[index]
  {
    if |ex.hints| == 0 then []
    else if index >= |ex.hints| then []
    else [ex.hints[index]]
  }

  // ---------------------------------------------------------------------
  // Pattern tiers

  /** `" ".join(s.split())`: the words of `s` separated by single blanks. */
  function Normalize(s: string): string {
    Join(Words(s), " ")
  }

  function Matched(kind: string): (r: ValidationResult)
    ensures r.status == Correct && r.score == 1.0 && r.hints == []
  {
    ValidationResult(Correct, 1.0, CorrectFeedback, [], map["match_type" := kind])
  }

  /** The three tiers that accept an answer, against the stripped expected
      output `e`. */
  predicate Accepts(answer: string, e: string) {
    answer == e || Lower(answer) == Lower(e) || Normalize(answer) == Normalize(e)
  }

  /** `_validate_with_pattern`: a verdict when one of the five tiers
      decides, `None` otherwise (and when nothing is expected). The first
      three tiers accept with full score and no hint; an answer containing
      the expected output scores 0.7 and one contained in it 0.5 (both
      case-insensitively), each with the exercise's first hint. */
  function ValidateWithPattern(ex: Exercise, answer: string): (r: Option<ValidationResult>)
    ensures ex.expectedOutput.None? ==> r.None?
    ensures ex.expectedOutput.Some? ==>
      var e := Strip(ex.expectedOutput.value);
      && (r.Some? && r.value.status == Correct <==> Accepts(answer, e))
      && (r.Some? && r.value.score == 0.7 <==> !Accepts(answer, e) && IsSubstring(Lower(e), Lower(answer)))
      && (r.Some? && r.value.score == 0.5 <==>
            !Accepts(answer, e) && !IsSubstring(Lower(e), Lower(answer)) && IsSubstring(Lower(answer), Lower(e)))
      && (r.None? <==>
            !Accepts(answer, e) && !IsSubstring(Lower(e), Lower(answer)) && !IsSubstring(Lower(answer), Lower(e)))
    ensures r.Some? && r.value.status == Correct ==> r.value.score == 1.0 && r.value.hints == []
    ensures r.Some? && r.value.status != Correct ==>
      r.value.status == Partial && r.value.hints == ExerciseHints(ex, 0)
    ensures r.Some? ==> ScoreInRange(r.value)
  {
    match ex.expectedOutput
    case None => None
    case Some(expected) =>
      var e := Strip(expected);
      if answer == e then Some(Matched("exact"))
      else if Lower(answer) == Lower(e) then Some(Matched("case_insensitive"))
      else if Normalize(answer) == Normalize(e) then Some(Matched("normalized_whitespace"))
      else if IsSubstring(Lower(e), Lower(answer)) then
        Some(ValidationResult(Partial, 0.7, ContainsFeedback, ExerciseHints(ex, 0),
                              map["match_type" := "contains"]))
      else if IsSubstring(Lower(answer), Lower(e)) then
        Some(ValidationResult(Partial, 0.5, SubsetFeedback, ExerciseHints(ex, 0),
                              map["match_type" := "subset"]))
      else None
  }

  /** `_validate_basic`: without an expected output any answer is partly
      right (0.5, no hint); with one, the answer no tier accepted is wrong
      (0.0, the first hint). */
  function ValidateBasic(ex: Exercise, answer: string): (r: ValidationResult)
    ensures ex.expectedOutput.None? <==> r.status == Partial
    ensures ex.expectedOutput.None? ==> r.score == 0.5 && r.hints == []
    ensures ex.expectedOutput.Some? ==> r.status == Incorrect && r.score == 0.0 && r.hints == ExerciseHints(ex, 0)
  {
    if ex.expectedOutput.None? then
      ValidationResult(Partial, 0.5, UnvalidatedFeedback, [], map["match_type" := "no_expected_output"])
    else
      ValidationResult(Incorrect, 0.0, NoMatchFeedback, ExerciseHints(ex, 0), map["match_type" := "no_match"])
  }

  // ---------------------------------------------------------------------
  // Reading the language model's reply

  /** The four answer fields, told apart by a line's lower-cased prefix. */
  datatype Field = StatusField | ScoreField | FeedbackField | HintField | NoField

  function FieldOf(low: string): Field {
    if StartsWith(low, "status:") then StatusField
    else if StartsWith(low, "score:") then ScoreField
    else if StartsWith(low, "feedback:") then FeedbackField
    else if StartsWith(low, "hint:") then HintField
    else NoField
  }

  /** A line whose lower-case form starts with a field key has a colon:
      lowering only changes letters. */
  lemma ColonInLine(line: string)
    requires FieldOf(Lower(line)) != NoField
    ensures ':' in line
  {
    var low := Lower(line);
    var k: nat :=
      if StartsWith(low, "status:") then 6
      else if StartsWith(low, "score:") then 5
      else if StartsWith(low, "feedback:") then 8
      else 4;
    assert k < |low| && low[k] == low[..k + 1][k] == ':';
    assert line[k] in line;
  }

  /** `line.split(":", 1)[1].strip()` */
  function FieldValue(line: string): string
    requires FieldOf(Lower(line)) != NoField
  {
    ColonInLine(line);
    Strip(AfterFirst(line, ':'))
  }

  /** The status a lower-cased status value names; anything unknown is
      partial. */
  function StatusNamed(v: string): ValidationStatus {
    if v == "correct" then Correct
    else if v == "incorrect" then Incorrect
    else Partial
  }

  /** `max(0.0, min(1.0, x))` */
  function Clamp(x: real): (r: real)
    ensures 0.0 <= r <= 1.0
    ensures 0.0 <= x <= 1.0 ==> r == x
    ensures x < 0.0 ==> r == 0.0
    ensures x > 1.0 ==> r == 1.0
  {
    var m := if x < 1.0 then x else 1.0;
    if m > 0.0 then m else 0.0
  }

  /** What has been read of the reply so far. */
  datatype Reading = Reading(status: ValidationStatus, score: real, feedback: string, hints: seq<string>)

  const InitialReading := Reading(Partial, 0.5, EvaluatedFeedback, [])

  /** One line of the reply: a status or feedback line replaces the value
      read so far, a score line replaces it when the number parses
      (`parseScore` stands for `float`), and a hint line adds its hint
      unless it says "none". */
  function ReadLine(p: Reading, raw: string, parseScore: string -> Option<real>): (q: Reading)
    ensures 0.0 <= p.score <= 1.0 ==> 0.0 <= q.score <= 1.0
  {
    var line := Strip(raw);
    var field := FieldOf(Lower(line));
    if field == NoField then p else ReadField(p, field, FieldValue(line), parseScore)
  }

  /** The effect of a field's value on the reading. */
  function ReadField(p: Reading, field: Field, v: string, parseScore: string -> Option<real>): (q: Reading)
    ensures 0.0 <= p.score <= 1.0 ==> 0.0 <= q.score <= 1.0
  {
    match field
    case StatusField => p.(status := StatusNamed(Lower(v)))
    case ScoreField =>
      (match parseScore(v)
       case Some(x) => p.(score := Clamp(x))
       case None => p)
    case FeedbackField => p.(feedback := v)
    case HintField => if Lower(v) != "none" then p.(hints := p.hints + [v]) else p
    case NoField => p
  }

  /** The lines read in order, starting from `p`. */
  function ReadLines(p: Reading, lines: seq<string>, parseScore: string -> Option<real>): (q: Reading)
    ensures 0.0 <= p.score <= 1.0 ==> 0.0 <= q.score <= 1.0
    decreases |lines|
  {
    if |lines| == 0 then p
    else ReadLines(ReadLine(p, lines[0], parseScore), lines[1..], parseScore)
  }

  /** `_parse_llm_response`: the reading of the stripped reply's lines; a
      verdict that is not correct gets the exercise's first hint after the
      model's own. */
  function ParseResponse(response: string, ex: Exercise, parseScore: string -> Option<real>): (r: ValidationResult)
    ensures ScoreInRange(r)
    ensures r.details == map["source" := "llm"]
    ensures var p := ReadLines(InitialReading, Split(Strip(response), '\n'), parseScore);
      r.status == p.status && r.score == p.score && r.feedback == p.feedback
    ensures var p := ReadLines(InitialReading, Split(Strip(response), '\n'), parseScore);
      r.hints == p.hints + (if r.status == Correct then [] else ExerciseHints(ex, 0))
    ensures r.status != Correct ==> HintsEndWith(r.hints, ExerciseHints(ex, 0))
  {
    Conclude(ReadLines(InitialReading, Split(Strip(response), '\n'), parseScore), ex)
  }

  /** The verdict a finished reading gives. */
  function Conclude(p: Reading, ex: Exercise): (r: ValidationResult)
    ensures 0.0 <= p.score <= 1.0 ==> ScoreInRange(r)
    ensures r.details == map["source" := "llm"]
    ensures r.status == p.status && r.score == p.score && r.feedback == p.feedback
    ensures r.hints == p.hints + (if r.status == Correct then [] else ExerciseHints(ex, 0))
    ensures r.status != Correct ==> HintsEndWith(r.hints, ExerciseHints(ex, 0))
  {
    var hints := if p.status != Correct then p.hints + ExerciseHints(ex, 0) else p.hints;
    assert p.status != Correct ==> hints[|p.hints|..] == ExerciseHints(ex, 0);
    ValidationResult(p.status, p.score, p.feedback, hints, map["source" := "llm"])
  }

  /** `_validate_with_llm`: the model is asked with the instruction, the
      expected output and the context when they are non-empty; an
      exception becomes a partial verdict of 0.5 that records it. */
  function ValidateWithLlm(ex: Exercise, answer: string, context: Option<string>,
                           generate: Prompt -> Reply, parseScore: string -> Option<real>): (r: ValidationResult)
    ensures ScoreInRange(r)
    ensures match generate(ValidationPrompt(ex.instruction, Included(ex.expectedOutput), answer, Included(context)))
      case Text(t) => r == ParseResponse(t, ex, parseScore)
      case Raised(m) =>
        && r.status == Partial && r.score == 0.5 && r.hints == []
        && r.feedback == "Validation error: " + m + ". Your answer has been recorded."
        && r.details == map["error" := m]
    ensures r.status == Incorrect ==> HintsEndWith(r.hints, ExerciseHints(ex, 0))
  {
    match generate(ValidationPrompt(ex.instruction, Included(ex.expectedOutput), answer, Included(context)))
    case Text(t) => ParseResponse(t, ex, parseScore)
    case Raised(m) =>
      ValidationResult(Partial, 0.5, "Validation error: " + m + ". Your answer has been recorded.", [],
                       map["error" := m])
  }

  // ---------------------------------------------------------------------
  // validate

  /** `validate`: a blank answer is wrong with the first hint; the tiers
      decide when the expected output is non-empty and one of them
      applies; otherwise the language model, or without one the basic
      verdict. Every score lies in [0, 1], a wrong verdict always ends with
      the exercise's first hint, and without a model a correct verdict is
      a full score with no hint. */
  function Validate(ex: Exercise, userAnswer: string, context: Option<string>,
                    client: Client, parseScore: string -> Option<real>): (r: ValidationResult)
    ensures ScoreInRange(r)
    ensures r.status == Incorrect ==> HintsEndWith(r.hints, ExerciseHints(ex, 0))
  {
    Judge(ex, Strip(userAnswer), context, client, parseScore)
  }

  /** The verdict on an answer already stripped of surrounding blanks. */
  function Judge(ex: Exercise, a: string, context: Option<string>,
                 client: Client, parseScore: string -> Option<real>): (r: ValidationResult)
    ensures ScoreInRange(r)
    ensures r.status == Incorrect ==> HintsEndWith(r.hints, ExerciseHints(ex, 0))
  {
    if a == "" then
      ValidationResult(Incorrect, 0.0, NoAnswerFeedback, ExerciseHints(ex, 0), map[])
    else if ex.expectedOutput.Some? && ex.expectedOutput.value != "" && ValidateWithPattern(ex, a).Some? then
      ValidateWithPattern(ex, a).value
    else if client.Client? then
      ValidateWithLlm(ex, a, context, client.generate, parseScore)
    else
      ValidateBasic(ex, a)
  }

  /** A blank answer is wrong, with the exercise's first hint. */
  lemma BlankAnswerRejected(ex: Exercise, userAnswer: string, context: Option<string>,
                            client: Client, parseScore: string -> Option<real>)
    requires AllSpace(userAnswer)
    ensures Validate(ex, userAnswer, context, client, parseScore)
            == ValidationResult(Incorrect, 0.0, NoAnswerFeedback, ExerciseHints(ex, 0), map[])
  {
  }

  /** Without a language model a correct verdict comes from a tier that
      accepted the answer: full score and no hint. */
  lemma CorrectWithoutModel(ex: Exercise, userAnswer: string, context: Option<string>,
                            parseScore: string -> Option<real>)
    ensures var r := Validate(ex, userAnswer, context, NoClient, parseScore);
      r.status == Correct ==> r.score == 1.0 && r.hints == []
  {
    var a := Strip(userAnswer);
    var r := Validate(ex, userAnswer, context, NoClient, parseScore);
    if a == "" {
      assert r.status == Incorrect;
    } else if ex.expectedOutput.Some? && ex.expectedOutput.value != "" && ValidateWithPattern(ex, a).Some? {
      assert r == ValidateWithPattern(ex, a).value;
    } else {
      assert r == ValidateBasic(ex, a);
    }
  }

  /** When the expected output is non-empty and a tier decides, its verdict
      is the answer's. */
  lemma PatternDecides(ex: Exercise, userAnswer: string, context: Option<string>,
                       client: Client, parseScore: string -> Option<real>)
    requires ex.expectedOutput.Some? && ex.expectedOutput.value != ""
    requires !AllSpace(userAnswer) && ValidateWithPattern(ex, Strip(userAnswer)).Some?
    ensures Validate(ex, userAnswer, context, client, parseScore)
            == ValidateWithPattern(ex, Strip(userAnswer)).value
  {
  }

  /** Surrounding blanks never change a verdict. */
  lemma ValidateIgnoresPadding(ex: Exercise, userAnswer: string, context: Option<string>,
                               client: Client, parseScore: string -> Option<real>)
    ensures Validate(ex, Strip(userAnswer), context, client, parseScore)
            == Validate(ex, userAnswer, context, client, parseScore)
  {
    StripIdempotent(userAnswer);
  }

  /** The expected output itself, in any letter case and with any spacing
      inside or around it, is accepted whatever the language model would
      have said. */
  lemma ExpectedAnswerAccepted(ex: Exercise, userAnswer: string, context: Option<string>,
                               client: Client, parseScore: string -> Option<real>)
    requires ex.expectedOutput.Some? && !AllSpace(userAnswer)
    requires Accepts(Strip(userAnswer), Strip(ex.expectedOutput.value))
    ensures var r := Validate(ex, userAnswer, context, client, parseScore);
      r.status == Correct && r.score == 1.0 && r.hints == []
  {
    assert Strip(userAnswer)[0] in Strip(userAnswer);
    AcceptedNotBlank(Strip(userAnswer), ex.expectedOutput.value);
    var pr := ValidateWithPattern(ex, Strip(userAnswer));
    assert pr.Some? && pr.value.status == Correct;
    PatternDecides(ex, userAnswer, context, client, parseScore);
  }

  /** Only a non-empty expected output accepts a non-empty answer. */
  lemma AcceptedNotBlank(a: string, e: string)
    requires !AllSpace(a) && Accepts(a, Strip(e))
    ensures e != ""
  {
    assert a != "";
    assert !Accepts(a, "") by {
      NormalizeNonEmpty(a);
      assert Normalize("") == "" by { WordsEmpty(""); }
      assert |Lower(a)| == |a|;
    }
    assert Strip("") == "";
  }

  /** A text with a non-blank character normalises to a non-empty text. */
  lemma NormalizeNonEmpty(s: string)
    requires !AllSpace(s)
    ensures Normalize(s) != ""
  {
    WordsEmpty(s);
    var ws := Words(s);
    assert |ws[0]| > 0;
    if |ws| > 1 {
      assert Join(ws, " ") == ws[0] + " " + Join(ws[1..], " ");
    }
  }

  /** When a tier decides, the language model is not consulted. */
  lemma PatternNeedsNoModel(ex: Exercise, userAnswer: string, context: Option<string>,
                            c1: Client, c2: Client, parseScore: string -> Option<real>)
    requires ex.expectedOutput.Some? && ex.expectedOutput.value != ""
    requires ValidateWithPattern(ex, Strip(userAnswer)).Some?
    ensures Validate(ex, userAnswer, context, c1, parseScore) == Validate(ex, userAnswer, context, c2, parseScore)
  {
  }

  // ---------------------------------------------------------------------
  // The reply format the prompt asks for

  function StatusName(s: ValidationStatus): string {
    match s
    case Correct => "correct"
    case Incorrect => "incorrect"
    case Partial => "partial"
  }

  /** A non-empty one-line value without surrounding blanks. */
  predicate Clean(v: string) {
    |v| > 0 && !IsSpace(v[0]) && !IsSpace(v[|v| - 1]) && '\n' !in v
  }

  /** The reply in the four-line format the prompt asks for; a missing hint
      is written "none". */
  function Report(status: ValidationStatus, scoreText: string, feedback: string, hint: Option<string>): string {
    Join(ReportLines(status, scoreText, feedback, hint), "\n")
  }

  function ReportLines(status: ValidationStatus, scoreText: string, feedback: string,
                       hint: Option<string>): seq<string> {
    ["Status" + ": " + StatusName(status), "Score" + ": " + scoreText, "Feedback" + ": " + feedback,
     "Hint" + ": " + hint.GetOr("none")]
  }

  /** A reply in the requested format is read back as written: its status,
      its score (when it parses within [0, 1]), its feedback and its hint,
      followed by the exercise's first hint unless the status is correct. */
  lemma {:induction false} ParseReport(status: ValidationStatus, scoreText: string, x: real,
                                       feedback: string, hint: Option<string>,
                                       ex: Exercise, parseScore: string -> Option<real>)
    requires Clean(scoreText) && parseScore(scoreText) == Some(x) && 0.0 <= x <= 1.0
    requires Clean(feedback)
    requires hint.Some? ==> Clean(hint.value) && Lower(hint.value) != "none"
    ensures var r := ParseResponse(Report(status, scoreText, feedback, hint), ex, parseScore);
      && r.status == status && r.score == x && r.feedback == feedback
      && r.hints == (if hint.Some? then [hint.value] else [])
                    + (if status == Correct then [] else ExerciseHints(ex, 0))
  {
    var lines := ReportLines(status, scoreText, feedback, hint);
    ReportSplits(status, scoreText, feedback, hint);
    ReadReport(status, scoreText, x, feedback, hint, parseScore);
  }

  /** The four report lines read from the initial reading. */
  lemma ReadReport(status: ValidationStatus, scoreText: string, x: real, feedback: string,
                   hint: Option<string>, parseScore: string -> Option<real>)
    requires Clean(scoreText) && parseScore(scoreText) == Some(x) && 0.0 <= x <= 1.0
    requires Clean(feedback)
    requires hint.Some? ==> Clean(hint.value) && Lower(hint.value) != "none"
    ensures ReadLines(InitialReading, ReportLines(status, scoreText, feedback, hint), parseScore)
            == Reading(status, x, feedback, if hint.Some? then [hint.value] else [])
  {
    NoneWord();
    StatusNameClean(status);
    ReportLinesRead(ReportLines(status, scoreText, feedback, hint), StatusName(status), scoreText, feedback,
                    hint.GetOr("none"), parseScore);
    ReportValues(status, scoreText, x, feedback, hint, parseScore);
  }

  /** The four report lines are read field by field. */
  lemma ReportLinesRead(lines: seq<string>, n: string, s: string, f: string, h: string,
                        parseScore: string -> Option<real>)
    requires Clean(n) && Clean(s) && Clean(f) && Clean(h)
    requires |lines| == 4
    requires lines[0] == "Status" + ": " + n && lines[1] == "Score" + ": " + s
    requires lines[2] == "Feedback" + ": " + f && lines[3] == "Hint" + ": " + h
    ensures ReadLines(InitialReading, lines, parseScore)
            == ReadField(ReadField(ReadField(ReadField(InitialReading, StatusField, n, parseScore),
                                             ScoreField, s, parseScore),
                                   FeedbackField, f, parseScore),
                         HintField, h, parseScore)
  {
    ReportLineFields(n, s, f, h);
    ReadFourKnown(InitialReading, lines, n, s, f, h, parseScore);
  }

  /** Each of the four report lines carries its field and value. */
  lemma ReportLineFields(n: string, s: string, f: string, h: string)
    requires Clean(n) && Clean(s) && Clean(f) && Clean(h)
    ensures FieldOf(Lower(Strip("Status" + ": " + n))) == StatusField && FieldValue(Strip("Status" + ": " + n)) == n
    ensures FieldOf(Lower(Strip("Score" + ": " + s))) == ScoreField && FieldValue(Strip("Score" + ": " + s)) == s
    ensures FieldOf(Lower(Strip("Feedback" + ": " + f))) == FeedbackField && FieldValue(Strip("Feedback" + ": " + f)) == f
    ensures FieldOf(Lower(Strip("Hint" + ": " + h))) == HintField && FieldValue(Strip("Hint" + ": " + h)) == h
  {
    StatusLine(n);
    ScoreLine(s);
    FeedbackLine(f);
    HintLine(h);
  }

  lemma StatusNameClean(s: ValidationStatus)
    ensures Clean(StatusName(s))
  {
    var n := StatusName(s);
    assert forall i :: 0 <= i < |n| ==> 'a' <= n[i] <= 'z';
  }

  /** The report's values, applied field by field to the initial reading. */
  lemma ReportValues(status: ValidationStatus, scoreText: string, x: real, feedback: string,
                     hint: Option<string>, parseScore: string -> Option<real>)
    requires parseScore(scoreText) == Some(x) && 0.0 <= x <= 1.0
    requires hint.Some? ==> Lower(hint.value) != "none"
    ensures ReadField(ReadField(ReadField(ReadField(InitialReading, StatusField, StatusName(status), parseScore),
                                          ScoreField, scoreText, parseScore),
                                FeedbackField, feedback, parseScore),
                      HintField, hint.GetOr("none"), parseScore)
            == Reading(status, x, feedback, if hint.Some? then [hint.value] else [])
  {
    NoneWord();
    StatusRoundTrip(status);
  }

  /** Four lines with known fields in report order are read field by field. */
  lemma ReadFourKnown(p: Reading, lines: seq<string>,
                      va: string, vb: string, vc: string, vd: string, parseScore: string -> Option<real>)
    requires |lines| == 4
    requires FieldOf(Lower(Strip(lines[0]))) == StatusField && FieldValue(Strip(lines[0])) == va
    requires FieldOf(Lower(Strip(lines[1]))) == ScoreField && FieldValue(Strip(lines[1])) == vb
    requires FieldOf(Lower(Strip(lines[2]))) == FeedbackField && FieldValue(Strip(lines[2])) == vc
    requires FieldOf(Lower(Strip(lines[3]))) == HintField && FieldValue(Strip(lines[3])) == vd
    ensures ReadLines(p, lines, parseScore)
            == ReadField(ReadField(ReadField(ReadField(p, StatusField, va, parseScore), ScoreField, vb, parseScore),
                                   FeedbackField, vc, parseScore), HintField, vd, parseScore)
  {
    ReadFour(p, lines, parseScore);
    ReadKnownLine(p, lines[0], StatusField, va, parseScore);
    var p1 := ReadLine(p, lines[0], parseScore);
    ReadKnownLine(p1, lines[1], ScoreField, vb, parseScore);
    var p2 := ReadLine(p1, lines[1], parseScore);
    ReadKnownLine(p2, lines[2], FeedbackField, vc, parseScore);
    var p3 := ReadLine(p2, lines[2], parseScore);
    ReadKnownLine(p3, lines[3], HintField, vd, parseScore);
  }

  /** "none", the word a missing hint is written as. */
  lemma NoneWord()
    ensures Clean("none") && Lower("none") == "none"
  {
    var n := "none";
    assert n[0] == 'n' && n[3] == 'e';
    assert !IsSpace('n') && !IsSpace('e');
    assert forall i :: 0 <= i < |n| ==> 'a' <= n[i] <= 'z';
  }

  /** The four report lines are the lines of the stripped report. */
  lemma ReportSplits(status: ValidationStatus, scoreText: string, feedback: string, hint: Option<string>)
    requires Clean(scoreText) && Clean(feedback) && Clean(hint.GetOr("none"))
    ensures Split(Strip(Report(status, scoreText, feedback, hint)), '\n') == ReportLines(status, scoreText, feedback, hint)
  {
    var lines := ReportLines(status, scoreText, feedback, hint);
    StatusNameClean(status);
    ReportLinesSplit(lines, StatusName(status), scoreText, feedback, hint.GetOr("none"));
  }

  lemma ReportLinesSplit(lines: seq<string>, n: string, s: string, f: string, h: string)
    requires Clean(n) && Clean(s) && Clean(f) && Clean(h)
    requires |lines| == 4
    requires lines[0] == "Status" + ": " + n && lines[1] == "Score" + ": " + s
    requires lines[2] == "Feedback" + ": " + f && lines[3] == "Hint" + ": " + h
    ensures Split(Strip(Join(lines, "\n")), '\n') == lines
  {
    NoNewline("Status" + ": ", n);
    NoNewline("Score" + ": ", s);
    NoNewline("Feedback" + ": ", f);
    NoNewline("Hint" + ": ", h);
    assert lines[0][0] == 'S';
    assert lines[3][|lines[3]| - 1] == h[|h| - 1];
    SplitStripJoin(lines, '\n');
  }

  /** Reading four lines is reading them one after the other. */
  lemma ReadFour(p: Reading, lines: seq<string>, parseScore: string -> Option<real>)
    requires |lines| == 4
    ensures ReadLines(p, lines, parseScore)
            == ReadLine(ReadLine(ReadLine(ReadLine(p, lines[0], parseScore), lines[1], parseScore),
                                 lines[2], parseScore), lines[3], parseScore)
  {
    var l1 := lines[1..];
    var l2 := l1[1..];
    var l3 := l2[1..];
    assert l1[0] == lines[1] && l2[0] == lines[2] && l3[0] == lines[3] && |l3[1..]| == 0;
    var p1 := ReadLine(p, lines[0], parseScore);
    var p2 := ReadLine(p1, l1[0], parseScore);
    var p3 := ReadLine(p2, l2[0], parseScore);
    ReadLinesStep(p, lines, parseScore);
    ReadLinesStep(p1, l1, parseScore);
    ReadLinesStep(p2, l2, parseScore);
    ReadLinesStep(p3, l3, parseScore);
  }

  /** A line whose field and value are known is read by its field. */
  lemma ReadKnownLine(p: Reading, line: string, field: Field, v: string, parseScore: string -> Option<real>)
    requires field != NoField && FieldOf(Lower(Strip(line))) == field && FieldValue(Strip(line)) == v
    ensures ReadLine(p, line, parseScore) == ReadField(p, field, v, parseScore)
  {
  }

  lemma ReadLinesStep(p: Reading, lines: seq<string>, parseScore: string -> Option<real>)
    requires |lines| > 0
    ensures ReadLines(p, lines, parseScore) == ReadLines(ReadLine(p, lines[0], parseScore), lines[1..], parseScore)
  {
  }

  lemma NoNewline(k: string, v: string)
    requires '\n' !in k && '\n' !in v
    ensures '\n' !in k + v
  {
    assert forall j :: 0 <= j < |k + v| ==> (k + v)[j] == (if j < |k| then k[j] else v[j - |k|]);
  }

  lemma StatusRoundTrip(s: ValidationStatus)
    ensures StatusNamed(Lower(StatusName(s))) == s
  {
    var n := StatusName(s);
    assert Lower(n) == n by {
      assert forall i :: 0 <= i < |n| ==> 'a' <= n[i] <= 'z';
    }
  }

  /** A line `key: v` is its own stripped form and its value is `v`. */
  lemma KeyedLine(key: string, v: string)
    requires |key| > 0 && !IsSpace(key[0]) && ':' !in key && Clean(v)
    ensures var line := key + ": " + v;
      Strip(line) == line && ':' in line && Strip(AfterFirst(line, ':')) == v
  {
    var line := key + ": " + v;
    assert line[0] == key[0];
    assert line[|line| - 1] == v[|v| - 1];
    StripStripped(line);
    FieldAfterColon(key, v);
  }

  lemma StatusLine(v: string)
    requires Clean(v)
    ensures var line := "Status" + ": " + v;
      FieldOf(Lower(Strip(line))) == StatusField && FieldValue(Strip(line)) == v
  {
    KeyedLine("Status", v);
    StatusPrefix(v);
  }

  lemma StatusPrefix(v: string)
    ensures FieldOf(Lower("Status" + ": " + v)) == StatusField
  {
    var line := "Status" + ": " + v;
    var key := "status:";
    var low := Lower(line);
    assert line[0] == 'S' && line[1] == 't' && line[2] == 'a' && line[3] == 't' && line[4] == 'u'
        && line[5] == 's' && line[6] == ':';
    assert low[0] == 's' && low[1] == 't' && low[2] == 'a' && low[3] == 't' && low[4] == 'u'
        && low[5] == 's' && low[6] == ':';
    assert forall i :: 0 <= i < 7 ==> low[..7][i] == key[i];
  }

  lemma ScoreLine(v: string)
    requires Clean(v)
    ensures var line := "Score" + ": " + v;
      FieldOf(Lower(Strip(line))) == ScoreField && FieldValue(Strip(line)) == v
  {
    KeyedLine("Score", v);
    ScorePrefix(v);
  }

  lemma ScorePrefix(v: string)
    ensures FieldOf(Lower("Score" + ": " + v)) == ScoreField
  {
    var line := "Score" + ": " + v;
    var key := "score:";
    var low := Lower(line);
    assert line[0] == 'S' && line[1] == 'c' && line[2] == 'o' && line[3] == 'r' && line[4] == 'e'
        && line[5] == ':';
    assert low[0] == 's' && low[1] == 'c' && low[2] == 'o' && low[3] == 'r' && low[4] == 'e'
        && low[5] == ':';
    assert forall i :: 0 <= i < 6 ==> low[..6][i] == key[i];
    assert !StartsWith(low, "status:") by {
      if |low| >= 7 { assert low[..7][1] == low[1]; }
    }
  }

  lemma FeedbackLine(v: string)
    requires Clean(v)
    ensures var line := "Feedback" + ": " + v;
      FieldOf(Lower(Strip(line))) == FeedbackField && FieldValue(Strip(line)) == v
  {
    KeyedLine("Feedback", v);
    FeedbackPrefix(v);
  }

  lemma FeedbackPrefix(v: string)
    ensures FieldOf(Lower("Feedback" + ": " + v)) == FeedbackField
  {
    var line := "Feedback" + ": " + v;
    var key := "feedback:";
    var low := Lower(line);
    assert line[0] == 'F' && line[1] == 'e' && line[2] == 'e' && line[3] == 'd' && line[4] == 'b'
        && line[5] == 'a' && line[6] == 'c' && line[7] == 'k' && line[8] == ':';
    assert low[0] == 'f' && low[1] == 'e' && low[2] == 'e' && low[3] == 'd' && low[4] == 'b'
        && low[5] == 'a' && low[6] == 'c' && low[7] == 'k' && low[8] == ':';
    assert forall i :: 0 <= i < 9 ==> low[..9][i] == key[i];
    assert !StartsWith(low, "status:") && !StartsWith(low, "score:") by {
      assert low[..6][0] == low[0];
      assert low[..7][0] == low[0];
    }
  }

  lemma HintLine(v: string)
    requires Clean(v)
    ensures var line := "Hint" + ": " + v;
      FieldOf(Lower(Strip(line))) == HintField && FieldValue(Strip(line)) == v
  {
    KeyedLine("Hint", v);
    HintPrefix(v);
  }

  lemma HintPrefix(v: string)
    ensures FieldOf(Lower("Hint" + ": " + v)) == HintField
  {
    var line := "Hint" + ": " + v;
    var key := "hint:";
    var low := Lower(line);
    assert line[0] == 'H' && line[1] == 'i' && line[2] == 'n' && line[3] == 't' && line[4] == ':';
    assert low[0] == 'h' && low[1] == 'i' && low[2] == 'n' && low[3] == 't' && low[4] == ':';
    assert forall i :: 0 <= i < 5 ==> low[..5][i] == key[i];
    assert !StartsWith(low, "status:") && !StartsWith(low, "score:") && !StartsWith(low, "feedback:") by {
      assert low[..6][0] == low[0];
      if |low| >= 7 { assert low[..7][0] == low[0]; }
      if |low| >= 9 { assert low[..9][0] == low[0]; }
    }
  }

  // ---------------------------------------------------------------------
  // Hints on request

  /** Python's `xs[i]`: negative positions count from the end; `None`
      stands for the `IndexError` raised outside the list. */
  function PyIndex<T>(xs: seq<T>, i: int): (r: Option<T>)
    ensures 0 <= i < |xs| ==> r == Some(xs[i])
    ensures -|xs| <= i < 0 ==> r == Some(xs[|xs| + i])
    ensures r.None? <==> i < -|xs| || i >= |xs|
  {
    if 0 <= i < |xs| then Some(xs[i])
    else if -|xs| <= i < 0 then Some(xs[|xs| + i])
    else None
  }

  /** `generate_hint` with `_generate_llm_hint`: attempt `n` gets the
      exercise's `n`-th hint while there is one; past the last, the
      language model's stripped reply, or the fallback hint when there is
      no model or it raised. An attempt number below 1 indexes the hints
      from the end as Python does, and `None` is the `IndexError` of one
      below minus the number of hints. */
  function GenerateHint(ex: Exercise, userAnswer: string, attempt: int, client: Client): (r: Option<string>)
    ensures 1 <= attempt <= |ex.hints| ==> r == Some(ex.hints[attempt - 1])
    ensures attempt > |ex.hints| && client.NoClient? ==> r == Some(FallbackHint)
    ensures attempt > |ex.hints| && client.Client? ==>
      r == match client.generate(HintPrompt(ex.instruction, Included(ex.expectedOutput), userAnswer, attempt))
           case Text(t) => Some(Strip(t))
           case Raised(_) => Some(FallbackHint)
    ensures r.None? <==> |ex.hints| > 0 && attempt <= -|ex.hints|
  {
    if |ex.hints| > 0 && attempt <= |ex.hints| then PyIndex(ex.hints, attempt - 1)
    else if client.Client? then
      match client.generate(HintPrompt(ex.instruction, Included(ex.expectedOutput), userAnswer, attempt))
      case Text(t) => Some(Strip(t))
      case Raised(_) => Some(FallbackHint)
    else Some(FallbackHint)
  }

  /** Asking for hints with attempts 1, 2, ... hands out the exercise's
      hints in order, each once. */
  lemma {:induction false} HintsInOrder(ex: Exercise, userAnswer: string, client: Client, n: nat)
    requires n <= |ex.hints|
    ensures forall i :: 0 <= i < n ==> GenerateHint(ex, userAnswer, i + 1, client) == Some(ex.hints[i])
    ensures HandOut(ex, userAnswer, client, n) == ex.hints[..n]
  {
    if n > 0 {
      HintsInOrder(ex, userAnswer, client, n - 1);
      assert ex.hints[..n] == ex.hints[..n - 1] + [ex.hints[n - 1]];
    }
  }

  /** The hints handed out for attempts 1 to `n`. */
  function HandOut(ex: Exercise, userAnswer: string, client: Client, n: nat): seq<string>
    requires n <= |ex.hints|
  {
    if n == 0 then []
    else HandOut(ex, userAnswer, client, n - 1) + [GenerateHint(ex, userAnswer, n, client).value]
  }
}

=== FILE: wrappers.dfy ===
/** Optional values and error-carrying results, standing in for Python's
    `None` and for the exceptions the core raises and catches. */
module Wrappers {

  datatype Option<+T> = None | Some(value: T) {

    /** The value when present, `default` otherwise (Python's `x or default`
        for an optional that is never falsy when present). */
    function GetOr(default: T): T {
      match this
      case Some(v) => v
      case None => default
    }
  }

  /** `Ok` carries a result, `Err` the exception the source would raise. */
  datatype Result<+T, +E> = Ok(value: T) | Err(error: E)

  /** The first element of `xs` satisfying `p`, as the `for … if …: return`
      searches of the models do, and `None` exactly when there is none. */
  function FirstMatch<T>(xs: seq<T>, p: T -> bool): (r: Option<T>)
    ensures r.None? <==> forall i :: 0 <= i < |xs| ==> !p(xs[i])
    ensures r.Some? ==> exists i :: 0 <= i < |xs| && xs[i] == r.value
                                    && (forall j :: 0 <= j < i ==> !p(xs[j]))
    ensures r.Some? ==> p(r.value)
  {
    if |xs| == 0 then None
    else if p(xs[0]) then Some(xs[0])
    else
      var r := FirstMatch(xs[1..], p);
      assert forall i :: 1 <= i < |xs| ==> xs[i] == xs[1..][i - 1];
      r
  }
}
